=== FILE: README.md ===
# itinerator in Dafny

itinerator turns a GPS track into a printable road book. It cuts the path
into page-sized segments. For each segment it fetches the map tiles that
cover it, names it after the places around it, and draws on the map:

- the part of the track that falls on the page;
- a marker every few kilometres;
- a legend with the elevation profile.

This project is a functional model of that core, with proofs of what each
operation promises. Every module follows one source file:

| module | source | contents |
|---|---|---|
| `GeoPoint` | geo/point.py | points, their arithmetic, moves by direction |
| `GeoUnits` | geo/utils.py | metric unit conversion |
| `PageFormat` | format.py | paper formats in inches, cm and pixels |
| `BoundingBox` | geo/bbox.py | the lon/lat envelope of points, its comparison with a page, its growth to a page |
| `Track` | track/track.py | greedy segmentation of the path |
| `LegacyTrack` | tracksegment.py | the older segmentation, naming and `from_path` |
| `TrackSegment` | track/segment.py | one segment's layout (see below) |
| `Tiles` | ign/api.py | the WMTS tile grid and tile query |
| `Overpass` | overpass/api.py | place records and their rankings |
| `LegacyOverpass` | overpass.py | the older place query |
| `Plot` | utils/plot.py | the legend's axes and vertical tick lines |
| `ImageOps` | utils/image.py | image bookkeeping: crop, border, merge, markers |
| `Kml` | utils/kml.py | reading a track's points, a box's rectangle |

`TrackSegment` covers one segment's layout:

- the tile span and the legend corner;
- the name and description;
- the places that name the segment;
- the distance profile;
- the drawn line and its ticks.

`Results`, `Strings`, `Order` and `PyMath` are shared helpers:

- Python exceptions as `Err` values;
- string formatting and replacement;
- the lexicographic tuple orders with their `min`/`max`;
- floor, ceiling, floor division, negative indexing and `range`.

Things the program gets from outside become parameters:

- **Geodesy.** geopy's distance and the spherical offset are the record
  `Geodesy(distance, offset)`. Properties that need them assume only that
  distances are non-negative and that a point is at distance 0 from itself
  (`Valid`).
- **The Mercator projection.** pyproj's projection is a function parameter
  `mercator`.
- **Page sizes.** The zoom level's page size in kilometres is the input
  `(w, h, m)`.
- **Place queries.** The Overpass query result is a function from place kind
  to localities.
- **Text size.** The font's text measure is a function parameter.

Python semantics are written out:

- negative sequence indexes;
- `range` with any non-zero step;
- floor division and `math.floor`/`math.ceil`;
- lexicographic tuple comparison in `min`/`max`;
- the exceptions each operation raises: IndexError, ValueError, TypeError,
  KeyError, ZeroDivisionError and AttributeError, each returned as an `Err`.

Floats are modelled as exact reals.

`Track.FromPath` and the legacy `LegacyTrack.FromPath` return `Done`,
`Raised` or `Diverges`. `Diverges` means the source's loop would repeat the
same call forever.

## Model

| member | source | states |
|---|---|---|
| GeoPoint.Get | geo/point.py:12-17 | indexing a point succeeds exactly for the indices 0 and 1; any other index raises |
| GeoPoint.UnpackRoundTrip | geo/point.py:12-17 | unpacking a point through its two indices and rebuilding it gives the same point |
| GeoPoint.Add | geo/point.py:64-68 | adding succeeds exactly when the other operand is a point, and then each indexed component is the sum of the two operands' components; a number raises ValueError |
| GeoPoint.Sub | geo/point.py:70-74 | subtracting succeeds exactly when the other operand is a point, and then each indexed component is the difference of the operands' components |
| GeoPoint.AddSubInverse | geo/point.py:64-74 | subtracting the point just added gives back the original point |
| GeoPoint.Mul | geo/point.py:79-80 | `p * k` scales each indexed component by `k` |
| GeoPoint.RMul | geo/point.py:76-77 | `k * p` also scales each indexed component by `k`, so it agrees with `p * k` |
| GeoPoint.Div | geo/point.py:82-83 | division is defined exactly for a non-zero divisor |
| GeoPoint.MulDivInverse | geo/point.py:79-83 | dividing by a non-zero factor undoes multiplying by it |
| GeoPoint.MidpointOfSame | geo/point.py:64-80 | the midpoint `0.5 * (p + p)` of a point with itself is the point |
| GeoPoint.LatLonIsSwap | geo/point.py:39-45 | `latlon` is `lonlat` with the components swapped, and rebuilding from it gives the point back |
| GeoPoint.MoveOne | geo/point.py:98-100 | `move_one` succeeds exactly for the four direction names of the table |
| GeoPoint.MoveOneCardinal | geo/point.py:86-100 | `move_one` with a direction name moves like the matching `move_north`/`move_east`/`move_south`/`move_west` |
| GeoPoint.Step | geo/point.py:102-108 | one step of `move`: a known name moves by its bearing, a bearing passes through, and an unknown name raises TypeError |
| GeoPoint.MoveConcat | geo/point.py:102-109 | moving along two lists of directions one after the other is moving along their concatenation, and a failing step stops it |
| GeoPoint.MoveSingleNamed | geo/point.py:98-109 | `move` with a single named direction agrees with `move_one` |
| GeoUnits.UnitsPositive | geo/utils.py:8-16 | every unit of the table has a positive length |
| GeoUnits.Convert | geo/utils.py:7-17 | conversion succeeds exactly when there are no arguments or both units are in the table (the units are looked up only per argument, so no arguments give `()` whatever the units), an unknown unit otherwise raising KeyError, keeping one value per argument; each result measured in the target unit is the same length as its argument measured in the source unit |
| GeoUnits.ScaledByRatio | geo/utils.py:17 | multiplying by the ratio of two unit lengths preserves the physical length |
| GeoUnits.ConvertSameUnit | geo/utils.py:7-17 | converting to the same unit changes nothing |
| GeoUnits.ConvertRoundTrip | geo/utils.py:7-17 | converting to another unit and back gives the arguments back |
| GeoUnits.CentimetreToKilometre | geo/utils.py:10-15 | centimetres to kilometres multiplies by 1e-5 |
| PageFormat.ToCm | format.py:5-6 | one value per argument, each 2.54 times its argument |
| PageFormat.ToInch | format.py:8-9 | one value per argument, each of which times 2.54 gives its argument back |
| PageFormat.CmInchRoundTrip | format.py:3-9 | inches to cm and back, and cm to inches and back, are identities |
| PageFormat.Cm | format.py:30-32 | the cm size is the inch size times 2.54, and converting it back gives the inch size |
| PageFormat.Make | format.py:12-20 | inches win over cm and are stored as given; cm give back the cm sizes; the explicit name wins over the generated one; the dpi is kept; a format with neither size fails |
| PageFormat.WithDpi | format.py:22-24 | calling a format with a dpi keeps its sizes and name and sets that dpi |
| PageFormat.ToPx | format.py:42-43 | each pixel size is the floor of dpi times the inch size |
| PageFormat.Px | format.py:38-40 | the pixel size is defined exactly when the format has a dpi, and then equals `to_px` at that dpi |
| PageFormat.AspectRatio | format.py:26-28 | defined exactly for a non-zero width, and then ratio times width is the height |
| PageFormat.PredefinedAreConstructed | format.py:45-51 | the seven named formats are what the constructor builds from their sizes and names |
| PageFormat.PredefinedArePortrait | format.py:45-51 | every named format is taller than wide |
| PageFormat.PredefinedReadBackInCm | format.py:45-49 | the A formats read back in cm as declared |
| BoundingBox.Contains | geo/bbox.py:167-170 | on a box with bounds, membership is the inclusive range test on both axes; an empty box raises |
| BoundingBox.West | geo/bbox.py:120-122 | the west edge midpoint lies on the minimum longitude at the mid-latitude |
| BoundingBox.East | geo/bbox.py:124-126 | the east edge midpoint lies on the maximum longitude at the mid-latitude |
| BoundingBox.North | geo/bbox.py:116-118 | the north edge midpoint lies on the maximum latitude at the mid-longitude |
| BoundingBox.South | geo/bbox.py:112-114 | the south edge midpoint lies on the minimum latitude at the mid-longitude |
| BoundingBox.Dims | geo/bbox.py:31-41 | an empty box has dimensions (0, 0), and under the distance axioms dimensions are never negative |
| BoundingBox.Add | geo/bbox.py:56-72 | the box after adding holds the point; the first point sets all bounds; later points only push bounds outward; everything inside stays inside; the envelope invariant is kept |
| BoundingBox.SinglePointHasZeroDims | geo/bbox.py:31-72 | a box holding one point has zero width and height |
| BoundingBox.FromPointsSnoc | geo/bbox.py:50-54 | building from a list extended by one point is adding that point to the box of the list |
| BoundingBox.FromPointsIsEnvelope | geo/bbox.py:50-72 | the box of a list is empty exactly for the empty list, and otherwise is the tight envelope of its points |
| BoundingBox.Lt | geo/bbox.py:87-90 | `<` holds exactly when the box fits strictly inside the target in one of its two orientations |
| BoundingBox.Le | geo/bbox.py:92-95 | `<=` holds exactly when the box fits inside the target in one orientation |
| BoundingBox.Gt | geo/bbox.py:97-100 | `>` holds exactly when the target fits strictly inside the box in one orientation |
| BoundingBox.Ge | geo/bbox.py:102-105 | `>=` holds exactly when the target fits inside the box in one orientation |
| BoundingBox.ComparisonsIgnorePairOrder | geo/bbox.py:87-105 | none of the four comparisons depends on the order of the target pair |
| BoundingBox.Expand | geo/bbox.py:146-149 | expanding succeeds exactly on a box with bounds and yields a box with bounds; an empty box raises TypeError |
| BoundingBox.OrientedTarget | geo/bbox.py:151-156 | the target is laid with its larger side along the box's larger side and its sides are kept |
| BoundingBox.ExpandTo | geo/bbox.py:151-165 | a box already as large as the oriented target is unchanged; a short axis grows by half its shortfall on each side; when both are short the longitude is expanded first and the latitude of that result second; an empty box fails unless the target is non-positive |
| Track.Limits | track/track.py:40 | the two limits are the two page sides less the margin, the first from the side that is at least the other |
| Track.FirstPointAdmitted | track/track.py:35-48 | under the distance axioms, the first point of a segment is admitted exactly when the smaller limit is positive |
| Track.Segmentize | track/track.py:35-48 | the segment admits a maximal run of points from `start`: every admitted point passes the size test, the first refused one fails it, the raw box is their envelope, and the fitted box is the raw box grown to the page |
| Track.GrowBox | track/track.py:39-44 | the loop stops at the first point whose addition would reach the limits; every point before it passes, and the box is the one `Bbox.add` builds from exactly those points |
| Track.FromPath | track/track.py:18-32 | with a positive limit the segmentation finishes and chains segments over the whole path; with a non-positive one it never finishes normally on a non-empty path |
| Track.ChainedSnoc | track/track.py:19-30 | appending the segment that starts where scanning stopped extends the chain of segments to where it stopped |
| Track.ChainedCoversPath | track/track.py:18-32 | a finished segmentation starts at point 0 and ends at the last point; each segment ends where the next one starts, and every segment but the last advances |
| Track.LoadFormat | track/track.py:50-54 | an explicit dpi replaces the format's; otherwise the format keeps its dpi, or gets 72 without one; the size and name are kept |
| Track.LoadFormatSettles | track/track.py:50-54 | after loading, the pixel size is defined, and loading again without a dpi changes nothing |
| LegacyTrack.Segmentize | tracksegment.py:121-136 | the legacy segment is the scan of `Track.Segmentize`: some stopping index exists before which every point was admitted and at which (short of the path's end) the point was refused, the raw box holds exactly the scanned points, and the end is that index clamped to the last point; it succeeds whenever the start point is admitted, and otherwise can only raise TypeError with a positive page side |
| LegacyTrack.SegmentizeAdmitted | tracksegment.py:126-134 | with valid distances and positive limits the scan from any index succeeds and both its raw and fitted boxes are non-empty, so `expand(1, 1)` cannot raise |
| LegacyTrack.SignificanceRank | tracksegment.py:102-109 | the rank is defined exactly when the place has no type or a listed one (else ValueError); it carries the type's position in the kind list (-1 without a type), the population and the name |
| LegacyTrack.SignificanceRanks | tracksegment.py:110 | one rank per place, failing exactly when some place type is unlisted |
| LegacyTrack.MaxRankIsMostSignificant | tracksegment.py:110 | the maximal rank names a most significant place |
| LegacyTrack.ProcessCityList | tracksegment.py:100-119 | the short name carries a most significant place; the long name is built from the nearest places' fields with department and name swapped |
| LegacyTrack.ProcessCityListSwapsNameAndDept | tracksegment.py:114-118 | with one place, the long name prints the department where the name belongs and the name where the department belongs |
| LegacyTrack.SensExample | tracksegment.py:114-118 | the town of Sens (department 89) alone gives the long name "de 89 (Sens) à 89 (Sens)" |
| LegacyTrack.FromPath | tracksegment.py:86-98 | the legacy loop finishes normally exactly on the empty path; on any other path it raises or repeats the same call forever, and when nothing can raise (valid distances, positive limits, every place list non-empty with listed types) a non-empty path always repeats forever |
| LegacyTrack.EncodeName | tracksegment.py:34-36 | the encoded name has the same length and no space, apostrophe or slash; each character is mapped on its own |
| TrackSegment.NCols | track/segment.py:161-166 | the column count is undefined exactly when the coordinates are unset, and is otherwise what must be added to the first column to reach the last; the legacy `n_cols` (tracksegment.py:48-53) is the same code |
| TrackSegment.NRows | track/segment.py:168-173 | the row count is undefined exactly when the coordinates are unset, and is otherwise what must be added to the first row to reach the last; the legacy `n_rows` (tracksegment.py:55-60) is the same code |
| TrackSegment.Dim | track/segment.py:175-179 | the dimension is undefined exactly when the coordinates are unset, and is otherwise the row distance followed by the column distance of the span; the legacy `dim` (tracksegment.py:62-66) is the same code |
| TrackSegment.SpanFromDim | track/segment.py:161-179 | a span is rebuilt from its top-left tile and its `dim` |
| TrackSegment.PageTarget | track/segment.py:195-199 | the target holds the two pixel sides less twice the border, in some order; its first component comes from the pixel height exactly when the span is strictly wider than tall |
| TrackSegment.Widening | track/segment.py:200-207 | for a positive tile size, the widening is the least tile count whose two strips cover the shortfall |
| TrackSegment.FindCoords | track/segment.py:187-209 | the span is widened by the same count on both sides; the columns widen exactly when the oriented target height exceeds the span's pixel height, by the least count of tile heights that covers it, and the rows exactly when the target width exceeds the pixel width, counting in tile widths; a zero tile size on a widened axis raises ZeroDivisionError |
| TrackSegment.FindCoordsMissesPage | track/segment.py:199-207 | a 10 x 1 tile span on a 4 x 20 pixel page comes out 14 columns wide for a 20 pixel target width, so the page is not covered |
| TrackSegment.FindCoordsCorrected | track/segment.py:187-209 | with the axes matched, the span is widened evenly and covers the oriented page target on both axes, each by the least count that does, for positive tile sizes |
| TrackSegment.WidenedCovers | track/segment.py:201-207 | widening by `d` tiles on each side adds `2 * tile * d` pixels, enough when `d` covers the shortfall |
| TrackSegment.FindCoordsGrowsEvenly | track/segment.py:161-209 | the widened span keeps the original centred: column and row counts grow by an even, non-negative amount, and `dim` follows |
| TrackSegment.Hidden | track/segment.py:317-326 | no more points are counted than the line holds |
| TrackSegment.HiddenAppend | track/segment.py:323-326 | counting hidden points is additive over any split of the line |
| TrackSegment.HiddenZero | track/segment.py:319-326 | the count is 0 exactly when no point of the line lies in the rectangle |
| TrackSegment.FindLegendPos | track/segment.py:307-329 | the chosen corner hides no more points than any other, and among equal counts it has the alphabetically first name |
| TrackSegment.CornerNameOrder | track/segment.py:311-316 | the tie-break order of the corners is bottomleft, bottomright, topleft, topright |
| TrackSegment.EncodeName | track/segment.py:148-150 | the encoded name has no space, colon, apostrophe or slash, and is the character mapping applied after the stage separator becomes a dash |
| TrackSegment.EncodeNameSplitsStage | track/segment.py:148-150 | a name made of a colon-free head, the stage separator and a tail encodes as the encoded head, a dash and the encoded tail |
| TrackSegment.Name | track/segment.py:53-58 | an explicit name is returned verbatim; otherwise the name is "Étape ", the stage number `id + 1` padded to two digits, " : " and the main place's name, and without a main place the lookup raises AttributeError |
| TrackSegment.GeneratedNameEncoding | track/segment.py:53-63 | a generated name encodes as "Étape_", the stage number `id + 1` in two digits, a dash and the encoded place name |
| TrackSegment.SignificanceList | track/segment.py:101 | the list of significance ranks is built exactly when every place's type is unset or listed (else ValueError), one rank per place in order |
| TrackSegment.MainDescr | track/segment.py:70-73 | the place line starts "Traversée de " exactly when the segment starts and ends near the same place, and then names that place with its department; otherwise it names the start place, then " à ", then the end place |
| TrackSegment.Descr | track/segment.py:65-80 | the description exists exactly when both end places are known; it starts with the explicit text and a newline when there is one, then the place line and the distance line |
| TrackSegment.GenerateName | track/segment.py:152-156 | a given name comes back with the given description; otherwise "segment_" and digits that read back as the id, and the description "Points <start> to <end>" |
| TrackSegment.GetCities | track/segment.py:93-109 | with no place, three unknowns; otherwise the main place is a most significant one and the end places are the nearest to each end point, each with its own name and department; errors follow the index and type checks |
| TrackSegment.GetCitiesSinglePlace | track/segment.py:93-109 | with one place, all three places are it with name and department in their own fields, so the description reads as a traversal |
| TrackSegment.CumDistance | track/segment.py:111-121 | one entry per sample of `range(start, end, step)`, each the scaled distance walked up to that sample; a zero step raises ValueError and a sample outside the path IndexError; under the distance axioms it starts at 0 and never falls |
| TrackSegment.WalkSamples | track/segment.py:113-121 | the walk succeeds exactly when every sample indexes the path; entry `k` is the scaled distance walked from the first sample through sample `k` |
| TrackSegment.GetDistance | track/segment.py:123-125 | the total is the last profile entry at step 10; an empty range raises IndexError; under the distance axioms it is non-negative |
| TrackSegment.MakeConverter | track/segment.py:257-262 | the converter's corners are the corners of the span's first and last tiles, its image size is the size given, and for a proper span x grows east and y south |
| TrackSegment.Convert | track/segment.py:264-268 | conversion is defined exactly for a non-degenerate span (else ZeroDivisionError); every point's pixel x times the span width is the image width times the point's offset from the first corner, and likewise for y, so the span's two corners go to (0, 0) and (w, h) |
| TrackSegment.ConvertSpanOntoImage | track/segment.py:264-268 | a point whose projection lies within the span lands on the image |
| TrackSegment.TrackLine | track/segment.py:271-293 | the line is the maximal backward run of points past the top-left corner, then the maximal forward run before the bottom-right corner, never reaching the last point; `i_start` is the backward run's length |
| TrackSegment.WalkBack | track/segment.py:278-284 | the backward run holds the points ending at `start` that lie past the top-left corner, in path order, and the point just before the run (if any) fails the test |
| TrackSegment.WalkForward | track/segment.py:287-293 | the forward run holds the points from `start` that lie before the bottom-right corner, stops at the first that fails, and never takes the last point |
| TrackSegment.TicksBefore | track/segment.py:299-301 | the indices listed lie in `[1, n)` and come in strictly increasing order |
| TrackSegment.TicksBeforeExact | track/segment.py:299-301 | an index below `n` is listed exactly when the floored distance changes its multiple of `step` there |
| TrackSegment.TickIndices | track/segment.py:295-301 | the ticks start at 0, strictly increase, and hold ten times every index where a tick falls and nothing else: every mark after the leading 0 is ten times a tick index, and there is exactly one mark per tick index besides it; with a zero step only `[0]` comes back, and only when no comparison runs, otherwise it raises ZeroDivisionError |
| TrackSegment.TenfoldOnlyTicks | track/segment.py:295-301 | past the leading 0, each mark `i * smooth` comes from an index where a tick falls |
| TrackSegment.TickPoints | track/segment.py:303 | one point per tick, taken at the tick offset by `i_start`; a tick past the line raises IndexError |
| TrackSegment.GetTrackLine | track/segment.py:271-305 | past the path it raises IndexError, on a degenerate span, or on a zero step with two or more profile samples, ZeroDivisionError; otherwise it succeeds exactly unless a tick falls past the walked line (IndexError); on success the line is the two walks and mark `k` is the line point at `i_start` plus tick `k`, the first mark being the pixel of the segment's start |
| Tiles.TileAttributes | ign/api.py:52-56 | the tile side in metres, divided by the resolution in metres per pixel, gives the tile height in pixels (and divided by that height gives the resolution); it is positive for a positive height and resolution and zero when either is zero; the origin is the matrix's top-left corner |
| Tiles.GetCoords | ign/api.py:58-68 | defined exactly for a non-zero tile size; for a positive one the column and row count whole tiles from the origin, east and south |
| Tiles.FloorScaled | ign/api.py:65-66 | a value lies between the multiples of the tile size just below and just above it |
| Tiles.ReverseCoords | ign/api.py:70-76 | a tile corner lies west of the origin exactly for a negative column, and north of it exactly for a negative row |
| Tiles.PointInItsTile | ign/api.py:58-76 | a point lies between the corner of the tile it falls in and the corner of the next tile |
| Tiles.ReverseCoordsRoundTrip | ign/api.py:58-76 | going from a tile to its corner and back gives the same tile |
| Tiles.GetCoordsMonotone | ign/api.py:58-68 | columns never decrease eastward and rows never decrease southward |
| Tiles.Query | ign/api.py:17-38 | the query starts with the service, request, version, layer, matrix set and level in order, and ends with the style and format |
| Overpass.ApplyTags | overpass/api.py:34-39 | the tag loop succeeds exactly when every `tag` child has both `k` and `v`, and otherwise raises KeyError |
| Overpass.ApplyTagsKeepsLast | overpass/api.py:34-45 | each field a tag sets ends as the value of the last well-formed tag with its key |
| Overpass.ParseNode | overpass/api.py:24-45 | a node parses exactly when `lon` and `lat` are present and accepted by `float`, `id` is present, every tag child is readable and a last `population` tag is accepted by `int`; it raises KeyError or ValueError otherwise; the record takes its position from `lon`/`lat`, its name from the last `name` tag or else the id, its zipcode from the last `ref:INSEE` tag or else UNKNOWN, and its population from the last `population` tag or else 0 |
| Overpass.ParseNodeDefaults | overpass/api.py:24-33 | a node without tags keeps the defaults: its id as name, population 0, zipcode UNKNOWN |
| Overpass.NoTagMeansNoValue | overpass/api.py:34-45 | without tag children no key has a value |
| Overpass.NodeChildren | overpass/api.py:23-24 | an element is kept exactly when it is a child tagged `node` |
| Overpass.NodeChildrenAppend | overpass/api.py:23-24 | selecting nodes distributes over concatenation, so the kept nodes stay in document order |
| Overpass.ParseAll | overpass/api.py:21-50 | the loop succeeds exactly when every `node` child parses, and then gives one record per `node` child, each being that node's parse |
| Overpass.ParseXml | overpass/api.py:21-50 | parsing a document succeeds exactly when every `node` child parses, and gives one record per `node` child, in document order |
| Overpass.Annotate | overpass/api.py:66-69 | the annotated place has the query kind as its type and the first two zipcode characters as its department, with its other fields kept |
| Overpass.AnnotateAll | overpass/api.py:66-69 | each place keeps its locality's name, position, population and zipcode, takes the query kind as its type, and takes the first (at most) two zipcode characters as its department |
| Overpass.PlacesOfKinds | overpass/api.py:62-71 | every place carries one of the queried kinds |
| Overpass.PlacesOfKindsAppend | overpass/api.py:64-70 | querying a list of kinds gives the places of its first part followed by those of the rest |
| Overpass.PlacesOfOneKind | overpass/api.py:65-70 | one kind's block is its query's results annotated with that kind |
| Overpass.KindBlocks | overpass/api.py:64-70 | three kinds give their three annotated blocks in order |
| Overpass.GetPlaces | overpass/api.py:62-71 | the annotated villages, then the annotated towns, then the annotated cities, one place per locality found |
| Overpass.IndexOf | overpass/api.py:77-84 | the index of the first occurrence, or -1 exactly when the kind is absent |
| Overpass.Significance | overpass/api.py:77-84 | defined exactly for an unset or listed type; gives the type's position (-1 when unset) and the population |
| Overpass.RankBySignificance | overpass/api.py:73-87 | the rank is defined exactly when the place has no type or a listed one (else ValueError); it carries the type's position in the kind list (-1 without a type), the population, the department and the name |
| Overpass.MinRankIsNearest | overpass/api.py:73-91 | the minimal distance rank names a place nearest to the reference |
| Overpass.RankTieBreak | overpass/api.py:89-91 | at equal distance, the ranks compare by department and then by name |
| LegacyOverpass.GetPlaces | overpass.py:58-66 | the annotated villages, towns, suburbs, then cities, one place per locality found |
| Plot.SetAxes | utils/plot.py:18-31 | the window has height `max_diff` and never goes below 0; it is shifted up to 0 when it would, and otherwise is centred on the data |
| Plot.SetAxesShowsData | utils/plot.py:18-31 | for non-negative data spanning no more than `max_diff`, the window contains every elevation |
| Plot.Crossings | utils/plot.py:7-9 | the listed indices lie in `[1, n)` and come in strictly increasing order |
| Plot.CrossingsExact | utils/plot.py:7-9 | an index below `n` is listed exactly when the distance crosses a multiple of `step` between it and the previous sample |
| Plot.CrossingIsTick | utils/plot.py:8 | for a positive step, the legend's tick test agrees with the map's tick test |
| Plot.CrossingMoves | utils/plot.py:8-10 | at a crossing the two distances differ, so the weight's division is defined |
| Plot.XLines | utils/plot.py:13 | the grid positions are the multiples of `step` from `step` below the floored last distance |
| Plot.VlinesWith | utils/plot.py:4-16 | empty distances raise IndexError and a zero step ZeroDivisionError or ValueError; for any non-zero step it succeeds exactly when the profile is non-empty, no crossing joins equal distances (only a negative step allows one, and its weight divides by zero) and every crossing has an elevation; then one line per crossing, from `z_min` to the interpolated elevation |
| Plot.MaxLines | utils/plot.py:15 | one line top per crossing, the crossing's weight `t` mixing the elevations around it as `t * e[i] + (1 - t) * e[i-1]` |
| Plot.GetVlines | utils/plot.py:4-16 | empty distances raise IndexError; on success there is one bottom and one top per crossing, each crossing joins two distinct samples that both have an elevation, and each top uses the weight `(i - d[i-1]) / (d[i] - d[i-1])` |
| Plot.VlineWeightExample | utils/plot.py:10 | distances 4 km and 6 km with elevations 100 m and 200 m put the line top at -50 m |
| Plot.IntendedWeightInterpolates | utils/plot.py:10 | the weight taken at the crossed multiple of `step` lies in (0, 1] |
| Plot.CorrectedVlinesBetween | utils/plot.py:4-16 | on strictly increasing distances with a positive step and an elevation for every sample, the lines are computed without error and every line top lies between the two elevations around its crossing |
| Plot.MaxLinesBetween | utils/plot.py:14-15 | with the intended weight, each line top at a crossing of a growing profile lies between the elevations around it |
| ImageOps.Paste | utils/image.py:32 | pasting keeps the size and records the pasted rectangle last |
| ImageOps.CropBox | utils/image.py:12-17 | the crop box trims half the excess, rounded down, from the left and top, and keeps the right and bottom margins equal |
| ImageOps.Crop | utils/image.py:7-18 | the image comes back unchanged whatever the size |
| ImageOps.CropCorrected | utils/image.py:7-17 | the cropped image has the asked size, or one pixel more when the excess is odd |
| ImageOps.CropKeepsSize | utils/image.py:17-18 | a 100 x 100 image cropped to 50 x 50 stays 100 wide, while the corrected crop is 50 wide |
| ImageOps.AddBorder | utils/image.py:20-33 | no border returns the image; an int or a pair grows the canvas by twice the border and pastes the image at the border offset; any other value raises TypeError |
| ImageOps.AddBorderCentres | utils/image.py:30-33 | the bordered image holds the original with equal margins on opposite sides |
| ImageOps.CropUndoesBorder | utils/image.py:7-33 | cropping a bordered image back to the original size removes the border |
| ImageOps.CornerOf | utils/image.py:64-69 | a name has a corner exactly when it is one of the four corner names |
| ImageOps.Merge | utils/image.py:60-72 | merging succeeds exactly for a corner name (else KeyError), keeps the main size, and pastes the secondary flush with that corner |
| ImageOps.MergeCoversCountedCorner | utils/image.py:60-72 | merging at the corner `find_legend_pos` chose covers exactly the rectangle whose hidden points it counted |
| ImageOps.MergeAtCorner | utils/image.py:64-71 | merging at a corner's name covers that corner's legend rectangle |
| ImageOps.DrawPoints | utils/image.py:40-53 | one marker per point, in order: the `i`-th is drawn at the `i`-th point, its label reads back as `i * step`, and its ellipse box is a square |
| ImageOps.MarkerAt | utils/image.py:44-52 | the label reads back as `i * step` and is drawn at the tick; its ellipse box is a square containing the text with a margin of at least 4 pixels |
| Kml.LinePoints | utils/kml.py:28-29 | one point per coordinate triple; each point with its triple's altitude gives the triple back |
| Kml.ReadTrack | utils/kml.py:22-32 | the points read are a prefix of all points in document order; a positive cap within reach keeps exactly that many, and otherwise all are kept |
| Kml.FlattenPrefixOfAll | utils/kml.py:26-31 | the points read up to any line and coordinate are a prefix of all points |
| Kml.Rectangle | utils/kml.py:37-45 | four vertices, all at altitude 0 |
| Kml.RectangleOfBox | utils/kml.py:37-45 | a box's rectangle visits its north-west, north-east, south-east and south-west corners, stays within the box, and runs clockwise on a box with area |

## Left out

- I/O and the network: reading and saving files, `read_kml`, `placemark`,
  `document`, `save_to_kml`, HTTP requests to the tile, elevation and
  Overpass services (`get_tile`, `get_elevation`, `alti_query`,
  `build_query`, `parse_file`, `parse_string`), pickling in `save`/`open`.
  Their results enter the model as inputs.
- Geodesy: geopy's ellipsoidal distance, the spherical `offset`, `as_radians`,
  `from_radians` and the pyproj Mercator projection. These are parameters;
  only the distance axioms are assumed.
- `ZoomLevel.rescale`, `tile_matrix` and the zoom table: the page size in
  kilometres and the tile matrix fields are inputs.
- Rendering: `load_tile`, `build_legend`, `draw_line`, `set_grid`, matplotlib
  and PIL drawing, colours and fonts. Images are their size plus the list of
  pasted rectangles, and text size is a parameter.
- `statistics`, `__str__`, `__repr__`, `to_kml` and the float formatting of
  the statistics lines: the three statistics lines of `descr` arrive as text.
- `get_elevation` of a segment, `process()` and `denivele`: they depend on the
  elevation service.
- The class counter that numbers segments: ids are explicit inputs.
- Boxes with only some bounds set: the program never builds one, so a box is
  either empty or has all four bounds.
- Floats: distances, sizes and weights are exact reals, so rounding error is
  not modelled.
- `read_track` returns the track's name as well; the model returns the points
  only, since the name comes from parsing the file.
- `rectangle` returns a shapely Polygon; the model returns its vertex list.
- The legacy `generate_name` is the same code as the current one and is
  modelled once, by `TrackSegment.GenerateName`.
- The legacy `n_cols`, `n_rows` and `dim` (tracksegment.py:48-66) are the
  same code as the current ones and are modelled once, by
  `TrackSegment.NCols`, `TrackSegment.NRows` and `TrackSegment.Dim`.
- The legacy `parse_xml` of overpass.py is the same as the current one; only
  its `get_places`, which queries suburbs as well, is modelled separately.
- `Track.load` beyond its DPI defaulting: the rest is tile downloads and
  rendering.
- Tiles.Query: states the fixed head and tail of the query and not the column
  and row fields between them, because their digits are formatted integers.
- TrackSegment.FindCoords: the covering bounds are stated for positive tile
  sizes only; a negative tile size is accepted but not characterised.
- PageFormat.Make: the generated name formats the sizes with a `show`
  parameter instead of Python's float formatting.
- Track.LoadFormat: models the format as a value and returns the updated
  one. The source assigns `self.format.dpi` in place. The default format is
  the module-level `format.A4` object (track/track.py:18), so `load` on one
  track also changes the DPI seen by every other track built with the
  default. That aliasing is not modelled.
- TrackSegment.Descr: states the prefix up to the distance line; the altitude
  and climb lines follow it unconstrained.

## Findings

| source | as written | input that shows it | evidently intended | confidence | as-written member | corrected member |
|---|---|---|---|---|---|---|
| tracksegment.py:89-90 | `from_path` feeds the end that `segmentize` clamps to the last point back in as the next start, so once the last segment is reached the same call repeats forever | any non-empty path | stop after the segment containing the last point, as track/track.py does | high, not executed | LegacyTrack.FromPath | Track.FromPath, Track.ChainedCoversPath |
| tracksegment.py:114-118 | the `(distance, dept, name)` tuple is unpacked as `(_, from_city, from_dept)`, so the department is printed as the place name and the name as its department | a single town Sens in department 89 gives "de 89 (Sens)" | "de Sens (89)", as track/segment.py unpacks it | high, not executed | LegacyTrack.SensExample, LegacyTrack.ProcessCityList | TrackSegment.GetCities, TrackSegment.GetCitiesSinglePlace |
| utils/image.py:17-18 | `im.crop(...)` returns a new image that is never assigned back to `im`, so the cropped image is discarded and the original is returned | a 100 x 100 image with size (50, 50) comes back 100 x 100 | return the cropped image | high, not executed | ImageOps.Crop, ImageOps.CropKeepsSize | ImageOps.CropCorrected, ImageOps.CropUndoesBorder |
| track/segment.py:199-207 | the column pair is widened when the target height exceeds the span's height, counting in tile heights, and the row pair when the target width exceeds its width | tile size 1 x 1, first tile (0, 0), last tile (10, 1), page 4 x 20 pixels, no border: the target is 20 x 4 and the span comes out 14 columns by 11 rows | widen the columns by the width shortfall and the rows by the height shortfall, so the span covers the page | medium, not executed | TrackSegment.FindCoords, TrackSegment.FindCoordsMissesPage | TrackSegment.FindCoordsCorrected |
| utils/plot.py:10 | the interpolation weight subtracts the previous distance from the index `i` instead of from the crossed multiple of `step` | distances [4, 6] km, elevations [100, 200] m, step 5: the line top is at -50 m | the weight `(step * floor(d[i] / step) - d[i-1]) / (d[i] - d[i-1])` in (0, 1], which puts the line top between the two elevations | medium, not executed | Plot.VlineWeightExample, Plot.GetVlines | Plot.IntendedWeightInterpolates, Plot.CorrectedVlinesBetween |

=== FILE: bbox.dfy ===
/** The lon/lat envelope of a set of points (geo/bbox.py). A box is empty
    until its first point; adding a point only ever widens it. Its physical
    dimensions are geodesic distances between edge midpoints, and the
    comparison operators test those dimensions against a target pair. */
module BoundingBox {
  import opened Results
  import opened PyMath
  import opened GeoPoint

  /** `Bbox`: no bounds yet, or the four bounds in degrees. */
  datatype Box = Empty | Bounds(lonMin: real, lonMax: real, latMin: real, latMax: real)

  /** The envelope invariant: each minimum at most its maximum. */
  predicate WellFormed(b: Box) {
    b.Bounds? ==> b.lonMin <= b.lonMax && b.latMin <= b.latMax
  }

  /** The inclusive range test of `__contains__` on a non-empty box. */
  predicate InBox(b: Box, q: Point)
    requires b.Bounds?
  {
    b.lonMin <= q.lon && b.lonMax >= q.lon && b.latMin <= q.lat && b.latMax >= q.lat
  }

  /** `p in box`; on an empty box the comparison with `None` raises TypeError. */
  function Contains(b: Box, q: Point): (r: Result<bool>)
    ensures r.Ok? <==> b.Bounds?
    ensures r.Ok? ==> (r.value <==> InBox(b, q))
  {
    if b.Empty? then Err(TypeError)
    else Ok(b.lonMin <= q.lon && b.lonMax >= q.lon && b.latMin <= q.lat && b.latMax >= q.lat)
  }

  function Northwest(b: Box): Point
    requires b.Bounds?
  {
    Point(b.lonMin, b.latMax)
  }

  function Southwest(b: Box): Point
    requires b.Bounds?
  {
    Point(b.lonMin, b.latMin)
  }

  function Northeast(b: Box): Point
    requires b.Bounds?
  {
    Point(b.lonMax, b.latMax)
  }

  function Southeast(b: Box): Point
    requires b.Bounds?
  {
    Point(b.lonMax, b.latMin)
  }

  /** The west edge midpoint `0.5 * (northwest + southwest)`: on the minimum
      longitude, at the mid-latitude. */
  function West(b: Box): (p: Point)
    requires b.Bounds?
    ensures p == Point(b.lonMin, (b.latMin + b.latMax) / 2.0)
  {
    Scale(0.5, Plus(Northwest(b), Southwest(b)))
  }

  /** The east edge midpoint: on the maximum longitude, at the mid-latitude. */
  function East(b: Box): (p: Point)
    requires b.Bounds?
    ensures p == Point(b.lonMax, (b.latMin + b.latMax) / 2.0)
  {
    Scale(0.5, Plus(Northeast(b), Southeast(b)))
  }

  /** The north edge midpoint: on the maximum latitude, at the mid-longitude. */
  function North(b: Box): (p: Point)
    requires b.Bounds?
    ensures p == Point((b.lonMin + b.lonMax) / 2.0, b.latMax)
  {
    Scale(0.5, Plus(Northeast(b), Northwest(b)))
  }

  /** The south edge midpoint: on the minimum latitude, at the mid-longitude. */
  function South(b: Box): (p: Point)
    requires b.Bounds?
    ensures p == Point((b.lonMin + b.lonMax) / 2.0, b.latMin)
  {
    Scale(0.5, Plus(Southeast(b), Southwest(b)))
  }

  /** `dim`, the pair `(b_lon, b_lat)` that `_update` caches: `(0, 0)` for an
      empty box, else the west-east and north-south edge-midpoint distances. */
  function Dims(g: Geodesy, b: Box): (d: (real, real))
    ensures b.Empty? ==> d == (0.0, 0.0)
    ensures Valid(g) ==> d.0 >= 0.0 && d.1 >= 0.0
  {
    if b.Empty? then (0.0, 0.0)
    else (g.distance(West(b), East(b)), g.distance(North(b), South(b)))
  }

  /** `_add(p)` (and `box & p`, which adds to a copy): the first point sets
      all four bounds; later points only move a bound outward. */
  function Add(b: Box, p: Point): (r: Box)
    ensures r.Bounds? && InBox(r, p)
    ensures b.Empty? ==> r == Bounds(p.lon, p.lon, p.lat, p.lat)
    ensures b.Bounds? ==>
      r.lonMin <= b.lonMin && r.lonMax >= b.lonMax && r.latMin <= b.latMin && r.latMax >= b.latMax
    ensures b.Bounds? ==> forall q :: InBox(b, q) ==> InBox(r, q)
    ensures WellFormed(b) ==> WellFormed(r)
  {
    match b
    case Empty => Bounds(p.lon, p.lon, p.lat, p.lat)
    case Bounds(lonMin, lonMax, latMin, latMax) =>
      Bounds(
        if p.lon < lonMin then p.lon else lonMin,
        if p.lon > lonMax then p.lon else lonMax,
        if p.lat < latMin then p.lat else latMin,
        if p.lat > latMax then p.lat else latMax)
  }

  /** A box holding one point has zero width and height. */
  lemma SinglePointHasZeroDims(g: Geodesy, p: Point)
    requires Valid(g)
    ensures Dims(g, Add(Empty, p)) == (0.0, 0.0)
  {
    var b := Add(Empty, p);
    assert West(b) == p && East(b) == p && North(b) == p && South(b) == p;
  }

  /** `add(points)`: the points added one after another. */
  function AddAll(b: Box, ps: seq<Point>): Box
    decreases |ps|
  {
    if |ps| == 0 then b else Add(AddAll(b, ps[..|ps| - 1]), ps[|ps| - 1])
  }

  /** `Bbox.from_points(points)`. */
  function FromPoints(ps: seq<Point>): Box {
    AddAll(Empty, ps)
  }

  lemma FromPointsSnoc(ps: seq<Point>, p: Point)
    ensures FromPoints(ps + [p]) == Add(FromPoints(ps), p)
  {
    assert (ps + [p])[..|ps|] == ps;
  }

  /** `b` is the tight envelope of `ps`: it contains every point and each of
      its four bounds is a coordinate of one of them. */
  ghost predicate IsEnvelope(b: Box, ps: seq<Point>) {
    && b.Bounds?
    && WellFormed(b)
    && (forall i :: 0 <= i < |ps| ==> InBox(b, ps[i]))
    && (exists i :: 0 <= i < |ps| && ps[i].lon == b.lonMin)
    && (exists i :: 0 <= i < |ps| && ps[i].lon == b.lonMax)
    && (exists i :: 0 <= i < |ps| && ps[i].lat == b.latMin)
    && (exists i :: 0 <= i < |ps| && ps[i].lat == b.latMax)
  }

  /** The box built from a non-empty list of points is their tight envelope;
      from no points it is empty. */
  lemma {:induction false} FromPointsIsEnvelope(ps: seq<Point>)
    ensures |ps| == 0 <==> FromPoints(ps).Empty?
    ensures |ps| > 0 ==> IsEnvelope(FromPoints(ps), ps)
    decreases |ps|
  {
    if |ps| == 1 {
      assert FromPoints(ps) == Add(Empty, ps[0]) by {
        assert ps[..0] == [];
        assert AddAll(Empty, ps[..0]) == Empty;
      }
    } else if |ps| > 1 {
      var init := ps[..|ps| - 1];
      var p := ps[|ps| - 1];
      FromPointsIsEnvelope(init);
      var b0 := FromPoints(init);
      var b := FromPoints(ps);
      assert b == Add(b0, p);
      forall i | 0 <= i < |ps|
        ensures InBox(b, ps[i])
      {
        if i < |ps| - 1 {
          assert ps[i] == init[i];
        }
      }
      var i0 :| 0 <= i0 < |init| && init[i0].lon == b0.lonMin;
      var i1 :| 0 <= i1 < |init| && init[i1].lon == b0.lonMax;
      var i2 :| 0 <= i2 < |init| && init[i2].lat == b0.latMin;
      var i3 :| 0 <= i3 < |init| && init[i3].lat == b0.latMax;
      assert ps[i0] == init[i0] && ps[i1] == init[i1] && ps[i2] == init[i2] && ps[i3] == init[i3];
      var last := |ps| - 1;
      assert ps[last] == p;
      assert b.lonMin == ps[i0].lon || b.lonMin == ps[last].lon;
      assert b.lonMax == ps[i1].lon || b.lonMax == ps[last].lon;
      assert b.latMin == ps[i2].lat || b.latMin == ps[last].lat;
      assert b.latMax == ps[i3].lat || b.latMax == ps[last].lat;
    } else {
      assert FromPoints(ps) == Empty;
    }
  }

  /** `box < (a, b)`: the larger dimension below the larger target and the
      smaller below the smaller; equivalently the box fits the target in one
      of its two orientations. */
  function Lt(g: Geodesy, b: Box, other: (real, real)): (r: bool)
    ensures var d := Dims(g, b);
      r <==> (d.0 < other.0 && d.1 < other.1) || (d.0 < other.1 && d.1 < other.0)
  {
    var d := Dims(g, b);
    Max(d.0, d.1) < Max(other.0, other.1) && Min(d.0, d.1) < Min(other.0, other.1)
  }

  /** `box <= (a, b)`: the non-strict form of `<`. */
  function Le(g: Geodesy, b: Box, other: (real, real)): (r: bool)
    ensures var d := Dims(g, b);
      r <==> (d.0 <= other.0 && d.1 <= other.1) || (d.0 <= other.1 && d.1 <= other.0)
  {
    var d := Dims(g, b);
    Max(d.0, d.1) <= Max(other.0, other.1) && Min(d.0, d.1) <= Min(other.0, other.1)
  }

  /** `box > (a, b)`: the target fits strictly inside the box in one of its
      orientations. */
  function Gt(g: Geodesy, b: Box, other: (real, real)): (r: bool)
    ensures var d := Dims(g, b);
      r <==> (d.0 > other.0 && d.1 > other.1) || (d.0 > other.1 && d.1 > other.0)
  {
    var d := Dims(g, b);
    Max(d.0, d.1) > Max(other.0, other.1) && Min(d.0, d.1) > Min(other.0, other.1)
  }

  /** `box >= (a, b)`: the non-strict form of `>`. */
  function Ge(g: Geodesy, b: Box, other: (real, real)): (r: bool)
    ensures var d := Dims(g, b);
      r <==> (d.0 >= other.0 && d.1 >= other.1) || (d.0 >= other.1 && d.1 >= other.0)
  {
    var d := Dims(g, b);
    Max(d.0, d.1) >= Max(other.0, other.1) && Min(d.0, d.1) >= Min(other.0, other.1)
  }

  /** The comparisons ignore the order of the target pair. */
  lemma ComparisonsIgnorePairOrder(g: Geodesy, b: Box, x: real, y: real)
    ensures Lt(g, b, (x, y)) == Lt(g, b, (y, x))
    ensures Le(g, b, (x, y)) == Le(g, b, (y, x))
    ensures Gt(g, b, (x, y)) == Gt(g, b, (y, x))
    ensures Ge(g, b, (x, y)) == Ge(g, b, (y, x))
  {
  }

  /** `expand(lon, lat)`: the south-west corner moved south then west, the
      north-east corner moved north then east, by the geodesy offset. An
      empty box has `None` corners and raises TypeError. */
  function Expand(g: Geodesy, b: Box, lon: real, lat: real): (r: Result<Box>)
    ensures r.Ok? <==> b.Bounds?
    ensures r.Ok? ==> r.value.Bounds?
  {
    if b.Empty? then Err(TypeError)
    else
      var sw := MoveWest(g, MoveSouth(g, Southwest(b), lat), lon);
      var ne := MoveEast(g, MoveNorth(g, Northeast(b), lat), lon);
      Ok(Bounds(sw.lon, ne.lon, sw.lat, ne.lat))
  }

  /** The target of `expand_to` laid along the box: its larger side goes
      along the box's width exactly when the width is strictly larger. */
  function OrientedTarget(d: (real, real), target: (real, real)): (r: (real, real))
    ensures (r == target) || (r == (target.1, target.0))
    ensures d.0 > d.1 ==> r.0 >= r.1
    ensures d.0 <= d.1 ==> r.0 <= r.1
  {
    if d.0 > d.1 then (Max(target.0, target.1), Min(target.0, target.1))
    else (Min(target.0, target.1), Max(target.0, target.1))
  }

  /** `expand_to(target)`: grows each axis by half its shortfall against the
      oriented target, and only when that shortfall is positive. */
  function ExpandTo(g: Geodesy, b: Box, target: (real, real)): (r: Result<Box>)
    ensures var d := Dims(g, b); var t := OrientedTarget(d, target);
      t.0 <= d.0 && t.1 <= d.1 ==> r == Ok(b)
    ensures var d := Dims(g, b); var t := OrientedTarget(d, target);
      b.Bounds? && t.0 > d.0 && t.1 <= d.1 ==> r == Expand(g, b, (t.0 - d.0) / 2.0, 0.0)
    ensures var d := Dims(g, b); var t := OrientedTarget(d, target);
      b.Bounds? && t.0 <= d.0 && t.1 > d.1 ==> r == Expand(g, b, 0.0, (t.1 - d.1) / 2.0)
    ensures var d := Dims(g, b); var t := OrientedTarget(d, target);
      b.Bounds? && t.0 > d.0 && t.1 > d.1 ==>
        r == Expand(g, Expand(g, b, (t.0 - d.0) / 2.0, 0.0).value, 0.0, (t.1 - d.1) / 2.0)
    ensures b.Bounds? ==> r.Ok? && r.value.Bounds?
    ensures b.Empty? ==> (r.Ok? <==> Max(target.0, target.1) <= 0.0)
    ensures b.Empty? && r.Ok? ==> r.value == Empty
  {
    var d := Dims(g, b);
    var t := OrientedTarget(d, target);
    var dw := (t.0 - d.0) / 2.0;
    var dh := (t.1 - d.1) / 2.0;
    var wide :- if dw > 0.0 then Expand(g, b, dw, 0.0) else Ok(b);
    if dh > 0.0 then Expand(g, wide, 0.0, dh) else Ok(wide)
  }
}

=== FILE: format.dfy ===
/** Paper formats (format.py): a physical size kept in inches, an optional
    DPI, and the conversions to centimetres and pixels. */
module PageFormat {
  import opened Results
  import opened PyMath

  const InchToCm: real := 2.54

  /** `to_cm(*args)`: every argument times 2.54, as many results as arguments. */
  function ToCm(xs: seq<real>): (r: seq<real>)
    ensures |r| == |xs|
    ensures forall i :: 0 <= i < |xs| ==> r[i] == xs[i] * 2.54
  {
    seq(|xs|, i requires 0 <= i < |xs| => xs[i] * InchToCm)
  }

  /** `to_inch(*args)`: every argument divided by 2.54. */
  function ToInch(xs: seq<real>): (r: seq<real>)
    ensures |r| == |xs|
    ensures forall i :: 0 <= i < |xs| ==> r[i] * 2.54 == xs[i]
  {
    seq(|xs|, i requires 0 <= i < |xs| => xs[i] / InchToCm)
  }

  /** The two conversions undo each other. */
  lemma CmInchRoundTrip(xs: seq<real>)
    ensures ToInch(ToCm(xs)) == xs
    ensures ToCm(ToInch(xs)) == xs
  {
    assert forall i :: 0 <= i < |xs| ==> ToInch(ToCm(xs))[i] == xs[i];
    assert forall i :: 0 <= i < |xs| ==> ToCm(ToInch(xs))[i] == xs[i];
  }

  /** A format: width and height in inches, display name, optional DPI. */
  datatype Format = Format(w: real, h: real, name: string, dpi: Option<real>)

  /** `Format(cm=, inch=, name=, dpi=)`. The inch size wins when given;
      otherwise the cm size is converted, and without either the conversion
      of `None` raises TypeError. The default name prints the numbers the
      caller passed, through `show` (Python's `str` of a number). */
  function Make(cm: Option<(real, real)>, inch: Option<(real, real)>, name: Option<string>,
                dpi: Option<real>, show: real -> string): (r: Result<Format>)
    ensures r.Ok? <==> inch.Some? || cm.Some?
    ensures inch.Some? ==> r.Ok? && (r.value.w, r.value.h) == inch.value
    ensures inch.None? && cm.Some? ==> Cm(r.value) == cm.value
    ensures r.Ok? && name.Some? ==> r.value.name == name.value
    ensures r.Ok? && name.None? && inch.Some? ==>
      r.value.name == show(inch.value.0) + "x" + show(inch.value.1) + "in"
    ensures r.Ok? && name.None? && inch.None? ==>
      r.value.name == show(cm.value.0) + "x" + show(cm.value.1) + "cm"
    ensures r.Ok? ==> r.value.dpi == dpi
  {
    if inch.Some? then
      var (w, h) := inch.value;
      var default := show(w) + "x" + show(h) + "in";
      Ok(Format(w, h, if name.Some? then name.value else default, dpi))
    else if cm.Some? then
      var size := ToInch([cm.value.0, cm.value.1]);
      var default := show(cm.value.0) + "x" + show(cm.value.1) + "cm";
      CmInchRoundTrip([cm.value.0, cm.value.1]);
      Ok(Format(size[0], size[1], if name.Some? then name.value else default, dpi))
    else
      Err(TypeError)
  }

  /** The `cm` property. */
  function Cm(f: Format): (r: (real, real))
    ensures r.0 == f.w * 2.54 && r.1 == f.h * 2.54
    ensures ToInch([r.0, r.1]) == [f.w, f.h]
  {
    var c := ToCm([f.w, f.h]);
    (c[0], c[1])
  }

  /** `f(dpi)`: a new format with the same size and name and the given DPI;
      `f` itself is a value and stays as it was. */
  function WithDpi(f: Format, dpi: real, show: real -> string): (r: Format)
    ensures r.w == f.w && r.h == f.h && r.name == f.name
    ensures r.dpi == Some(dpi)
  {
    Make(None, Some((f.w, f.h)), Some(f.name), Some(dpi), show).value
  }

  /** `to_px(dpi)`: the floors of the size in dots. */
  function ToPx(f: Format, dpi: real): (r: (int, int))
    ensures r.0 as real <= dpi * f.w < r.0 as real + 1.0
    ensures r.1 as real <= dpi * f.h < r.1 as real + 1.0
  {
    (Floor(dpi * f.w), Floor(dpi * f.h))
  }

  /** The `px` property: `to_px` at the format's own DPI; without a DPI the
      product with `None` raises TypeError. */
  function Px(f: Format): (r: Result<(int, int)>)
    ensures r.Ok? <==> f.dpi.Some?
    ensures r.Ok? ==> r.value == ToPx(f, f.dpi.value)
    ensures r.Ok? ==> r.value.0 as real <= f.dpi.value * f.w < r.value.0 as real + 1.0
    ensures r.Ok? ==> r.value.1 as real <= f.dpi.value * f.h < r.value.1 as real + 1.0
  {
    if f.dpi.None? then Err(TypeError) else Ok(ToPx(f, f.dpi.value))
  }

  /** The `aspect_ratio` property, `h / w`; a zero width raises ZeroDivisionError. */
  function AspectRatio(f: Format): (r: Result<real>)
    ensures r.Ok? <==> f.w != 0.0
    ensures r.Ok? ==> r.value * f.w == f.h
  {
    if f.w == 0.0 then Err(ZeroDivisionError) else Ok(f.h / f.w)
  }

  /** The predefined formats. */
  const A4: Format := Format(21.0 / InchToCm, 29.7 / InchToCm, "A4", None)
  const A3: Format := Format(29.7 / InchToCm, 42.0 / InchToCm, "A3", None)
  const A2: Format := Format(42.0 / InchToCm, 59.4 / InchToCm, "A2", None)
  const A1: Format := Format(59.4 / InchToCm, 84.1 / InchToCm, "A1", None)
  const A0: Format := Format(84.1 / InchToCm, 118.9 / InchToCm, "A0", None)
  const Letter: Format := Format(8.5, 11.0, "letter", None)
  const Legal: Format := Format(8.5, 14.0, "legal", None)

  /** Each constant is what the constructor builds from the source's arguments. */
  lemma PredefinedAreConstructed(show: real -> string)
    ensures Make(Some((21.0, 29.7)), None, Some("A4"), None, show) == Ok(A4)
    ensures Make(Some((29.7, 42.0)), None, Some("A3"), None, show) == Ok(A3)
    ensures Make(Some((42.0, 59.4)), None, Some("A2"), None, show) == Ok(A2)
    ensures Make(Some((59.4, 84.1)), None, Some("A1"), None, show) == Ok(A1)
    ensures Make(Some((84.1, 118.9)), None, Some("A0"), None, show) == Ok(A0)
    ensures Make(None, Some((8.5, 11.0)), Some("letter"), None, show) == Ok(Letter)
    ensures Make(None, Some((8.5, 14.0)), Some("legal"), None, show) == Ok(Legal)
  {
    NamedFromCm(21.0, 29.7, "A4", show);
    NamedFromCm(29.7, 42.0, "A3", show);
    NamedFromCm(42.0, 59.4, "A2", show);
    NamedFromCm(59.4, 84.1, "A1", show);
    NamedFromCm(84.1, 118.9, "A0", show);
  }

  /** A named format given in centimetres stores the sizes divided by 2.54. */
  lemma NamedFromCm(w: real, h: real, name: string, show: real -> string)
    ensures Make(Some((w, h)), None, Some(name), None, show) == Ok(Format(w / InchToCm, h / InchToCm, name, None))
  {
    var size := ToInch([w, h]);
    assert size[0] == w / InchToCm && size[1] == h / InchToCm;
  }

  /** Every predefined format is portrait: its aspect ratio exceeds 1. */
  lemma PredefinedArePortrait()
    ensures forall f :: f in [A4, A3, A2, A1, A0, Letter, Legal] ==>
      AspectRatio(f).Ok? && AspectRatio(f).value > 1.0
  {
  }

  /** The A-series sizes read back in centimetres as they were given. */
  lemma PredefinedReadBackInCm()
    ensures Cm(A4) == (21.0, 29.7) && Cm(A3) == (29.7, 42.0) && Cm(A2) == (42.0, 59.4)
    ensures Cm(A1) == (59.4, 84.1) && Cm(A0) == (84.1, 118.9)
  {
  }
}

=== FILE: image.dfy ===
/** Image bookkeeping of utils/image.py: images enter the model as their
    pixel size and the list of rectangles pasted onto them; pixel content,
    colours and fonts are left to PIL. */
module ImageOps {
  import opened Results
  import opened PyMath
  import opened Strings
  import TrackSegment

  /** Where an image of size `(w, h)` was pasted, top-left corner first. */
  datatype Placed = Placed(x: int, y: int, w: int, h: int)

  /** An image: its size and what has been pasted on it, in order. */
  datatype Image = Image(w: int, h: int, pasted: seq<Placed>)

  /** `im.paste(other, (x, y))`: the size is unchanged. */
  function Paste(im: Image, other: Image, x: int, y: int): (r: Image)
    ensures r.w == im.w && r.h == im.h
    ensures r.pasted == im.pasted + [Placed(x, y, other.w, other.h)]
  {
    im.(pasted := im.pasted + [Placed(x, y, other.w, other.h)])
  }

  /** The box `crop` computes: `(dw, dh, width - dw, height - dh)` with
      `dw = floor((width - w) / 2)` and `dh = floor((height - h) / 2)`. */
  function CropBox(im: Image, w: int, h: int): (r: (int, int, int, int))
    ensures r.0 == FloorDiv(im.w - w, 2) && r.1 == FloorDiv(im.h - h, 2)
    ensures r.2 == im.w - r.0 && r.3 == im.h - r.1
  {
    var dh := Floor((im.h - h) as real / 2.0);
    var dw := Floor((im.w - w) as real / 2.0);
    HalfFloor(im.h - h);
    HalfFloor(im.w - w);
    (dw, dh, im.w - dw, im.h - dh)
  }

  /** `math.floor(n / 2)` on an integer is `n // 2`. */
  lemma HalfFloor(n: int)
    ensures Floor(n as real / 2.0) == FloorDiv(n, 2)
  {
    var q := FloorDiv(n, 2);
    assert q as real <= n as real / 2.0 < q as real + 1.0;
  }

  /** `crop` as written: the cropped image is built and dropped, and the
      input comes back whatever the size. */
  function Crop(im: Image, size: Option<(int, int)>): (r: Image)
    ensures r == im
  {
    if size.None? then im
    else
      var _ := CropBox(im, size.value.0, size.value.1);
      im
  }

  /** `crop` returning the cropped image, as its name promises: the image
      cut to the centred box. */
  function CropCorrected(im: Image, size: Option<(int, int)>): (r: Image)
    ensures size.None? ==> r == im
    ensures size.Some? ==> var (w, h) := size.value;
      && w <= r.w <= w + 1 && h <= r.h <= h + 1
      && ((im.w - w) % 2 == 0 ==> r.w == w) && ((im.h - h) % 2 == 0 ==> r.h == h)
  {
    if size.None? then im
    else
      var (x0, y0, x1, y1) := CropBox(im, size.value.0, size.value.1);
      Image(x1 - x0, y1 - y0, [])
  }

  /** A 100 x 100 image cropped to 50 x 50 stays 100 x 100. */
  lemma CropKeepsSize()
    ensures Crop(Image(100, 100, []), Some((50, 50))).w == 100
    ensures CropCorrected(Image(100, 100, []), Some((50, 50))).w == 50
  {
  }

  /** The `border` argument of `add_border`. */
  datatype Border = NoBorder | IntBorder(b: int) | PairBorder(bw: int, bh: int) | OtherBorder

  /** `add_border`: no border returns the image itself; an int is the same
      width on all sides, a pair `(bw, bh)` sets each axis, and any other
      value raises TypeError. The new canvas is larger by twice the border
      and holds the image at `(bw, bh)`. */
  function AddBorder(im: Image, border: Border): (r: Result<Image>)
    ensures r.Err? <==> border.OtherBorder?
    ensures r.Err? ==> r.error == TypeError
    ensures border.NoBorder? ==> r == Ok(im)
    ensures border.IntBorder? ==> r == Ok(Image(im.w + 2 * border.b, im.h + 2 * border.b, [Placed(border.b, border.b, im.w, im.h)]))
    ensures border.PairBorder? ==> r.Ok? && r.value.w == im.w + 2 * border.bw && r.value.h == im.h + 2 * border.bh
    ensures border.PairBorder? ==> r.Ok? && r.value.pasted == [Placed(border.bw, border.bh, im.w, im.h)]
  {
    var (bw, bh) :- match border
      case NoBorder => Ok((0, 0))
      case IntBorder(b) => Ok((b, b))
      case PairBorder(x, y) => Ok((x, y))
      case OtherBorder => Err(TypeError);
    assert [] + [Placed(bw, bh, im.w, im.h)] == [Placed(bw, bh, im.w, im.h)];
    if border.NoBorder? then Ok(im)
    else Ok(Paste(Image(im.w + 2 * bw, im.h + 2 * bh, []), im, bw, bh))
  }

  /** The bordered image holds the original centred: the margins on
      opposite sides are equal. */
  lemma AddBorderCentres(im: Image, bw: int, bh: int)
    ensures var r := AddBorder(im, PairBorder(bw, bh)).value;
      var p := r.pasted[0];
      p.x == r.w - (p.x + p.w) && p.y == r.h - (p.y + p.h)
  {
  }

  /** Cutting the centred original size out of a bordered image (what the
      corrected `crop` does) removes the border again. */
  lemma CropUndoesBorder(im: Image, bw: int, bh: int)
    ensures var r := AddBorder(im, PairBorder(bw, bh)).value;
      var c := CropCorrected(r, Some((im.w, im.h)));
      c.w == im.w && c.h == im.h
  {
    var r := AddBorder(im, PairBorder(bw, bh)).value;
    assert r.w - im.w == 2 * bw && r.h - im.h == 2 * bh;
    assert FloorDiv(2 * bw, 2) == bw && FloorDiv(2 * bh, 2) == bh;
  }

  /** The corner a name in the `pos` table stands for; other names have
      none, and looking them up raises KeyError. */
  function CornerOf(name: string): (r: Option<TrackSegment.Corner>)
    ensures r.Some? ==> TrackSegment.CornerName(r.value) == name
    ensures r.None? ==> forall c :: TrackSegment.CornerName(c) != name
  {
    if name == "topleft" then Some(TrackSegment.TopLeft)
    else if name == "topright" then Some(TrackSegment.TopRight)
    else if name == "bottomright" then Some(TrackSegment.BottomRight)
    else if name == "bottomleft" then Some(TrackSegment.BottomLeft)
    else None
  }

  /** The `pos` table of `merge`. */
  function MergePos(c: TrackSegment.Corner, w: int, h: int, lw: int, lh: int): (int, int) {
    match c
    case TopLeft => (0, 0)
    case TopRight => (w - lw, 0)
    case BottomRight => (w - lw, h - lh)
    case BottomLeft => (0, h - lh)
  }

  /** `merge`: paste the secondary image flush with the named corner of the
      main one; an unknown name raises KeyError. */
  function Merge(main: Image, secondary: Image, corner: string): (r: Result<Image>)
    ensures r.Ok? <==> CornerOf(corner).Some?
    ensures r.Err? ==> r.error == KeyError
    ensures r.Ok? ==> r.value.w == main.w && r.value.h == main.h
    ensures r.Ok? ==> |r.value.pasted| == |main.pasted| + 1 && r.value.pasted[..|main.pasted|] == main.pasted
    ensures r.Ok? ==> var p := r.value.pasted[|main.pasted|];
      && p.w == secondary.w && p.h == secondary.h
      && (p.x == 0 || p.x + p.w == main.w)
      && (p.y == 0 || p.y + p.h == main.h)
  {
    match CornerOf(corner)
    case None => Err(KeyError)
    case Some(c) =>
      var (x, y) := MergePos(c, main.w, main.h, secondary.w, secondary.h);
      Ok(Paste(main, secondary, x, y))
  }

  /** Merging the legend at the corner `find_legend_pos` chose covers exactly
      the rectangle whose hidden track points it counted. */
  lemma MergeCoversCountedCorner(main: Image, legend: Image, line: seq<(real, real)>)
    ensures var name := TrackSegment.FindLegendPos(line, legend.w as real, legend.h as real, main.w as real, main.h as real);
      var r := Merge(main, legend, name);
      && r.Ok?
      && exists c ::
        && TrackSegment.CornerName(c) == name
        && PlacedRect(r.value.pasted[|main.pasted|]) == TrackSegment.CornerRect(c, legend.w as real, legend.h as real, main.w as real, main.h as real)
  {
    var name := TrackSegment.FindLegendPos(line, legend.w as real, legend.h as real, main.w as real, main.h as real);
    var c :| TrackSegment.CornerName(c) == name;
    MergeAtCorner(main, legend, c);
  }

  /** The rectangle a paste covers, as `(x0, y0, x1, y1)`. */
  function PlacedRect(p: Placed): (real, real, real, real) {
    (p.x as real, p.y as real, (p.x + p.w) as real, (p.y + p.h) as real)
  }

  /** Merging at a corner's name covers that corner's legend rectangle. */
  lemma MergeAtCorner(main: Image, legend: Image, c: TrackSegment.Corner)
    ensures Merge(main, legend, TrackSegment.CornerName(c)).Ok?
    ensures PlacedRect(Merge(main, legend, TrackSegment.CornerName(c)).value.pasted[|main.pasted|])
      == TrackSegment.CornerRect(c, legend.w as real, legend.h as real, main.w as real, main.h as real)
  {
    var name := TrackSegment.CornerName(c);
    assert CornerOf(name) == Some(c) by {
      if CornerOf(name).Some? && CornerOf(name).value != c {
        TrackSegment.CornerNamesDistinct(c, CornerOf(name).value);
      }
    }
  }

  /** One marker of `draw_points`: the label text, where the text is drawn,
      and the box the filled ellipse is inscribed in. */
  datatype Marker = Marker(caption: string, at: (real, real), frame: (real, real, real, real))

  /** The marker for tick `i` at `(x, y)`, with `measure` standing for the
      font's `getsize`: the label is `i * step` and is drawn at the point;
      the ellipse box is a square of half-side `max(tw, th) / 2 + 4` centred
      on the text, so for non-negative text sizes the text's own box lies
      inside it with a margin of at least 4 pixels. */
  function MarkerAt(i: nat, pt: (real, real), step: int, measure: string -> (int, int)): (m: Marker)
    ensures IntText(m.caption) && ParseInt(m.caption) == i * step
    ensures m.at == pt
    ensures m.frame.2 - m.frame.0 == m.frame.3 - m.frame.1
    ensures measure(m.caption).0 >= 0 && measure(m.caption).1 >= 0 ==>
      && m.frame.0 + 4.0 <= pt.0 && pt.0 + measure(m.caption).0 as real + 4.0 <= m.frame.2
      && m.frame.1 + 4.0 <= pt.1 && pt.1 + measure(m.caption).1 as real + 4.0 <= m.frame.3
  {
    var text := IntToString(i * step);
    ParseIntToString(i * step);
    var (tw, th) := measure(text);
    var (cx, cy) := (pt.0 + 0.5 * tw as real, pt.1 + 0.5 * th as real);
    var d := Max(tw as real, th as real) / 2.0 + 4.0;
    Marker(text, pt, (cx - d, cy - d, cx + d, cy + d))
  }

  /** `draw_points`: one marker per point, in order, the `i`-th labelled
      `i * step` and drawn at the `i`-th point. */
  function DrawPoints(points: seq<(real, real)>, step: int, measure: string -> (int, int)): (r: seq<Marker>)
    ensures |r| == |points|
    ensures forall i :: 0 <= i < |points| ==> r[i].at == points[i] && IntText(r[i].caption) && ParseInt(r[i].caption) == i * step
    ensures forall i :: 0 <= i < |points| ==> r[i].frame.2 - r[i].frame.0 == r[i].frame.3 - r[i].frame.1
  {
    seq(|points|, i requires 0 <= i < |points| => MarkerAt(i, points[i], step, measure))
  }

}

=== FILE: kml.dfy ===
/** The KML helpers of utils/kml.py that do more than call fastkml: reading
    a track's points out of its line geometries, and the vertex list of a
    box's rectangle. Parsing the file is left out; a track enters the model
    as the coordinate lists of its line geometries. */
module Kml {
  import opened Results
  import opened GeoPoint
  import opened BoundingBox

  /** One `(lon, lat, alt)` coordinate triple of a line geometry. */
  type Coord = (real, real, real)

  /** The points of one line, altitude dropped. */
  function LinePoints(coords: seq<Coord>): (r: seq<Point>)
    ensures |r| == |coords|
    ensures forall k :: 0 <= k < |coords| ==> (r[k].lon, r[k].lat, coords[k].2) == coords[k]
  {
    seq(|coords|, k requires 0 <= k < |coords| => Point(coords[k].0, coords[k].1))
  }

  /** The points of all lines, one line after the other. */
  function Flatten(lines: seq<seq<Coord>>): (r: seq<Point>)
    decreases |lines|
  {
    if |lines| == 0 then [] else Flatten(lines[..|lines| - 1]) + LinePoints(lines[|lines| - 1])
  }

  /** Whether the cap `max_points` can stop the reading: the check
      `len(points) == max_points` runs after each append, so only a
      positive cap is ever met. */
  predicate Capped(maxPoints: Option<int>) {
    maxPoints.Some? && maxPoints.value >= 1
  }

  /** `read_track` on the track's lines: the points in document order, up to
      the cap. The result is a prefix of all the points; a positive cap `n`
      keeps `min(n, total)` of them and no cap (or a cap below 1) keeps
      them all. */
  method ReadTrack(lines: seq<seq<Coord>>, maxPoints: Option<int>) returns (points: seq<Point>)
    ensures |points| <= |Flatten(lines)| && points == Flatten(lines)[..|points|]
    ensures Capped(maxPoints) && maxPoints.value <= |Flatten(lines)| ==> |points| == maxPoints.value
    ensures !(Capped(maxPoints) && maxPoints.value <= |Flatten(lines)|) ==> points == Flatten(lines)
  {
    points := [];
    var i := 0;
    while i < |lines|
      invariant 0 <= i <= |lines|
      invariant points == Flatten(lines[..i])
      invariant Capped(maxPoints) ==> |points| < maxPoints.value
    {
      var j := 0;
      while j < |lines[i]|
        invariant 0 <= j <= |lines[i]|
        invariant points == Flatten(lines[..i]) + LinePoints(lines[i][..j])
        invariant Capped(maxPoints) ==> |points| < maxPoints.value
      {
        var (lon, lat, _) := lines[i][j];
        assert LinePoints(lines[i][..j + 1]) == LinePoints(lines[i][..j]) + [Point(lon, lat)];
        points := points + [Point(lon, lat)];
        j := j + 1;
        if maxPoints.Some? && |points| == maxPoints.value {
          FlattenPrefixOfAll(lines, i, j);
          return;
        }
      }
      assert lines[i][..j] == lines[i];
      assert lines[..i + 1][..i] == lines[..i];
      i := i + 1;
    }
    assert lines[..i] == lines;
  }

  /** The points read up to line `i`, coordinate `j`, are a prefix of all
      of them. */
  lemma {:induction false} FlattenPrefixOfAll(lines: seq<seq<Coord>>, i: nat, j: nat)
    requires i < |lines| && j <= |lines[i]|
    ensures var read := Flatten(lines[..i]) + LinePoints(lines[i][..j]);
      |read| <= |Flatten(lines)| && read == Flatten(lines)[..|read|]
    decreases |lines|
  {
    var read := Flatten(lines[..i]) + LinePoints(lines[i][..j]);
    var last := |lines| - 1;
    assert lines[..last + 1] == lines;
    if i == last {
      assert lines[..i] == lines[..last];
      assert LinePoints(lines[i][..j]) == LinePoints(lines[i])[..j];
      assert Flatten(lines) == Flatten(lines[..last]) + LinePoints(lines[last]);
    } else {
      var front := lines[..last];
      assert front[..i] == lines[..i] && front[i] == lines[i];
      FlattenPrefixOfAll(front, i, j);
      assert Flatten(lines) == Flatten(front) + LinePoints(lines[last]);
    }
  }

  /** `rectangle(lon_min, lon_max, lat_min, lat_max)`: the polygon's
      vertices at altitude 0, from the north-west corner clockwise. */
  function Rectangle(lonMin: real, lonMax: real, latMin: real, latMax: real): (r: seq<Coord>)
    ensures |r| == 4 && forall k :: 0 <= k < 4 ==> r[k].2 == 0.0
  {
    var (west, east, south, north) := (lonMin, lonMax, latMin, latMax);
    [(west, north, 0.0), (east, north, 0.0), (east, south, 0.0), (west, south, 0.0)]
  }

  /** Twice the signed area of a polygon by the shoelace formula; negative
      when the vertices run clockwise on the (lon, lat) plane. */
  function ShoelaceSum(vs: seq<Coord>): real {
    if |vs| < 2 then 0.0
    else Cross(vs, 0, |vs|)
  }

  function Cross(vs: seq<Coord>, k: nat, n: nat): real
    requires n == |vs| && k <= n && n >= 2
    decreases n - k
  {
    if k == n then 0.0
    else
      var a := vs[k];
      var b := vs[(k + 1) % n];
      a.0 * b.1 - b.0 * a.1 + Cross(vs, k + 1, n)
  }

  /** A segment's rectangle, built from the box's bounds in the order the
      box indexes them, visits the box's north-west, north-east, south-east
      and south-west corners, and on a box with area it runs clockwise. */
  lemma RectangleOfBox(b: Box)
    requires b.Bounds?
    ensures var r := Rectangle(b.lonMin, b.lonMax, b.latMin, b.latMax);
      && Point(r[0].0, r[0].1) == Northwest(b) && Point(r[1].0, r[1].1) == Northeast(b)
      && Point(r[2].0, r[2].1) == Southeast(b) && Point(r[3].0, r[3].1) == Southwest(b)
    ensures WellFormed(b) ==> forall k :: 0 <= k < 4 ==>
      InBox(b, Point(Rectangle(b.lonMin, b.lonMax, b.latMin, b.latMax)[k].0, Rectangle(b.lonMin, b.lonMax, b.latMin, b.latMax)[k].1))
    ensures b.lonMin < b.lonMax && b.latMin < b.latMax ==> ShoelaceSum(Rectangle(b.lonMin, b.lonMax, b.latMin, b.latMax)) < 0.0
  {
    var r := Rectangle(b.lonMin, b.lonMax, b.latMin, b.latMax);
    var (w, e, s, n) := (b.lonMin, b.lonMax, b.latMin, b.latMax);
    assert ShoelaceSum(r) == (w * n - e * n) + (e * s - e * n) + (e * s - w * s) + (w * n - w * s);
    assert ShoelaceSum(r) == -2.0 * ((e - w) * (n - s));
    if w < e && s < n {
      assert (e - w) * (n - s) > 0.0;
    }
  }
}

=== FILE: legacy.dfy ===
/** The older segmentation of tracksegment.py: the same admission loop as
    `Track.Segmentize`, but the end index is clamped before it is returned
    and fed back as the next start, and each segment is named from the
    places around it. */
module LegacyTrack {
  import opened Results
  import opened PyMath
  import opened Strings
  import opened Order
  import opened GeoPoint
  import opened BoundingBox
  import opened Overpass
  import Track

  /** What the legacy `segmentize` returns: fitted box, raw box, start and
      the clamped end `min(curr, len(path) - 1)`, which is -1 on an empty
      path. */
  datatype Segmentation = Segmentation(box: Box, rawBox: Box, start: nat, end: int)

  /** `s` is what the scan from `s.start` returns when it stopped at `curr`:
      every point before `curr` was admitted, the one at `curr` (if any) was
      refused, the raw box holds the scanned points, and the end is `curr`
      clamped to the last index. */
  ghost predicate ScannedTo(g: Geodesy, path: seq<Point>, s: Segmentation, curr: nat, w: real, h: real, m: real) {
    && s.start <= curr <= |path|
    && s.end == (if curr < |path| then curr else |path| - 1)
    && s.rawBox == FromPoints(path[s.start..curr])
    && (forall k :: s.start <= k < curr ==> Track.Admits(g, path, s.start, k, w, h, m))
    && (curr < |path| ==> !Track.Admits(g, path, s.start, curr, w, h, m))
  }

  /** `TrackSegmentSet.segmentize`: the admission loop of `Track.Segmentize`
      followed by the clamp; the end is at most the last index, and short
      of it scanning stopped on a refused point. It succeeds whenever the
      start point is admitted; otherwise the raw box is empty and
      `expand_to` raises TypeError on it when a page side is positive. */
  method Segmentize(g: Geodesy, path: seq<Point>, start: nat, w: real, h: real, m: real)
    returns (r: Result<Segmentation>)
    requires start <= |path|
    ensures r.Ok? ==> r.value.start == start && r.value.end <= |path| - 1
    ensures r.Ok? && start < |path| ==> start <= r.value.end
    ensures r.Ok? ==> forall k :: start <= k < r.value.end ==> Track.Admits(g, path, start, k, w, h, m)
    ensures r.Ok? && start <= r.value.end < |path| - 1 ==>
      && r.value.rawBox == FromPoints(path[start..r.value.end])
      && !Track.Admits(g, path, start, r.value.end, w, h, m)
    ensures r.Ok? ==> exists curr: nat :: ScannedTo(g, path, r.value, curr, w, h, m)
    ensures r.Ok? ==> ExpandTo(g, r.value.rawBox, (w, h)) == Ok(r.value.box)
    ensures start < |path| && Track.Admits(g, path, start, start, w, h, m) ==> r.Ok?
    ensures r.Err? ==> r.error == TypeError && Max(w, h) > 0.0
  {
    var s := Track.Segmentize(g, path, start, w, h, m);
    if s.Err? {
      return Err(s.error);
    }
    var end := if s.value.curr < |path| then s.value.curr else |path| - 1;
    r := Ok(Segmentation(s.value.box, s.value.rawBox, start, end));
    assert ScannedTo(g, path, r.value, s.value.curr, w, h, m);
  }

  /** `rank(city)` inside `process_city_list`: `(type index or -1,
      population, name)`; an unlisted type raises ValueError. */
  function SignificanceRank(p: Place): (r: Result<(int, int, string)>)
    ensures r.Ok? <==> p.kind.None? || p.kind.value in PlaceKinds
    ensures r.Err? ==> r.error == ValueError
    ensures r.Ok? ==> r.value.1 == p.population && r.value.2 == p.name
    ensures r.Ok? ==> (r.value.0 == -1 <==> p.kind.None?)
    ensures r.Ok? && r.value.0 >= 0 ==> r.value.0 < |PlaceKinds| && PlaceKinds[r.value.0] == p.kind.value
  {
    var s :- Significance(p);
    Ok((s.0, s.1, p.name))
  }

  /** The list comprehension of ranks; the first failing rank raises. */
  function SignificanceRanks(cities: seq<Place>): (r: Result<seq<(int, int, string)>>)
    ensures r.Ok? <==> forall i :: 0 <= i < |cities| ==> Significance(cities[i]).Ok?
    ensures r.Ok? ==> |r.value| == |cities|
    ensures r.Ok? ==> forall i :: 0 <= i < |cities| ==> SignificanceRank(cities[i]) == Ok(r.value[i])
    decreases |cities|
  {
    if |cities| == 0 then Ok([])
    else
      var first :- SignificanceRank(cities[0]);
      var rest :- SignificanceRanks(cities[1..]);
      Ok([first] + rest)
  }

  /** `cities[i]` is a most significant place under the tuple order. */
  ghost predicate MostSignificant(cities: seq<Place>, i: int)
    requires forall j :: 0 <= j < |cities| ==> Significance(cities[j]).Ok?
  {
    && 0 <= i < |cities|
    && forall j :: 0 <= j < |cities| ==>
      !IntIntStrLt(SignificanceRank(cities[i]).value, SignificanceRank(cities[j]).value)
  }

  /** The long name as the source formats it from the unpacked fields. */
  function LongName(sid: nat, fromCity: string, fromDept: string, toCity: string, toDept: string): string {
    "Etape " + Pad2(sid) + " : de " + fromCity + " (" + fromDept + ") à " + toCity + " (" + toDept + ")"
  }

  /** The maximum of the ranks names a most significant place. */
  lemma MaxRankIsMostSignificant(cities: seq<Place>, ranks: seq<(int, int, string)>)
    requires |ranks| == |cities| > 0
    requires forall i :: 0 <= i < |cities| ==> Significance(cities[i]).Ok?
    requires forall i :: 0 <= i < |cities| ==> SignificanceRank(cities[i]) == Ok(ranks[i])
    ensures StrictOrder(IntIntStrLt) && exists i :: MostSignificant(cities, i) && MaxOf(ranks, IntIntStrLt).2 == cities[i].name
  {
    IntIntStrIsStrict();
    var i := MaxIndex(ranks, IntIntStrLt);
    TopRankIsMostSignificant(cities, ranks, i);
    assert SignificanceRank(cities[i]) == Ok(ranks[i]);
  }

  /** A place whose rank no other rank exceeds is most significant. */
  lemma TopRankIsMostSignificant(cities: seq<Place>, ranks: seq<(int, int, string)>, i: int)
    requires |ranks| == |cities| && 0 <= i < |cities|
    requires forall j :: 0 <= j < |cities| ==> Significance(cities[j]).Ok?
    requires forall j :: 0 <= j < |cities| ==> SignificanceRank(cities[j]) == Ok(ranks[j])
    requires forall j :: 0 <= j < |cities| ==> !IntIntStrLt(ranks[i], ranks[j])
    ensures MostSignificant(cities, i)
  {
    forall j | 0 <= j < |cities|
      ensures !IntIntStrLt(SignificanceRank(cities[i]).value, SignificanceRank(cities[j]).value)
    {
      assert SignificanceRank(cities[j]).value == ranks[j];
    }
  }

  /** `process_city_list`: the short name carries the most significant
      place's name; the long name is built from the places nearest to the
      start and end points. The unpacking `_, from_city, from_dept` takes
      the department into `from_city` and the name into `from_dept`, so the
      long name prints the department where the name belongs. An empty list
      makes `max` raise ValueError. */
  function ProcessCityList(g: Geodesy, cities: seq<Place>, path: seq<Point>, start: nat, end: nat, sid: nat)
    : (r: Result<(string, string)>)
    requires start < |path| && end < |path|
    ensures r.Ok? <==> |cities| > 0 && forall i :: 0 <= i < |cities| ==> Significance(cities[i]).Ok?
    ensures r.Ok? ==> exists i :: MostSignificant(cities, i) && r.value.0 == "Etape " + Pad2(sid) + " : " + cities[i].name
    ensures r.Ok? ==> exists i, j ::
      && Nearest(g, cities, path[start], i) && Nearest(g, cities, path[end], j)
      && r.value.1 == LongName(sid, cities[i].dept, cities[i].name, cities[j].dept, cities[j].name)
  {
    var ranks :- SignificanceRanks(cities);
    if |ranks| == 0 then Err(ValueError)
    else
      MaxRankIsMostSignificant(cities, ranks);
      MinRankIsNearest(g, cities, path[start]);
      MinRankIsNearest(g, cities, path[end]);
      var (_, _, mainCity) := MaxOf(ranks, IntIntStrLt);
      var (_, fromCity, fromDept) := MinOf(DistanceRanks(g, cities, path[start]), RealStrStrLt);
      var (_, toCity, toDept) := MinOf(DistanceRanks(g, cities, path[end]), RealStrStrLt);
      Ok(("Etape " + Pad2(sid) + " : " + mainCity, LongName(sid, fromCity, fromDept, toCity, toDept)))
  }

  /** With a single place both ends of the long name print as
      "<dept> (<name>)": the department stands where the name belongs. */
  lemma ProcessCityListSwapsNameAndDept(g: Geodesy, c: Place, path: seq<Point>, start: nat, end: nat, sid: nat)
    requires start < |path| && end < |path|
    requires Significance(c).Ok?
    ensures ProcessCityList(g, [c], path, start, end, sid)
      == Ok(("Etape " + Pad2(sid) + " : " + c.name, LongName(sid, c.dept, c.name, c.dept, c.name)))
  {
    var r := ProcessCityList(g, [c], path, start, end, sid);
    assert r.Ok?;
    var i, j :| && Nearest(g, [c], path[start], i) && Nearest(g, [c], path[end], j)
      && r.value.1 == LongName(sid, [c][i].dept, [c][i].name, [c][j].dept, [c][j].name);
    assert i == 0 && j == 0;
  }

  /** The town of Sens, department 89, alone in the box: the long name
      reads "de 89 (Sens)" where "de Sens (89)" was meant. */
  lemma SensExample(g: Geodesy, pos: Point, path: seq<Point>)
    requires |path| > 0
    ensures ProcessCityList(g, [Place("Sens", pos, 26000, "89387", Some("town"), "89")], path, 0, 0, 0)
      == Ok(("Etape 00 : Sens", "Etape 00 : de 89 (Sens) à 89 (Sens)"))
  {
    var sens := Place("Sens", pos, 26000, "89387", Some("town"), "89");
    assert Significance(sens) == Ok((3, 26000));
    ProcessCityListSwapsNameAndDept(g, sens, path, 0, 0, 0);
    SensText();
  }

  lemma SensText()
    ensures "Etape " + Pad2(0) + " : " + "Sens" == "Etape 00 : Sens"
    ensures LongName(0, "89", "Sens", "89", "Sens") == "Etape 00 : de 89 (Sens) à 89 (Sens)"
  {
    Pad2Zero();
    SensLongText();
  }

  lemma SensLongText()
    requires Pad2(0) == "00"
    ensures LongName(0, "89", "Sens", "89", "Sens") == "Etape 00 : de 89 (Sens) à 89 (Sens)"
  {
    var head := "Etape " + "00" + " : de " + "89" + " (" + "Sens";
    assert head == "Etape 00 : de 89 (Sens";
    var tail := ") à " + "89" + " (" + "Sens" + ")";
    assert tail == ") à 89 (Sens)";
  }

  /** A legacy segment: the constructor is always given a name, so
      `generate_name` keeps the short and long names as name and
      description. */
  datatype Segment = Segment(id: nat, box: Box, rawBox: Box, start: nat, end: int, name: string, descr: string)

  /** Every place list `places` can return is non-empty and holds only
      listed place types, so `process_city_list` cannot raise on it. */
  ghost predicate Nameable(places: Box -> seq<Place>) {
    forall b :: |places(b)| > 0 && forall i :: 0 <= i < |places(b)| ==> Significance(places(b)[i]).Ok?
  }

  /** Under valid geodesy and positive limits, the scan from any index of
      the path succeeds and admits at least the start point, so the fitted
      box is not empty. */
  lemma SegmentizeAdmitted(g: Geodesy, path: seq<Point>, start: nat, w: real, h: real, m: real,
                           r: Result<Segmentation>)
    requires Valid(g) && Track.Limits(w, h, m).1 > 0.0 && start < |path|
    requires Track.Admits(g, path, start, start, w, h, m) ==> r.Ok?
    requires r.Ok? ==> r.value.start == start && exists curr: nat :: ScannedTo(g, path, r.value, curr, w, h, m)
    requires r.Ok? ==> ExpandTo(g, r.value.rawBox, (w, h)) == Ok(r.value.box)
    ensures r.Ok? && r.value.rawBox.Bounds? && r.value.box.Bounds?
  {
    Track.FirstPointAdmitted(g, path, start, w, h, m);
    var curr: nat :| ScannedTo(g, path, r.value, curr, w, h, m);
    assert curr > start;
    FromPointsIsEnvelope(path[start..curr]);
  }

  /** `TrackSegmentSet.from_path`. `places` stands for `get_places` on the
      expanded box. Because the clamped end never reaches `len(path)`, the
      guard `curr < len(path)` stays true on a non-empty path: the loop
      either raises or comes back to a start it has already used, from
      which the source repeats the same calls forever (`Diverges`). */
  method FromPath(g: Geodesy, path: seq<Point>, w: real, h: real, m: real, places: Box -> seq<Place>)
    returns (o: Run<seq<Segment>>)
    ensures o.Done? <==> |path| == 0
    ensures o.Done? ==> o.value == []
    ensures |path| > 0 && Valid(g) && Track.Limits(w, h, m).1 > 0.0 && Nameable(places) ==> o.Diverges?
  {
    var curr := 0;
    var segs: seq<Segment> := [];
    while curr < |path|
      invariant curr <= |path|
      invariant |path| > 0 ==> curr < |path|
      invariant |path| == 0 ==> segs == []
      decreases |path| - curr
    {
      var s := Segmentize(g, path, curr, w, h, m);
      if Valid(g) && Track.Limits(w, h, m).1 > 0.0 {
        SegmentizeAdmitted(g, path, curr, w, h, m, s);
      }
      if s.Err? {
        return Raised(s.error);
      }
      var end := s.value.end;
      var around := Expand(g, s.value.box, 1.0, 1.0);
      if around.Err? {
        return Raised(around.error);
      }
      var names := ProcessCityList(g, places(around.value), path, curr, end as nat, |segs|);
      if names.Err? {
        return Raised(names.error);
      }
      segs := segs + [Segment(|segs|, s.value.box, s.value.rawBox, curr, end, names.value.0, names.value.1)];
      if end == curr {
        return Diverges;
      }
      curr := end;
    }
    return Done(segs);
  }

  /** `_encode_name` of the legacy segment: space to `_`, apostrophe and
      slash to `-`. */
  function EncodeName(name: string): (r: string)
    ensures |r| == |name|
    ensures ' ' !in r && '\'' !in r && '/' !in r
    ensures forall i :: 0 <= i < |name| ==>
      r[i] == (if name[i] == ' ' then '_' else if name[i] == '\'' || name[i] == '/' then '-' else name[i])
  {
    var c := Replace(Replace(Replace(name, " ", "_"), "'", "-"), "/", "-");
    EncodePointwise(name);
    c
  }

  /** The three replacements act on each character on its own. */
  lemma EncodePointwise(name: string)
    ensures var c := Replace(Replace(Replace(name, " ", "_"), "'", "-"), "/", "-");
      && |c| == |name|
      && (forall i :: 0 <= i < |name| ==>
           c[i] == (if name[i] == ' ' then '_' else if name[i] == '\'' || name[i] == '/' then '-' else name[i]))
      && ' ' !in c && '\'' !in c && '/' !in c
  {
    var a := Replace(name, " ", "_");
    var b := Replace(a, "'", "-");
    var c := Replace(b, "/", "-");
    ReplaceCharPointwise(name, ' ', '_');
    ReplaceCharPointwise(a, '\'', '-');
    ReplaceCharPointwise(b, '/', '-');
    forall i | 0 <= i < |c|
      ensures c[i] != ' ' && c[i] != '\'' && c[i] != '/'
    {
    }
  }
}

=== FILE: order.dfy ===
/** Python's built-in `min` and `max` over a non-empty list, for a strict
    order `lt` playing the role of `<`, and the tuple orders the program
    compares with. */
module Order {
  import opened Strings

  ghost predicate StrictOrder<T(!new)>(lt: (T, T) -> bool) {
    && (forall x :: !lt(x, x))
    && (forall x, y, z :: lt(x, y) && lt(y, z) ==> lt(x, z))
  }

  /** `min(xs)`: walks the list keeping the current best and replaces it by
      an item strictly smaller; no item is smaller than the result. */
  function MinOf<T(!new)>(xs: seq<T>, lt: (T, T) -> bool): (m: T)
    requires |xs| > 0
    requires StrictOrder(lt)
    ensures m in xs
    ensures forall i :: 0 <= i < |xs| ==> !lt(xs[i], m)
    decreases |xs|
  {
    if |xs| == 1 then xs[0]
    else
      var best := MinOf(xs[..|xs| - 1], lt);
      var last := xs[|xs| - 1];
      assert forall i :: 0 <= i < |xs| - 1 ==> xs[i] == xs[..|xs| - 1][i];
      if lt(last, best) then last else best
  }

  /** A position where `max(xs)` sits; no item is greater than it. */
  lemma MaxIndex<T(!new)>(xs: seq<T>, lt: (T, T) -> bool) returns (i: int)
    requires |xs| > 0 && StrictOrder(lt)
    ensures 0 <= i < |xs| && xs[i] == MaxOf(xs, lt)
    ensures forall j :: 0 <= j < |xs| ==> !lt(xs[i], xs[j])
  {
    i :| 0 <= i < |xs| && xs[i] == MaxOf(xs, lt);
  }

  /** `max(xs)`: replaces the current best by an item strictly greater; no
      item is greater than the result. */
  function MaxOf<T(!new)>(xs: seq<T>, lt: (T, T) -> bool): (m: T)
    requires |xs| > 0
    requires StrictOrder(lt)
    ensures m in xs
    ensures forall i :: 0 <= i < |xs| ==> !lt(m, xs[i])
    decreases |xs|
  {
    if |xs| == 1 then xs[0]
    else
      var best := MaxOf(xs[..|xs| - 1], lt);
      var last := xs[|xs| - 1];
      assert forall i :: 0 <= i < |xs| - 1 ==> xs[i] == xs[..|xs| - 1][i];
      if lt(best, last) then last else best
  }

  /** Python's order on `(float, str, str)` tuples. */
  predicate RealStrStrLt(a: (real, string, string), b: (real, string, string)) {
    || a.0 < b.0
    || (a.0 == b.0 && StrLt(a.1, b.1))
    || (a.0 == b.0 && a.1 == b.1 && StrLt(a.2, b.2))
  }

  /** Python's order on `((int, int), str, str)` tuples. */
  predicate PairStrStrLt(a: ((int, int), string, string), b: ((int, int), string, string)) {
    || a.0.0 < b.0.0
    || (a.0.0 == b.0.0 && a.0.1 < b.0.1)
    || (a.0 == b.0 && StrLt(a.1, b.1))
    || (a.0 == b.0 && a.1 == b.1 && StrLt(a.2, b.2))
  }

  /** Python's order on `(int, int, str)` tuples. */
  predicate IntIntStrLt(a: (int, int, string), b: (int, int, string)) {
    || a.0 < b.0
    || (a.0 == b.0 && a.1 < b.1)
    || (a.0 == b.0 && a.1 == b.1 && StrLt(a.2, b.2))
  }

  /** Python's order on `(int, str)` tuples. */
  predicate IntStrLt(a: (int, string), b: (int, string)) {
    || a.0 < b.0
    || (a.0 == b.0 && StrLt(a.1, b.1))
  }

  lemma RealStrStrIsStrict()
    ensures StrictOrder(RealStrStrLt)
  {
    forall x: (real, string, string) ensures !RealStrStrLt(x, x) {
      StrLtIrreflexive(x.1);
      StrLtIrreflexive(x.2);
    }
    forall x, y, z | RealStrStrLt(x, y) && RealStrStrLt(y, z) ensures RealStrStrLt(x, z) {
      if x.0 == y.0 == z.0 {
        if StrLt(x.1, y.1) && StrLt(y.1, z.1) {
          StrLtTransitive(x.1, y.1, z.1);
        }
        if x.1 == y.1 == z.1 && StrLt(x.2, y.2) && StrLt(y.2, z.2) {
          StrLtTransitive(x.2, y.2, z.2);
        }
      }
    }
  }

  lemma PairStrStrIsStrict()
    ensures StrictOrder(PairStrStrLt)
  {
    forall x: ((int, int), string, string) ensures !PairStrStrLt(x, x) {
      StrLtIrreflexive(x.1);
      StrLtIrreflexive(x.2);
    }
    forall x, y, z | PairStrStrLt(x, y) && PairStrStrLt(y, z) ensures PairStrStrLt(x, z) {
      if x.0 == y.0 == z.0 {
        if StrLt(x.1, y.1) && StrLt(y.1, z.1) {
          StrLtTransitive(x.1, y.1, z.1);
        }
        if x.1 == y.1 == z.1 && StrLt(x.2, y.2) && StrLt(y.2, z.2) {
          StrLtTransitive(x.2, y.2, z.2);
        }
      }
    }
  }

  lemma IntIntStrIsStrict()
    ensures StrictOrder(IntIntStrLt)
  {
    forall x: (int, int, string) ensures !IntIntStrLt(x, x) {
      StrLtIrreflexive(x.2);
    }
    forall x, y, z | IntIntStrLt(x, y) && IntIntStrLt(y, z) ensures IntIntStrLt(x, z) {
      if x.0 == y.0 == z.0 && x.1 == y.1 == z.1 && StrLt(x.2, y.2) && StrLt(y.2, z.2) {
        StrLtTransitive(x.2, y.2, z.2);
      }
    }
  }

  lemma IntStrIsStrict()
    ensures StrictOrder(IntStrLt)
  {
    forall x: (int, string) ensures !IntStrLt(x, x) {
      StrLtIrreflexive(x.1);
    }
    forall x, y, z | IntStrLt(x, y) && IntStrLt(y, z) ensures IntStrLt(x, z) {
      if x.0 == y.0 == z.0 && StrLt(x.1, y.1) && StrLt(y.1, z.1) {
        StrLtTransitive(x.1, y.1, z.1);
      }
    }
  }
}

=== FILE: overpass.dfy ===
/** Place records from the Overpass API (overpass/api.py): parsing an XML
    reply, tagging each locality with its kind and department, and the
    ranking tuples used to pick the main and nearest places. The XML tree is
    an abstract node tree and the HTTP query is a parameter. */
module Overpass {
  import opened Results
  import opened Strings
  import opened Order
  import opened GeoPoint

  /** An element of the parsed document: tag, attributes, children. */
  datatype XmlNode = XmlNode(tag: string, attrib: map<string, string>, children: seq<XmlNode>)

  /** Python's `float(text)` and `int(text)`; `None` stands for the
      ValueError they raise on text they do not accept. */
  datatype NumberParsers = NumberParsers(toFloat: string -> Option<real>, toInt: string -> Option<int>)

  /** A locality as `parse_xml` builds it. */
  datatype Locality = Locality(name: string, pos: Point, population: int, zipcode: string)

  /** A locality after `get_places`: with the `type` and `dept` keys. The
      kind stays optional because `_significance` tests for the key. */
  datatype Place = Place(name: string, pos: Point, population: int, zipcode: string, kind: Option<string>, dept: string)

  /** The `City(name, dept)` named tuple. */
  datatype City = City(name: string, dept: string)

  /** The record fields a node's tags can set; `population` holds the tag's
      text, `None` meaning the initial int 0. */
  datatype Fields = Fields(name: string, population: Option<string>, zipcode: string)

  /** The `ctable` renaming: `name`, `population`, `ref:INSEE` (to zipcode). */
  function SetField(f: Fields, key: string, value: string): Fields {
    if key == "name" then f.(name := value)
    else if key == "population" then f.(population := Some(value))
    else if key == "ref:INSEE" then f.(zipcode := value)
    else f
  }

  /** A child the tag loop reads without raising: not a `tag`, or a `tag`
      with both `k` and `v`. */
  predicate ReadableTag(c: XmlNode) {
    c.tag == "tag" ==> "k" in c.attrib && "v" in c.attrib
  }

  predicate ReadableTags(children: seq<XmlNode>) {
    forall i :: 0 <= i < |children| ==> ReadableTag(children[i])
  }

  /** The loop over a node's children: each `tag` child copies its value to
      the mapped field; a `tag` child without `k` or `v` raises KeyError. */
  function ApplyTags(f: Fields, children: seq<XmlNode>): (r: Result<Fields>)
    ensures r.Ok? <==> ReadableTags(children)
    ensures r.Err? ==> r.error == KeyError
    decreases |children|
  {
    if |children| == 0 then Ok(f)
    else
      var f' :- ApplyTags(f, children[..|children| - 1]);
      var c := children[|children| - 1];
      assert children == children[..|children| - 1] + [c];
      if c.tag != "tag" then Ok(f')
      else if "k" !in c.attrib || "v" !in c.attrib then Err(KeyError)
      else Ok(SetField(f', c.attrib["k"], c.attrib["v"]))
  }

  /** The value of the last well-formed `tag` child whose key is `key`. */
  function LastTag(children: seq<XmlNode>, key: string): Option<string>
    decreases |children|
  {
    if |children| == 0 then None
    else
      var c := children[|children| - 1];
      if c.tag == "tag" && "k" in c.attrib && "v" in c.attrib && c.attrib["k"] == key then Some(c.attrib["v"])
      else LastTag(children[..|children| - 1], key)
  }

  /** Later tags override earlier ones: each field ends as the last value
      given for its key, or as it started. */
  lemma {:induction false} ApplyTagsKeepsLast(f: Fields, children: seq<XmlNode>)
    requires ApplyTags(f, children).Ok?
    ensures var r := ApplyTags(f, children).value;
      && r.name == (if LastTag(children, "name").Some? then LastTag(children, "name").value else f.name)
      && r.population == (if LastTag(children, "population").Some? then LastTag(children, "population") else f.population)
      && r.zipcode == (if LastTag(children, "ref:INSEE").Some? then LastTag(children, "ref:INSEE").value else f.zipcode)
    decreases |children|
  {
    if |children| > 0 {
      ApplyTagsKeepsLast(f, children[..|children| - 1]);
    }
  }

  /** The value of the last well-formed tag for `key`, or `default`. */
  function TagOr(children: seq<XmlNode>, key: string, default: string): string {
    if LastTag(children, key).Some? then LastTag(children, key).value else default
  }

  /** What `parse_xml` needs of a `node` element: `lon` and `lat` that
      `float` accepts, an `id`, readable tags, and a last `population` tag,
      if any, that `int` accepts. */
  predicate NodeParses(node: XmlNode, parsers: NumberParsers) {
    && "lon" in node.attrib && parsers.toFloat(node.attrib["lon"]).Some?
    && "lat" in node.attrib && parsers.toFloat(node.attrib["lat"]).Some?
    && "id" in node.attrib
    && ReadableTags(node.children)
    && (LastTag(node.children, "population").Some? ==>
          parsers.toInt(LastTag(node.children, "population").value).Some?)
  }

  /** One `node` element: position from `lon`/`lat`, name defaulting to the
      `id`, population 0 and zipcode "UNKNOWN" unless a tag sets them, and
      the population converted with `int`. A missing attribute raises
      KeyError and text the number parsers refuse ValueError. */
  function ParseNode(node: XmlNode, parsers: NumberParsers): (r: Result<Locality>)
    ensures r.Ok? <==> NodeParses(node, parsers)
    ensures r.Err? ==> r.error == KeyError || r.error == ValueError
    ensures r.Ok? ==>
      r.value.pos == Point(parsers.toFloat(node.attrib["lon"]).value, parsers.toFloat(node.attrib["lat"]).value)
    ensures r.Ok? ==> r.value.name == TagOr(node.children, "name", node.attrib["id"])
    ensures r.Ok? ==> r.value.zipcode == TagOr(node.children, "ref:INSEE", "UNKNOWN")
    ensures r.Ok? && LastTag(node.children, "population").None? ==> r.value.population == 0
    ensures r.Ok? && LastTag(node.children, "population").Some? ==>
      r.value.population == parsers.toInt(LastTag(node.children, "population").value).value
  {
    if "lon" !in node.attrib then Err(KeyError)
    else if parsers.toFloat(node.attrib["lon"]).None? then Err(ValueError)
    else if "lat" !in node.attrib then Err(KeyError)
    else if parsers.toFloat(node.attrib["lat"]).None? then Err(ValueError)
    else if "id" !in node.attrib then Err(KeyError)
    else
      var pos := Point(parsers.toFloat(node.attrib["lon"]).value, parsers.toFloat(node.attrib["lat"]).value);
      var start := Fields(node.attrib["id"], None, "UNKNOWN");
      var fields :- ApplyTags(start, node.children);
      ApplyTagsKeepsLast(start, node.children);
      match fields.population
      case None => Ok(Locality(fields.name, pos, 0, fields.zipcode))
      case Some(text) =>
        match parsers.toInt(text)
        case Some(n) => Ok(Locality(fields.name, pos, n, fields.zipcode))
        case None => Err(ValueError)
  }

  /** A node without tags keeps the defaults: its id as name, population 0,
      zipcode "UNKNOWN". */
  lemma ParseNodeDefaults(node: XmlNode, parsers: NumberParsers)
    requires ParseNode(node, parsers).Ok?
    requires forall i :: 0 <= i < |node.children| ==> node.children[i].tag != "tag"
    ensures ParseNode(node, parsers).value.name == node.attrib["id"]
    ensures ParseNode(node, parsers).value.population == 0
    ensures ParseNode(node, parsers).value.zipcode == "UNKNOWN"
  {
    var f := Fields(node.attrib["id"], None, "UNKNOWN");
    ApplyTagsKeepsLast(f, node.children);
    NoTagMeansNoValue(node.children, "name");
    NoTagMeansNoValue(node.children, "population");
    NoTagMeansNoValue(node.children, "ref:INSEE");
  }

  lemma {:induction false} NoTagMeansNoValue(children: seq<XmlNode>, key: string)
    requires forall i :: 0 <= i < |children| ==> children[i].tag != "tag"
    ensures LastTag(children, key).None?
    decreases |children|
  {
    if |children| > 0 {
      NoTagMeansNoValue(children[..|children| - 1], key);
    }
  }

  /** The element children tagged `node`, in document order. */
  function NodeChildren(xs: seq<XmlNode>): (r: seq<XmlNode>)
    ensures forall x :: x in r <==> x in xs && x.tag == "node"
    ensures |r| <= |xs|
    decreases |xs|
  {
    if |xs| == 0 then []
    else if xs[0].tag == "node" then [xs[0]] + NodeChildren(xs[1..])
    else NodeChildren(xs[1..])
  }

  /** Selecting nodes commutes with concatenation, so the selected nodes
      keep the order they have in the document. */
  lemma {:induction false} NodeChildrenAppend(xs: seq<XmlNode>, ys: seq<XmlNode>)
    ensures NodeChildren(xs + ys) == NodeChildren(xs) + NodeChildren(ys)
    decreases |xs|
  {
    if |xs| == 0 {
      assert xs + ys == ys;
    } else {
      assert (xs + ys)[0] == xs[0];
      assert (xs + ys)[1..] == xs[1..] + ys;
      NodeChildrenAppend(xs[1..], ys);
    }
  }

  /** Every selected node parses. */
  predicate AllParse(nodes: seq<XmlNode>, parsers: NumberParsers) {
    forall i :: 0 <= i < |nodes| ==> NodeParses(nodes[i], parsers)
  }

  /** The loop of `parse_xml` over a list of children: it succeeds exactly
      when every `node` child parses, and then holds each node's parse in
      document order. */
  function ParseAll(xs: seq<XmlNode>, parsers: NumberParsers): (r: Result<seq<Locality>>)
    ensures r.Ok? <==> AllParse(NodeChildren(xs), parsers)
    ensures r.Ok? ==> |r.value| == |NodeChildren(xs)|
    ensures r.Ok? ==> forall i :: 0 <= i < |r.value| ==>
      ParseNode(NodeChildren(xs)[i], parsers) == Ok(r.value[i])
    decreases |xs|
  {
    if |xs| == 0 then Ok([])
    else if xs[0].tag != "node" then ParseAll(xs[1..], parsers)
    else
      NodesCons(xs, parsers);
      var first :- ParseNode(xs[0], parsers);
      var rest :- ParseAll(xs[1..], parsers);
      ParsedCons(NodeChildren(xs), parsers, first, rest);
      Ok([first] + rest)
  }

  /** A leading `node` child is the first selected node, and all selected
      nodes parse exactly when it does and the rest do. */
  lemma NodesCons(xs: seq<XmlNode>, parsers: NumberParsers)
    requires |xs| > 0 && xs[0].tag == "node"
    ensures NodeChildren(xs) == [xs[0]] + NodeChildren(xs[1..])
    ensures AllParse(NodeChildren(xs), parsers) <==> NodeParses(xs[0], parsers) && AllParse(NodeChildren(xs[1..]), parsers)
  {
    AllParseCons(xs[0], NodeChildren(xs[1..]), parsers);
  }

  lemma AllParseCons(x: XmlNode, rest: seq<XmlNode>, parsers: NumberParsers)
    ensures AllParse([x] + rest, parsers) <==> NodeParses(x, parsers) && AllParse(rest, parsers)
  {
    var nodes := [x] + rest;
    assert nodes[0] == x;
    assert forall i :: 0 <= i < |rest| ==> nodes[i + 1] == rest[i];
    if NodeParses(x, parsers) && AllParse(rest, parsers) {
      forall i | 0 <= i < |nodes|
        ensures NodeParses(nodes[i], parsers)
      {
        if i > 0 {
          assert nodes[i] == rest[i - 1];
        }
      }
    }
  }

  /** Parsing the head and the tail separately gives the parse of each
      selected node, in order. */
  lemma ParsedCons(nodes: seq<XmlNode>, parsers: NumberParsers, first: Locality, rest: seq<Locality>)
    requires |nodes| > 0 && ParseNode(nodes[0], parsers) == Ok(first)
    requires |rest| == |nodes| - 1
    requires forall i :: 0 <= i < |rest| ==> ParseNode(nodes[1..][i], parsers) == Ok(rest[i])
    ensures forall i :: 0 <= i < |rest| + 1 ==> ParseNode(nodes[i], parsers) == Ok(([first] + rest)[i])
  {
    forall i | 1 <= i < |rest| + 1
      ensures ParseNode(nodes[i], parsers) == Ok(([first] + rest)[i])
    {
      assert nodes[i] == nodes[1..][i - 1];
    }
  }

  /** `parse_xml(root)`: one locality per `node` child, in document order;
      other children are skipped. It succeeds exactly when every `node`
      child parses. */
  function ParseXml(root: XmlNode, parsers: NumberParsers): (r: Result<seq<Locality>>)
    ensures r.Ok? <==> AllParse(NodeChildren(root.children), parsers)
    ensures r.Ok? ==> |r.value| == |NodeChildren(root.children)|
    ensures r.Ok? ==> forall i :: 0 <= i < |r.value| ==>
      ParseNode(NodeChildren(root.children)[i], parsers) == Ok(r.value[i])
  {
    ParseAll(root.children, parsers)
  }

  /** The annotation of `get_places`: `type` is the query kind and `dept`
      the first two characters of the zipcode. */
  function Annotate(l: Locality, kind: string): (p: Place)
    ensures p.kind == Some(kind)
    ensures StartsWith(l.zipcode, p.dept) && |p.dept| == (if |l.zipcode| < 2 then |l.zipcode| else 2)
    ensures (p.name, p.pos, p.population, p.zipcode) == (l.name, l.pos, l.population, l.zipcode)
  {
    Place(l.name, l.pos, l.population, l.zipcode, Some(kind), Head(l.zipcode, 2))
  }

  /** The annotation loop over one query's results: each place keeps its
      locality's fields, takes the query kind, and takes as department the
      first (at most) two characters of its zipcode. */
  function AnnotateAll(ls: seq<Locality>, kind: string): (r: seq<Place>)
    ensures |r| == |ls|
    ensures forall i :: 0 <= i < |r| ==>
      && Locality(r[i].name, r[i].pos, r[i].population, r[i].zipcode) == ls[i]
      && r[i].kind == Some(kind)
      && StartsWith(ls[i].zipcode, r[i].dept) && |r[i].dept| == (if |ls[i].zipcode| < 2 then |ls[i].zipcode| else 2)
  {
    seq(|ls|, i requires 0 <= i < |ls| => Annotate(ls[i], kind))
  }

  /** The results of querying each kind in turn, concatenated. `fetch`
      stands for `build_query` on the box. */
  function PlacesOfKinds(fetch: string -> seq<Locality>, kinds: seq<string>): (r: seq<Place>)
    ensures forall i :: 0 <= i < |r| ==> r[i].kind.Some? && r[i].kind.value in kinds
    decreases |kinds|
  {
    if |kinds| == 0 then []
    else AnnotateAll(fetch(kinds[0]), kinds[0]) + PlacesOfKinds(fetch, kinds[1..])
  }

  /** Querying a list of kinds is querying its two halves one after the
      other: the loop's result is the concatenation of its blocks. */
  lemma {:induction false} PlacesOfKindsAppend(fetch: string -> seq<Locality>, a: seq<string>, b: seq<string>)
    ensures PlacesOfKinds(fetch, a + b) == PlacesOfKinds(fetch, a) + PlacesOfKinds(fetch, b)
    decreases |a|
  {
    if |a| == 0 {
      assert a + b == b;
    } else {
      assert (a + b)[0] == a[0];
      assert (a + b)[1..] == a[1..] + b;
      PlacesOfKindsAppend(fetch, a[1..], b);
    }
  }

  /** One kind's block is that query's results, annotated with the kind. */
  lemma PlacesOfOneKind(fetch: string -> seq<Locality>, kind: string)
    ensures PlacesOfKinds(fetch, [kind]) == AnnotateAll(fetch(kind), kind)
  {
    assert [kind][1..] == [];
  }

  /** The kinds `get_places` queries, in order. */
  const QueriedKinds: seq<string> := ["village", "town", "city"]

  /** `get_places(bbox)`: villages, then towns, then cities. */
  function GetPlaces(fetch: string -> seq<Locality>): (r: seq<Place>)
    ensures |r| == |fetch("village")| + |fetch("town")| + |fetch("city")|
    ensures forall i :: 0 <= i < |r| ==> r[i].kind.Some? && r[i].kind.value in QueriedKinds
    ensures r == AnnotateAll(fetch("village"), "village") + AnnotateAll(fetch("town"), "town")
      + AnnotateAll(fetch("city"), "city")
  {
    var r := PlacesOfKinds(fetch, QueriedKinds);
    KindBlocks(fetch, "village", "town", "city");
    assert QueriedKinds == ["village", "town", "city"];
    r
  }

  /** Three kinds give three blocks, in order. */
  lemma KindBlocks(fetch: string -> seq<Locality>, a: string, b: string, c: string)
    ensures PlacesOfKinds(fetch, [a, b, c]) == AnnotateAll(fetch(a), a) + AnnotateAll(fetch(b), b) + AnnotateAll(fetch(c), c)
  {
    assert [a, b, c] == [a] + [b] + [c];
    PlacesOfKindsAppend(fetch, [a] + [b], [c]);
    PlacesOfKindsAppend(fetch, [a], [b]);
    PlacesOfOneKind(fetch, a);
    PlacesOfOneKind(fetch, b);
    PlacesOfOneKind(fetch, c);
  }

  /** Place kinds in increasing significance. */
  const PlaceKinds: seq<string> := ["hamlet", "village", "suburb", "town", "city"]

  function IndexOf(xs: seq<string>, x: string): (r: int)
    ensures -1 <= r < |xs|
    ensures r >= 0 ==> xs[r] == x && forall j :: 0 <= j < r ==> xs[j] != x
    ensures r == -1 <==> x !in xs
  {
    if |xs| == 0 then -1
    else if xs[0] == x then 0
    else
      var k := IndexOf(xs[1..], x);
      if k == -1 then -1 else k + 1
  }

  /** `_significance(city)`: the kind's position in `PlaceKinds` (-1 without
      a kind) and the population; a kind outside the list makes
      `list.index` raise ValueError. */
  function Significance(p: Place): (r: Result<(int, int)>)
    ensures r.Ok? <==> p.kind.None? || p.kind.value in PlaceKinds
    ensures r.Ok? ==> r.value.1 == p.population
    ensures r.Ok? ==> (r.value.0 == -1 <==> p.kind.None?)
    ensures r.Ok? && r.value.0 >= 0 ==> r.value.0 < |PlaceKinds| && PlaceKinds[r.value.0] == p.kind.value
  {
    match p.kind
    case None => Ok((-1, p.population))
    case Some(k) =>
      var t := IndexOf(PlaceKinds, k);
      if t == -1 then Err(ValueError) else Ok((t, p.population))
  }

  /** `rank_by_significance(city)`: `(significance, dept, name)`. */
  function RankBySignificance(p: Place): (r: Result<((int, int), string, string)>)
    ensures r.Ok? <==> p.kind.None? || p.kind.value in PlaceKinds
    ensures r.Err? ==> r.error == ValueError
    ensures r.Ok? ==> r.value.0.1 == p.population && r.value.1 == p.dept && r.value.2 == p.name
    ensures r.Ok? ==> (r.value.0.0 == -1 <==> p.kind.None?)
    ensures r.Ok? && r.value.0.0 >= 0 ==> r.value.0.0 < |PlaceKinds| && PlaceKinds[r.value.0.0] == p.kind.value
  {
    var s :- Significance(p);
    Ok((s, p.dept, p.name))
  }

  /** `rank_by_distance(city, ref)`: `(distance(ref, pos), dept, name)`. */
  function RankByDistance(g: Geodesy, p: Place, ref: Point): (r: (real, string, string))
    ensures r.0 == g.distance(ref, p.pos) && r.1 == p.dept && r.2 == p.name
  {
    (g.distance(ref, p.pos), p.dept, p.name)
  }

  /** The `(distance, dept, name)` tuples measured from `ref`. */
  function DistanceRanks(g: Geodesy, cities: seq<Place>, ref: Point): (r: seq<(real, string, string)>)
    ensures |r| == |cities|
    ensures forall i :: 0 <= i < |cities| ==> r[i] == RankByDistance(g, cities[i], ref)
  {
    seq(|cities|, i requires 0 <= i < |cities| => RankByDistance(g, cities[i], ref))
  }

  /** `cities[i]` is a place nearest to `ref` under the tuple order. */
  ghost predicate Nearest(g: Geodesy, cities: seq<Place>, ref: Point, i: int) {
    && 0 <= i < |cities|
    && forall j :: 0 <= j < |cities| ==>
      !RealStrStrLt(RankByDistance(g, cities[j], ref), RankByDistance(g, cities[i], ref))
  }

  /** The minimum of the distance tuples names a nearest place. */
  lemma MinRankIsNearest(g: Geodesy, cities: seq<Place>, ref: Point)
    requires |cities| > 0
    ensures StrictOrder(RealStrStrLt)
    ensures exists i ::
      && Nearest(g, cities, ref, i)
      && MinOf(DistanceRanks(g, cities, ref), RealStrStrLt) == (g.distance(ref, cities[i].pos), cities[i].dept, cities[i].name)
  {
    RealStrStrIsStrict();
    var ranks := DistanceRanks(g, cities, ref);
    var near := MinOf(ranks, RealStrStrLt);
    var i :| 0 <= i < |ranks| && ranks[i] == near;
    assert Nearest(g, cities, ref, i);
  }

  /** Ranking tuples compare by score first, then by department, then by
      name. */
  lemma RankTieBreak(g: Geodesy, p: Place, q: Place, ref: Point)
    requires g.distance(ref, p.pos) == g.distance(ref, q.pos)
    ensures RealStrStrLt(RankByDistance(g, p, ref), RankByDistance(g, q, ref)) <==>
      StrLt(p.dept, q.dept) || (p.dept == q.dept && StrLt(p.name, q.name))
  {
  }
}

/** The older copy of the Overpass client (overpass.py). Its `parse_xml` is
    the same text as the newer one and is modelled by `Overpass.ParseXml`;
    only the list of queried kinds differs. */
module LegacyOverpass {
  import opened Overpass

  const QueriedKinds: seq<string> := ["village", "town", "suburb", "city"]

  /** `get_places(bbox)`: villages, towns, suburbs, then cities. */
  function GetPlaces(fetch: string -> seq<Locality>): (r: seq<Place>)
    ensures |r| == |fetch("village")| + |fetch("town")| + |fetch("suburb")| + |fetch("city")|
    ensures forall i :: 0 <= i < |r| ==> r[i].kind.Some? && r[i].kind.value in QueriedKinds
    ensures r == AnnotateAll(fetch("village"), "village") + AnnotateAll(fetch("town"), "town")
      + AnnotateAll(fetch("suburb"), "suburb") + AnnotateAll(fetch("city"), "city")
  {
    var r := PlacesOfKinds(fetch, QueriedKinds);
    assert QueriedKinds == ["village", "town", "suburb"] + ["city"];
    PlacesOfKindsAppend(fetch, ["village", "town", "suburb"], ["city"]);
    KindBlocks(fetch, "village", "town", "suburb");
    PlacesOfOneKind(fetch, "city");
    r
  }
}

=== FILE: plot.dfy ===
/** The elevation chart's arithmetic (utils/plot.py): the vertical window
    `set_axes` picks for the profile, and the dashed lines `get_vlines`
    draws where the distance passes a multiple of `step` km. Drawing is
    left to matplotlib and is not modelled. */
module Plot {
  import opened Results
  import opened PyMath
  import TrackSegment

  /** `min` of a non-empty list of numbers. */
  function SeqMin(xs: seq<real>): (m: real)
    requires |xs| > 0
    ensures m in xs && forall i :: 0 <= i < |xs| ==> m <= xs[i]
  {
    if |xs| == 1 then xs[0] else Min(xs[0], SeqMin(xs[1..]))
  }

  /** `max` of a non-empty list of numbers. */
  function SeqMax(xs: seq<real>): (m: real)
    requires |xs| > 0
    ensures m in xs && forall i :: 0 <= i < |xs| ==> xs[i] <= m
  {
    if |xs| == 1 then xs[0] else Max(xs[0], SeqMax(xs[1..]))
  }

  /** `set_axes`: a window `max_diff` tall centred on the elevations, moved
      up to start at 0 when it would reach below. `min` and `max` of an
      empty list raise ValueError. */
  function SetAxes(x: seq<real>, z: seq<real>, maxDiff: real): (r: Result<(real, real)>)
    ensures r.Ok? <==> |z| > 0 && |x| > 0
    ensures r.Err? ==> r.error == ValueError
    ensures r.Ok? ==> r.value.1 - r.value.0 == maxDiff && r.value.0 >= 0.0
    ensures r.Ok? ==> var (zMin, zMax) := (SeqMin(z), SeqMax(z));
      var low := zMin - (maxDiff - (zMax - zMin)) / 2.0;
      && (low < 0.0 ==> r.value.0 == 0.0)
      && (low >= 0.0 ==> r.value.0 + r.value.1 == zMin + zMax)
  {
    if |z| == 0 || |x| == 0 then Err(ValueError)
    else
      var (zMin, zMax) := (SeqMin(z), SeqMax(z));
      var dz := maxDiff - (zMax - zMin);
      var yMin := zMin - dz / 2.0;
      var yMax := zMax + dz / 2.0;
      if yMin < 0.0 then Ok((0.0, yMax - yMin)) else Ok((yMin, yMax))
  }

  /** When the data fits in `max_diff` and lies above 0, the window shows
      all of it. */
  lemma SetAxesShowsData(x: seq<real>, z: seq<real>, maxDiff: real)
    requires |x| > 0 && |z| > 0
    requires SeqMin(z) >= 0.0 && SeqMax(z) - SeqMin(z) <= maxDiff
    ensures SetAxes(x, z, maxDiff).Ok?
    ensures var (yMin, yMax) := SetAxes(x, z, maxDiff).value;
      forall i :: 0 <= i < |z| ==> yMin <= z[i] <= yMax
  {
  }

  /** The test on line 8: the floor of the previous distance and the floor
      of the current distance's float quotient fall in different multiples
      of `step`. */
  predicate Crossing(d: seq<real>, step: int, i: int)
    requires step != 0
  {
    1 <= i < |d| && FloorDiv(Floor(d[i - 1]), step) != Floor(d[i] / step as real)
  }

  /** The indices in `[1, n)` that pass the test, in increasing order. */
  function Crossings(d: seq<real>, step: int, n: nat): (r: seq<nat>)
    requires step != 0 && n <= |d|
    ensures forall k :: 0 <= k < |r| ==> 1 <= r[k] < n
    ensures forall k, l :: 0 <= k < l < |r| ==> r[k] < r[l]
  {
    if n <= 1 then []
    else
      var r := Crossings(d, step, n - 1);
      if Crossing(d, step, n - 1) then r + [n - 1] else r
  }

  /** The indices `Crossings` lists are exactly the crossings below `n`. */
  lemma {:induction false} CrossingsExact(d: seq<real>, step: int, n: nat)
    requires step != 0 && n <= |d|
    ensures var r := Crossings(d, step, n);
      forall i :: 0 <= i < n ==> (i in r <==> Crossing(d, step, i))
    decreases n
  {
    if n > 1 {
      CrossingsExact(d, step, n - 1);
    }
  }

  /** Every listed index is a crossing. */
  lemma CrossingsAreCrossings(d: seq<real>, step: int, n: nat)
    requires step != 0 && n <= |d|
    ensures forall k :: 0 <= k < |Crossings(d, step, n)| ==> Crossing(d, step, Crossings(d, step, n)[k])
  {
    var r := Crossings(d, step, n);
    CrossingsExact(d, step, n);
    forall k | 0 <= k < |r| ensures Crossing(d, step, r[k]) {
      assert r[k] in r;
    }
  }

  /** Rounding down a distance before dividing by a positive step changes
      nothing: `floor(x) // n == floor(x // n)`. */
  lemma FloorThenDivide(x: real, n: int)
    requires n > 0
    ensures FloorDiv(Floor(x), n) == Floor(x / n as real)
  {
    var q := FloorDiv(Floor(x), n);
    var f := Floor(x);
    assert q * n <= f < q * n + n;
    assert (q * n) as real <= x < (q * n + n) as real;
    assert q as real * n as real <= x;
    assert x < (q + 1) as real * n as real;
    DivideBounds(x, n as real, q);
  }

  lemma DivideBounds(x: real, n: real, q: int)
    requires n > 0.0
    requires q as real * n <= x < (q + 1) as real * n
    ensures Floor(x / n) == q
  {
    DivideMonotone(x, n, q as real);
    DivideMonotone(x, n, (q + 1) as real);
  }

  /** Dividing by a positive number keeps comparisons with a multiple. */
  lemma DivideMonotone(x: real, n: real, a: real)
    requires n > 0.0
    ensures a * n <= x ==> a <= x / n
    ensures x < a * n ==> x / n < a
  {
    var y := x / n;
    assert y * n == x;
    if y < a {
      ScaleStrict(y, a, n);
    } else {
      ScaleWeak(a, y, n);
    }
  }

  lemma ScaleStrict(a: real, b: real, n: real)
    requires n > 0.0 && a < b
    ensures a * n < b * n
  {
    assert b * n - a * n == (b - a) * n;
  }

  lemma ScaleWeak(a: real, b: real, n: real)
    requires n > 0.0 && a <= b
    ensures a * n <= b * n
  {
    assert b * n - a * n == (b - a) * n;
  }

  /** For a positive step the chart's test and the page's tick test
      (track/segment.py:300) agree. */
  lemma CrossingIsTick(d: seq<real>, step: int, i: int)
    requires step > 0
    ensures Crossing(d, step, i) <==> TrackSegment.TickAt(d, step, i)
  {
    if 1 <= i < |d| {
      FloorThenDivide(d[i], step);
    }
  }

  /** For a positive step a crossing separates two different distances, so
      the weight's division is safe. */
  lemma CrossingMoves(d: seq<real>, step: int, i: int)
    requires step > 0 && Crossing(d, step, i)
    ensures d[i - 1] != d[i]
  {
    FloorThenDivide(d[i - 1], step);
  }

  /** Which interpolation weight to use at a crossing: the one line 10
      computes, or the one it evidently means. */
  datatype WeightRule = AsWritten | Intended

  /** Line 10 puts the index `i` where the crossed distance belongs:
      `(i - d[i-1]) / (d[i] - d[i-1])`. The intended weight measures the
      multiple of `step` that was crossed, `step * floor(d[i] / step)`. */
  function Weight(rule: WeightRule, d: seq<real>, step: int, i: nat): real
    requires step != 0 && 1 <= i < |d| && d[i] != d[i - 1]
  {
    match rule
    case AsWritten => (i as real - d[i - 1]) / (d[i] - d[i - 1])
    case Intended => ((step * Floor(d[i] / step as real)) as real - d[i - 1]) / (d[i] - d[i - 1])
  }

  /** The three lists handed to `plt.vlines`: x positions, bottoms, tops. */
  datatype Vlines = Vlines(xLines: seq<int>, minLines: seq<real>, maxLines: seq<real>)

  /** No crossing joins two equal distances. */
  predicate Separated(d: seq<real>, ticks: seq<nat>) {
    forall k :: 0 <= k < |ticks| ==> 1 <= ticks[k] < |d| && d[ticks[k]] != d[ticks[k] - 1]
  }

  /** The point a fraction `t` of the way from `lo` to `hi`. */
  function Interp(t: real, lo: real, hi: real): real {
    t * hi + (1.0 - t) * lo
  }

  /** `tops[k]` is the line top at crossing `ticks[k]`: the elevations on
      either side of it mixed by the rule's weight, `t * e[i] + (1 - t) *
      e[i-1]`. */
  predicate Tops(rule: WeightRule, d: seq<real>, e: seq<real>, step: int, ticks: seq<nat>, tops: seq<real>) {
    && step != 0 && Separated(d, ticks)
    && (forall k :: 0 <= k < |ticks| ==> ticks[k] < |e|)
    && |tops| == |ticks|
    && forall k :: 0 <= k < |ticks| ==>
         tops[k] == Interp(Weight(rule, d, step, ticks[k]), e[ticks[k] - 1], e[ticks[k]])
  }

  /** `max_lines`: each crossing's top, interpolated between the elevations
      of the samples around it. */
  function MaxLines(rule: WeightRule, d: seq<real>, e: seq<real>, step: int, ticks: seq<nat>): (r: seq<real>)
    requires step != 0 && Separated(d, ticks)
    requires forall k :: 0 <= k < |ticks| ==> ticks[k] < |e|
    ensures Tops(rule, d, e, step, ticks, r)
  {
    if |ticks| == 0 then []
    else [Interp(Weight(rule, d, step, ticks[0]), e[ticks[0] - 1], e[ticks[0]])] + MaxLines(rule, d, e, step, ticks[1..])
  }

  /** `x_lines = list(range(step, top, step))`: the multiples of `step`
      from `step` on, strictly before `top` for a positive step. */
  function XLines(step: int, top: int): (r: seq<int>)
    requires step != 0
    ensures |r| == RangeLen(step, top, step)
    ensures forall k :: 0 <= k < |r| ==> r[k] == (k + 1) * step
    ensures step > 0 ==> forall k :: 0 <= k < |r| ==> r[k] < top
  {
    var n := RangeLen(step, top, step);
    assert forall k: nat :: RangeAt(step, step, k) == (k + 1) * step;
    seq(n, k requires 0 <= k < n => RangeAt(step, step, k))
  }

  /** `get_vlines` under a weight rule. The loop raises ZeroDivisionError on
      a zero step (or at a crossing between equal distances, which only a
      negative step allows); an empty profile raises IndexError at
      `distance[-1]`, and a lone sample with a zero step ValueError in
      `range`; a crossing past the elevations raises IndexError. */
  function VlinesWith(rule: WeightRule, d: seq<real>, e: seq<real>, zMin: real, step: int): (r: Result<Vlines>)
    ensures |d| == 0 ==> r == Err(IndexError)
    ensures |d| > 0 && step == 0 ==> r == Err(if |d| >= 2 then ZeroDivisionError else ValueError)
    ensures step > 0 ==>
      (r.Ok? <==> |d| > 0 && forall k :: 0 <= k < |Crossings(d, step, |d|)| ==> Crossings(d, step, |d|)[k] < |e|)
    ensures step != 0 ==>
      (r.Ok? <==> |d| > 0 && Separated(d, Crossings(d, step, |d|))
                  && forall k :: 0 <= k < |Crossings(d, step, |d|)| ==> Crossings(d, step, |d|)[k] < |e|)
    ensures r.Ok? ==> step != 0 && |d| > 0 && Separated(d, Crossings(d, step, |d|))
    ensures r.Ok? ==> forall k :: 0 <= k < |Crossings(d, step, |d|)| ==> Crossings(d, step, |d|)[k] < |e|
    ensures r.Ok? ==> r.value.xLines == XLines(step, Floor(d[|d| - 1]))
    ensures r.Ok? ==> |r.value.minLines| == |Crossings(d, step, |d|)|
    ensures r.Ok? ==> forall k :: 0 <= k < |r.value.minLines| ==> r.value.minLines[k] == zMin
    ensures r.Ok? ==> r.value.maxLines == MaxLines(rule, d, e, step, Crossings(d, step, |d|))
  {
    if |d| == 0 then Err(IndexError)
    else if step == 0 then Err(if |d| >= 2 then ZeroDivisionError else ValueError)
    else
      var ticks := Crossings(d, step, |d|);
      if !Separated(d, ticks) then
        assert step < 0 by {
          if step > 0 {
            PositiveStepSeparates(d, step);
          }
        }
        Err(ZeroDivisionError)
      else if exists k :: 0 <= k < |ticks| && ticks[k] >= |e| then Err(IndexError)
      else
        var minLines := seq(|ticks|, _ => zMin);
        Ok(Vlines(XLines(step, Floor(d[|d| - 1])), minLines, MaxLines(rule, d, e, step, ticks)))
  }

  lemma PositiveStepSeparates(d: seq<real>, step: int)
    requires step > 0
    ensures Separated(d, Crossings(d, step, |d|))
  {
    var ticks := Crossings(d, step, |d|);
    CrossingsAreCrossings(d, step, |d|);
    forall k | 0 <= k < |ticks|
      ensures 1 <= ticks[k] < |d| && d[ticks[k]] != d[ticks[k] - 1]
    {
      CrossingMoves(d, step, ticks[k]);
    }
  }

  /** `get_vlines` as written. */
  function GetVlines(d: seq<real>, e: seq<real>, zMin: real, step: int): (r: Result<Vlines>)
    ensures |d| == 0 ==> r == Err(IndexError)
    ensures r.Ok? ==> step != 0 && |r.value.minLines| == |Crossings(d, step, |d|)|
    ensures r.Ok? ==> Tops(AsWritten, d, e, step, Crossings(d, step, |d|), r.value.maxLines)
  {
    VlinesWith(AsWritten, d, e, zMin, step)
  }

  /** Samples at 4 km and 6 km with elevations 100 m and 200 m: the line at
      the 5 km crossing gets weight `(1 - 4) / 2 = -1.5` and tops out at
      -50 m, below both neighbouring elevations. */
  lemma VlineWeightExample()
    ensures GetVlines([4.0, 6.0], [100.0, 200.0], 0.0, 5) == Ok(Vlines([5], [0.0], [-50.0]))
  {
    var d := [4.0, 6.0];
    var e := [100.0, 200.0];
    ExampleCrossings();
    var r := VlinesWith(AsWritten, d, e, 0.0, 5);
    assert r.Ok?;
    ExampleXLines();
    assert r.value.xLines == [5];
    assert r.value.minLines == [0.0];
    ExampleWeight();
    assert MaxLines(AsWritten, d, e, 5, [1])[0] == -50.0;
    assert r.value.maxLines == [-50.0];
  }

  lemma ExampleXLines()
    ensures XLines(5, Floor(6.0)) == [5]
  {
    assert Floor(6.0) == 6;
    assert RangeLen(5, 6, 5) == 1;
  }

  lemma ExampleCrossings()
    ensures Crossings([4.0, 6.0], 5, 2) == [1]
  {
    assert Floor(4.0) == 4;
    assert Floor(6.0 / 5 as real) == 1;
    assert FloorDiv(4, 5) == 0;
    assert Crossing([4.0, 6.0], 5, 1);
  }

  lemma ExampleWeight()
    ensures Weight(AsWritten, [4.0, 6.0], 5, 1) == -1.5
    ensures Interp(-1.5, 100.0, 200.0) == -50.0
  {
  }

  /** With the intended weight and a growing profile, each line's weight
      lies in `(0, 1]`, so its top lies between the two elevations it
      interpolates. */
  lemma IntendedWeightInterpolates(d: seq<real>, step: int, i: nat)
    requires step > 0 && Crossing(d, step, i) && d[i - 1] < d[i]
    ensures 0.0 < Weight(Intended, d, step, i) <= 1.0
  {
    var q0 := Floor(d[i - 1] / step as real);
    var q1 := Floor(d[i] / step as real);
    FloorThenDivide(d[i - 1], step);
    assert q0 != q1;
    assert q0 <= q1 by {
      assert d[i - 1] / step as real <= d[i] / step as real;
    }
    var c := (step * q1) as real;
    MultipleBounds(d[i - 1], d[i], step, q0, q1);
    assert d[i - 1] < c <= d[i];
    WeightInUnit(c - d[i - 1], d[i] - d[i - 1]);
  }

  lemma MultipleBounds(a: real, b: real, step: int, q0: int, q1: int)
    requires step > 0 && q0 < q1
    requires q0 == Floor(a / step as real) && q1 == Floor(b / step as real)
    ensures a < (step * q1) as real <= b
  {
    var s := step as real;
    assert a / s < (q0 + 1) as real;
    assert (q0 + 1) as real <= q1 as real;
    assert a == (a / s) * s;
    assert (a / s) * s < q1 as real * s;
    assert q1 as real <= b / s;
    assert b == (b / s) * s;
    assert q1 as real * s <= (b / s) * s;
  }

  lemma WeightInUnit(num: real, den: real)
    requires 0.0 < num <= den
    ensures 0.0 < num / den <= 1.0
  {
  }

  lemma BetweenEndpoints(t: real, lo: real, hi: real)
    requires 0.0 <= t <= 1.0
    ensures Min(lo, hi) <= Interp(t, lo, hi) <= Max(lo, hi)
  {
    var u := hi - lo;
    assert Interp(t, lo, hi) == lo + t * u;
    if lo <= hi {
      assert t * u <= u by {
        ScaleFraction(t, u);
      }
    } else {
      assert t * u >= u by {
        ScaleFraction(t, -u);
        assert t * (-u) == -(t * u);
      }
      assert t * u <= 0.0 by {
        assert t * (-u) >= 0.0 by {
          ScaleFraction(t, -u);
        }
        assert t * (-u) == -(t * u);
      }
    }
  }

  /** A fraction of a non-negative amount lies between 0 and the amount. */
  lemma ScaleFraction(t: real, u: real)
    requires 0.0 <= t <= 1.0 && u >= 0.0
    ensures 0.0 <= t * u <= u
  {
    if u > 0.0 {
      ScaleWeak(t, 1.0, u);
      ScaleWeak(0.0, t, u);
    }
  }

  /** `get_vlines` with the intended weight: on a strictly growing profile
      with a positive step every line ends between the elevations of the two
      samples around its crossing. */
  lemma CorrectedVlinesBetween(d: seq<real>, e: seq<real>, zMin: real, step: int)
    requires step > 0 && 0 < |d| <= |e|
    requires forall i :: 1 <= i < |d| ==> d[i - 1] < d[i]
    ensures VlinesWith(Intended, d, e, zMin, step).Ok?
    ensures var r := VlinesWith(Intended, d, e, zMin, step).value;
      var ticks := Crossings(d, step, |d|);
      forall k :: 0 <= k < |ticks| ==>
        Min(e[ticks[k] - 1], e[ticks[k]]) <= r.maxLines[k] <= Max(e[ticks[k] - 1], e[ticks[k]])
  {
    var ticks := Crossings(d, step, |d|);
    assert forall k :: 0 <= k < |ticks| ==> ticks[k] < |e|;
    var r := VlinesWith(Intended, d, e, zMin, step).value;
    assert Separated(d, ticks);
    assert r.maxLines == MaxLines(Intended, d, e, step, ticks);
    CrossingsAreCrossings(d, step, |d|);
    MaxLinesBetween(d, e, step, ticks);
    assert forall k :: 0 <= k < |ticks| ==>
      Min(e[ticks[k] - 1], e[ticks[k]]) <= r.maxLines[k] <= Max(e[ticks[k] - 1], e[ticks[k]]);
  }

  /** Line tops under the intended weight, at crossings of a strictly
      growing profile, lie between the elevations around each crossing. */
  lemma MaxLinesBetween(d: seq<real>, e: seq<real>, step: int, ticks: seq<nat>)
    requires step > 0
    requires forall i :: 1 <= i < |d| ==> d[i - 1] < d[i]
    requires Separated(d, ticks) && forall k :: 0 <= k < |ticks| ==> ticks[k] < |e| && Crossing(d, step, ticks[k])
    ensures forall k :: 0 <= k < |ticks| ==>
      Min(e[ticks[k] - 1], e[ticks[k]]) <= MaxLines(Intended, d, e, step, ticks)[k] <= Max(e[ticks[k] - 1], e[ticks[k]])
  {
    var top := MaxLines(Intended, d, e, step, ticks);
    forall k | 0 <= k < |ticks|
      ensures Min(e[ticks[k] - 1], e[ticks[k]]) <= top[k] <= Max(e[ticks[k] - 1], e[ticks[k]])
    {
      var i := ticks[k];
      IntendedWeightInterpolates(d, step, i);
      BetweenEndpoints(Weight(Intended, d, step, i), e[i - 1], e[i]);
    }
  }
}

=== FILE: point.dfy ===
/** Geographic points (geo/point.py): component arithmetic, tuple views and
    movement along a bearing. The geodesic distance and the bearing offset are
    library calls; they enter the model as the two function values of a
    `Geodesy` record, about which only the distance axioms are assumed. */
module GeoPoint {
  import opened Results

  /** A position in degrees. */
  datatype Point = Point(lon: real, lat: real)

  /** The right operand of `+` and `-`: the source accepts only a point. */
  datatype Operand = PointArg(p: Point) | NumberArg(x: real)

  /** The geodesy library: `distance(a, b)` in km and `offset(p, km, bearing)`. */
  datatype Geodesy = Geodesy(distance: (Point, Point) -> real, offset: (Point, real, real) -> Point)

  /** The only facts assumed of the distance: it is never negative and a point
      is at distance zero from itself. */
  ghost predicate Valid(g: Geodesy) {
    && (forall a, b :: g.distance(a, b) >= 0.0)
    && (forall a :: g.distance(a, a) == 0.0)
  }

  /** `p[i]`: index 0 is the longitude, 1 the latitude, anything else raises
      IndexError. */
  function Get(p: Point, i: int): (r: Result<real>)
    ensures r.Ok? <==> i == 0 || i == 1
  {
    if i == 0 then Ok(p.lon)
    else if i == 1 then Ok(p.lat)
    else Err(IndexError)
  }

  /** Unpacking `lon, lat = p` reads indices 0 and 1 and gives back the point. */
  lemma UnpackRoundTrip(p: Point)
    ensures Get(p, 0).Ok? && Get(p, 1).Ok?
    ensures Point(Get(p, 0).value, Get(p, 1).value) == p
  {
  }

  function Plus(a: Point, b: Point): Point {
    Point(a.lon + b.lon, a.lat + b.lat)
  }

  function Minus(a: Point, b: Point): Point {
    Point(a.lon - b.lon, a.lat - b.lat)
  }

  /** `k * p` and `p * k`: both components scaled. */
  function Scale(k: real, p: Point): Point {
    Point(k * p.lon, k * p.lat)
  }

  /** `a + b`; a non-point operand raises ValueError. */
  function Add(a: Point, b: Operand): (r: Result<Point>)
    ensures r.Ok? <==> b.PointArg?
    ensures r.Ok? ==> forall i | i == 0 || i == 1 ::
      Get(r.value, i).value == Get(a, i).value + Get(b.p, i).value
  {
    match b
    case PointArg(q) => Ok(Plus(a, q))
    case NumberArg(_) => Err(ValueError)
  }

  /** `a - b`; a non-point operand raises ValueError. */
  function Sub(a: Point, b: Operand): (r: Result<Point>)
    ensures r.Ok? <==> b.PointArg?
    ensures r.Ok? ==> forall i | i == 0 || i == 1 ::
      Get(r.value, i).value == Get(a, i).value - Get(b.p, i).value
  {
    match b
    case PointArg(q) => Ok(Minus(a, q))
    case NumberArg(_) => Err(ValueError)
  }

  /** Subtracting what was added gives the point back, component by component. */
  lemma AddSubInverse(a: Point, b: Point)
    ensures Add(a, PointArg(b)).Ok?
    ensures Sub(Add(a, PointArg(b)).value, PointArg(b)) == Ok(a)
  {
  }

  /** `p * k` (`__mul__`) and `k * p` (`__rmul__`, which delegates to it). */
  function Mul(p: Point, k: real): (r: Point)
    ensures forall i | i == 0 || i == 1 :: Get(r, i).value == k * Get(p, i).value
  {
    Scale(k, p)
  }

  function RMul(k: real, p: Point): (r: Point)
    ensures forall i | i == 0 || i == 1 :: Get(r, i).value == k * Get(p, i).value
  {
    Mul(p, k)
  }

  /** `p / k`; division by zero raises ZeroDivisionError. */
  function Div(p: Point, k: real): (r: Result<Point>)
    ensures r.Ok? <==> k != 0.0
  {
    if k == 0.0 then Err(ZeroDivisionError) else Ok(Point(p.lon / k, p.lat / k))
  }

  /** Scaling by a non-zero factor is undone by dividing by it. */
  lemma MulDivInverse(p: Point, k: real)
    requires k != 0.0
    ensures Div(Mul(p, k), k) == Ok(p)
  {
    var q := Mul(p, k);
    assert q.lon / k == p.lon by {
      assert q.lon == k * p.lon;
    }
    assert q.lat / k == p.lat by {
      assert q.lat == k * p.lat;
    }
    assert Div(q, k) == Ok(Point(q.lon / k, q.lat / k));
  }

  /** The midpoint `0.5 * (a + b)` of two copies of a point is the point. */
  lemma MidpointOfSame(p: Point)
    ensures Scale(0.5, Plus(p, p)) == p
  {
  }

  function LonLat(p: Point): (real, real) {
    (p.lon, p.lat)
  }

  function LatLon(p: Point): (real, real) {
    (p.lat, p.lon)
  }

  /** `latlon` is `lonlat` with the components swapped. */
  lemma LatLonIsSwap(p: Point)
    ensures LatLon(p) == (LonLat(p).1, LonLat(p).0)
    ensures Point(LatLon(p).1, LatLon(p).0) == p
  {
  }

  function MoveNorth(g: Geodesy, p: Point, d: real): Point {
    g.offset(p, d, 0.0)
  }

  function MoveEast(g: Geodesy, p: Point, d: real): Point {
    g.offset(p, d, 90.0)
  }

  function MoveSouth(g: Geodesy, p: Point, d: real): Point {
    g.offset(p, d, 180.0)
  }

  function MoveWest(g: Geodesy, p: Point, d: real): Point {
    g.offset(p, d, 270.0)
  }

  /** The direction table `{"north": 0, "east": 90, "south": 180, "west": 270}`. */
  function BearingOf(name: string): Option<real> {
    if name == "north" then Some(0.0)
    else if name == "east" then Some(90.0)
    else if name == "south" then Some(180.0)
    else if name == "west" then Some(270.0)
    else None
  }

  /** `p.move_one(d, name)`: an unknown name fails the table lookup with KeyError. */
  function MoveOne(g: Geodesy, p: Point, d: real, name: string): (r: Result<Point>)
    ensures r.Ok? <==> name in {"north", "east", "south", "west"}
  {
    match BearingOf(name)
    case Some(b) => Ok(g.offset(p, d, b))
    case None => Err(KeyError)
  }

  /** The named moves are the cardinal helpers. */
  lemma MoveOneCardinal(g: Geodesy, p: Point, d: real)
    ensures MoveOne(g, p, d, "north") == Ok(MoveNorth(g, p, d))
    ensures MoveOne(g, p, d, "east") == Ok(MoveEast(g, p, d))
    ensures MoveOne(g, p, d, "south") == Ok(MoveSouth(g, p, d))
    ensures MoveOne(g, p, d, "west") == Ok(MoveWest(g, p, d))
  {
  }

  /** A key of the dict given to `move`: a direction name or a bearing. */
  datatype Direction = Named(name: string) | Bearing(degrees: real)

  /** One step of `move`: a name found in the table becomes its bearing, a
      bearing passes through, and a name outside the table reaches the
      trigonometry as a string, which raises TypeError. */
  function Step(g: Geodesy, p: Point, key: Direction, d: real): (r: Result<Point>)
    ensures key.Named? ==> r == (if BearingOf(key.name).Some? then MoveOne(g, p, d, key.name) else Err(TypeError))
    ensures key.Bearing? ==> r == Ok(g.offset(p, d, key.degrees))
  {
    match key
    case Bearing(b) => Ok(g.offset(p, d, b))
    case Named(n) =>
      match BearingOf(n)
      case Some(b) => Ok(g.offset(p, d, b))
      case None => Err(TypeError)
  }

  /** `p.move(directions)`: the offsets applied one after another in the
      dict's insertion order. */
  function Move(g: Geodesy, p: Point, directions: seq<(Direction, real)>): Result<Point>
    decreases |directions|
  {
    if |directions| == 0 then Ok(p)
    else
      var q :- Step(g, p, directions[0].0, directions[0].1);
      Move(g, q, directions[1..])
  }

  /** Moving along `a + b` is moving along `a`, then along `b` from there. */
  lemma {:induction false} MoveConcat(g: Geodesy, p: Point, a: seq<(Direction, real)>, b: seq<(Direction, real)>)
    ensures Move(g, p, a + b) ==
      (match Move(g, p, a)
       case Ok(q) => Move(g, q, b)
       case Err(e) => Err(e))
    decreases |a|
  {
    if |a| > 0 {
      assert (a + b)[1..] == a[1..] + b;
      match Step(g, p, a[0].0, a[0].1)
      case Ok(q) => MoveConcat(g, q, a[1..], b);
      case Err(_) =>
    }
    else {
      assert a + b == b;
    }
  }

  /** A one-entry dict with a direction name moves like `move_one`. */
  lemma MoveSingleNamed(g: Geodesy, p: Point, name: string, d: real)
    requires BearingOf(name).Some?
    ensures Move(g, p, [(Named(name), d)]) == MoveOne(g, p, d, name)
  {
  }
}

=== FILE: pymath.dfy ===
/** Python's rounding operators stated over Dafny's unbounded numbers:
    `math.floor`, `math.ceil` and the integer floor division `//`. */
module PyMath {

  /** `math.floor(x)`: the greatest integer not above `x`. */
  function Floor(x: real): (r: int)
    ensures r as real <= x < r as real + 1.0
  {
    x.Floor
  }

  /** `math.ceil(x)`: the least integer not below `x`. */
  function Ceil(x: real): (r: int)
    ensures x <= r as real < x + 1.0
  {
    -((-x).Floor)
  }

  /** `a // b` on Python ints, which rounds toward negative infinity for
      either sign of `b` (Dafny's `/` is Euclidean and differs when `b < 0`). */
  function FloorDiv(a: int, b: int): (q: int)
    requires b != 0
    ensures b > 0 ==> q * b <= a < q * b + b
    ensures b < 0 ==> q * b >= a > q * b + b
  {
    if b > 0 then a / b else (-a) / (-b)
  }

  /** `max` and `min` of two numbers, as Python's built-ins. */
  function Max(a: real, b: real): (r: real)
    ensures r >= a && r >= b && (r == a || r == b)
  {
    if a >= b then a else b
  }

  function Min(a: real, b: real): (r: real)
    ensures r <= a && r <= b && (r == a || r == b)
  {
    if a <= b then a else b
  }

  /** The ceiling of a positive ratio of integers covers the numerator and is
      the least multiple that does: `ceil(a / b) * b >= a > (ceil(a / b) - 1) * b`. */
  lemma CeilCovers(a: real, b: real)
    requires b > 0.0
    ensures Ceil(a / b) as real * b >= a
    ensures (Ceil(a / b) - 1) as real * b < a
  {
    var q := a / b;
    var c := Ceil(q) as real;
    assert q * b == a;
    assert c >= q;
    assert c * b >= q * b;
    var gap := q - (c - 1.0);
    assert gap > 0.0;
    assert gap * b > 0.0;
    assert q * b - (c - 1.0) * b == gap * b;
    assert (Ceil(q) - 1) as real == c - 1.0;
    assert (c - 1.0) * b < a;
  }

  /** `j` is a valid Python index into a sequence of length `n`: negative
      indices count from the end. */
  predicate InIndex(n: nat, j: int) {
    -(n as int) <= j < n
  }

  /** `s[j]` with Python's negative indexing. */
  function At<T>(s: seq<T>, j: int): (x: T)
    requires InIndex(|s|, j)
    ensures j >= 0 ==> x == s[j]
    ensures j < 0 ==> x == s[|s| + j]
  {
    if j < 0 then s[|s| + j] else s[j]
  }

  /** The `k`-th element of `range(start, stop, step)`. */
  function RangeAt(start: int, step: int, k: nat): int {
    start + k * step
  }

  /** `len(range(start, stop, step))`; the range runs while its elements stay
      strictly before `stop` in the direction of `step`. */
  function RangeLen(start: int, stop: int, step: int): (n: nat)
    requires step != 0
    ensures forall k: nat :: k < n <==> (if step > 0 then RangeAt(start, step, k) < stop else RangeAt(start, step, k) > stop)
  {
    if step > 0 then
      if start < stop then
        var n := (stop - start - 1) / step + 1;
        RangeLenUp(start, stop, step, n);
        n
      else 0
    else
      if start > stop then
        var n := (start - stop - 1) / (-step) + 1;
        RangeLenDown(start, stop, step, n);
        n
      else 0
  }

  lemma RangeLenUp(start: int, stop: int, step: int, n: int)
    requires step > 0 && start < stop
    requires n == (stop - start - 1) / step + 1
    ensures forall k: nat :: k < n <==> RangeAt(start, step, k) < stop
  {
    var q := (stop - start - 1) / step;
    assert q * step <= stop - start - 1 < q * step + step;
    forall k: nat
      ensures k < n <==> RangeAt(start, step, k) < stop
    {
      if k < n {
        assert k <= q;
        assert k * step <= q * step;
      } else {
        assert k >= q + 1;
        assert k * step >= (q + 1) * step;
      }
    }
  }

  lemma RangeLenDown(start: int, stop: int, step: int, n: int)
    requires step < 0 && start > stop
    requires n == (start - stop - 1) / (-step) + 1
    ensures forall k: nat :: k < n <==> RangeAt(start, step, k) > stop
  {
    var q := (start - stop - 1) / (-step);
    assert q * (-step) <= start - stop - 1 < q * (-step) - step;
    forall k: nat
      ensures k < n <==> RangeAt(start, step, k) > stop
    {
      if k < n {
        assert k <= q;
        assert k * (-step) <= q * (-step);
      } else {
        assert k >= q + 1;
        assert k * (-step) >= (q + 1) * (-step);
      }
    }
  }
}

=== FILE: results.dfy ===
/** Python exceptions raised by the modelled code, and the value-or-exception
    wrapper every partial operation returns. */
module Results {

  /** The built-in exceptions the modelled functions can raise. */
  datatype Error = IndexError | ValueError | TypeError | KeyError | ZeroDivisionError | AttributeError

  datatype Option<+T> = None | Some(value: T)

  /** Either the value an operation returns or the exception it raises. */
  datatype Result<+T> = Ok(value: T) | Err(error: Error) {

    predicate IsFailure() {
      Err?
    }

    function PropagateFailure<U>(): Result<U>
      requires Err?
    {
      Err(error)
    }

    function Extract(): T
      requires Ok?
    {
      value
    }
  }

  /** What a loop that may never exit produces: its value, the exception that
      ended it, or the fact that it repeats the same step forever. */
  datatype Run<+T> = Done(value: T) | Raised(error: Error) | Diverges
}

=== FILE: segment.dfy ===
/** The per-page layout of one track segment (track/segment.py): the tile
    span it covers, the corner that takes the legend, its name and
    description, the places that name it, the cumulative distance profile,
    and the part of the path drawn on the page with its distance ticks. */
module TrackSegment {
  import opened Results
  import opened PyMath
  import opened Strings
  import opened Order
  import opened GeoPoint
  import opened Overpass
  import opened Tiles

  /** `coords`: the tile columns and rows of the two corners, `(c0, r0, c1, r1)`. */
  datatype TileSpan = TileSpan(c0: int, r0: int, c1: int, r1: int)

  /** The `n_cols` property: `None` until coordinates are set. */
  function NCols(coords: Option<TileSpan>): (r: Option<int>)
    ensures r.None? <==> coords.None?
    ensures r.Some? ==> coords.value.c0 + r.value == coords.value.c1
  {
    if coords.None? then None else Some(coords.value.c1 - coords.value.c0)
  }

  /** The `n_rows` property. */
  function NRows(coords: Option<TileSpan>): (r: Option<int>)
    ensures r.None? <==> coords.None?
    ensures r.Some? ==> coords.value.r0 + r.value == coords.value.r1
  {
    if coords.None? then None else Some(coords.value.r1 - coords.value.r0)
  }

  /** The `dim` property: rows first, then columns. */
  function Dim(coords: Option<TileSpan>): (r: Option<(int, int)>)
    ensures r.None? <==> coords.None?
    ensures r.Some? ==> coords.value.r0 + r.value.0 == coords.value.r1
    ensures r.Some? ==> coords.value.c0 + r.value.1 == coords.value.c1
  {
    if coords.None? then None else Some((NRows(coords).value, NCols(coords).value))
  }

  /** A span is recovered from its top-left tile and its `dim`, so the
      counts lose nothing but the position. */
  lemma SpanFromDim(s: TileSpan)
    ensures Dim(Some(s)).Some?
    ensures TileSpan(s.c0, s.r0, s.c0 + Dim(Some(s)).value.1, s.r0 + Dim(Some(s)).value.0) == s
  {
  }

  /** The page's pixel size less the border on both sides, turned so that
      its first component runs along the span's longer side: swapped when
      the span is strictly wider than tall. */
  function PageTarget(width: int, height: int, px: (int, int), border: int): (r: (int, int))
    ensures multiset{r.0, r.1} == multiset{px.0 - 2 * border, px.1 - 2 * border}
    ensures r.0 + 2 * border == (if width > height then px.1 else px.0)
  {
    var tw := px.0 - 2 * border;
    var th := px.1 - 2 * border;
    if width > height then (th, tw) else (tw, th)
  }

  /** The number of tiles added on each side to cover a pixel shortfall,
      `ceil(shortfall / (2 * tile))`: for a positive tile size, the least
      count whose two strips cover the shortfall. */
  function Widening(shortfall: int, tile: int): (d: int)
    requires tile != 0
    ensures tile > 0 && shortfall > 0 ==> d >= 1 && 2 * tile * d >= shortfall > 2 * tile * (d - 1)
  {
    var a := shortfall as real;
    var b := (2 * tile) as real;
    var d := Ceil(a / b);
    if tile > 0 then
      CeilCovers(a, b);
      assert (d as real) * b >= a;
      assert ((d - 1) as real) * b < a;
      assert (2 * tile * d) as real == (d as real) * b;
      assert (2 * tile * (d - 1)) as real == ((d - 1) as real) * b;
      d
    else
      d
  }

  /** `find_coords`: from the tiles of the segment's first and last points,
      widens the span symmetrically until it covers the page. The column
      pair is widened when the oriented target height exceeds the span's
      pixel height, counting in tile heights, and the row pair when the
      target width exceeds its width, counting in tile widths. A zero tile
      size on a widened axis raises ZeroDivisionError. */
  function FindCoords(first: (int, int), last: (int, int), tileWidth: int, tileHeight: int,
                      px: (int, int), border: int): (r: Result<TileSpan>)
    ensures r.Err? <==>
      || (ShortBy(first, last, tileWidth, tileHeight, px, border).1 > 0 && tileHeight == 0)
      || (ShortBy(first, last, tileWidth, tileHeight, px, border).0 > 0 && tileWidth == 0)
    ensures r.Err? ==> r.error == ZeroDivisionError
    ensures r.Ok? ==> first.0 - r.value.c0 == r.value.c1 - last.0 && first.1 - r.value.r0 == r.value.r1 - last.1
    ensures r.Ok? && tileWidth > 0 && tileHeight > 0 ==>
      var (sw, sh) := ShortBy(first, last, tileWidth, tileHeight, px, border);
      var (dc, dr) := (first.0 - r.value.c0, first.1 - r.value.r0);
      && dc >= 0 && dr >= 0
      && (dc > 0 <==> sh > 0) && (dr > 0 <==> sw > 0)
      && (sh > 0 ==> 2 * tileHeight * dc >= sh > 2 * tileHeight * (dc - 1))
      && (sw > 0 ==> 2 * tileWidth * dr >= sw > 2 * tileWidth * (dr - 1))
  {
    var (c0, r0) := first;
    var (c1, r1) := last;
    var (sw, sh) := ShortBy(first, last, tileWidth, tileHeight, px, border);
    if sh > 0 && tileHeight == 0 then Err(ZeroDivisionError)
    else if sw > 0 && tileWidth == 0 then Err(ZeroDivisionError)
    else
      var dc := if sh > 0 then Widening(sh, tileHeight) else 0;
      var dr := if sw > 0 then Widening(sw, tileWidth) else 0;
      Ok(TileSpan(c0 - dc, r0 - dr, c1 + dc, r1 + dr))
  }

  /** How far the oriented page target exceeds the span's pixel size:
      `(target_width - width, target_height - height)`. */
  function ShortBy(first: (int, int), last: (int, int), tileWidth: int, tileHeight: int,
                   px: (int, int), border: int): (int, int)
  {
    var width := tileWidth * (last.0 - first.0);
    var height := tileHeight * (last.1 - first.1);
    var (tw, th) := PageTarget(width, height, px, border);
    (tw - width, th - height)
  }

  /** The widened span keeps the segment's span centred: its column and row
      counts grow by an even number, never shrink, and the `dim` of the
      result is `(rows, cols)` of the widened span. */
  lemma FindCoordsGrowsEvenly(first: (int, int), last: (int, int), tileWidth: int, tileHeight: int,
                              px: (int, int), border: int)
    requires tileWidth > 0 && tileHeight > 0
    ensures var before := Some(TileSpan(first.0, first.1, last.0, last.1));
      var after := Some(FindCoords(first, last, tileWidth, tileHeight, px, border).value);
      && NCols(after).value - NCols(before).value == 2 * (first.0 - after.value.c0) >= 0
      && NRows(after).value - NRows(before).value == 2 * (first.1 - after.value.r0) >= 0
      && Dim(after) == Some((NRows(before).value + 2 * (first.1 - after.value.r0),
                             NCols(before).value + 2 * (first.0 - after.value.c0)))
  {
  }

  /** The span's pixel size `(width, height)` before widening. */
  function SpanPx(first: (int, int), last: (int, int), tileWidth: int, tileHeight: int): (int, int) {
    (tileWidth * (last.0 - first.0), tileHeight * (last.1 - first.1))
  }

  /** The span covers the oriented page target on both axes: enough columns
      for its width and enough rows for its height. */
  predicate Covers(s: TileSpan, tileWidth: int, tileHeight: int, target: (int, int)) {
    tileWidth * (s.c1 - s.c0) >= target.0 && tileHeight * (s.r1 - s.r0) >= target.1
  }

  /** The span `find_coords` computes for a wide, flat segment misses the
      page: a 10 x 1 tile span on a 4 x 20 pixel page is oriented to a
      20 x 4 target, but the height shortfall widens the columns and the
      width shortfall the rows, giving 14 columns where 20 are needed. */
  lemma FindCoordsMissesPage()
    ensures FindCoords((0, 0), (10, 1), 1, 1, (4, 20), 0) == Ok(TileSpan(-2, -5, 12, 6))
    ensures PageTarget(10, 1, (4, 20), 0) == (20, 4)
    ensures !Covers(TileSpan(-2, -5, 12, 6), 1, 1, (20, 4))
  {
    assert ShortBy((0, 0), (10, 1), 1, 1, (4, 20), 0) == (10, 3);
    assert Widening(3, 1) == 2 by {
      assert 2 * 1 * Widening(3, 1) >= 3 > 2 * 1 * (Widening(3, 1) - 1);
    }
    assert Widening(10, 1) == 5 by {
      assert 2 * 1 * Widening(10, 1) >= 10 > 2 * 1 * (Widening(10, 1) - 1);
    }
  }

  /** `find_coords` with the axes matched: the columns widen, counting in
      tile widths, when the oriented target width exceeds the span's width,
      and the rows, counting in tile heights, when the target height
      exceeds its height. For positive tile sizes the result covers the page
      and each axis widens by the least count that does. */
  function FindCoordsCorrected(first: (int, int), last: (int, int), tileWidth: int, tileHeight: int,
                               px: (int, int), border: int): (r: Result<TileSpan>)
    ensures r.Err? <==>
      || (ShortBy(first, last, tileWidth, tileHeight, px, border).0 > 0 && tileWidth == 0)
      || (ShortBy(first, last, tileWidth, tileHeight, px, border).1 > 0 && tileHeight == 0)
    ensures r.Err? ==> r.error == ZeroDivisionError
    ensures r.Ok? ==> first.0 - r.value.c0 == r.value.c1 - last.0 && first.1 - r.value.r0 == r.value.r1 - last.1
    ensures r.Ok? && tileWidth > 0 && tileHeight > 0 ==>
      Covers(r.value, tileWidth, tileHeight,
             PageTarget(SpanPx(first, last, tileWidth, tileHeight).0, SpanPx(first, last, tileWidth, tileHeight).1, px, border))
    ensures r.Ok? && tileWidth > 0 && tileHeight > 0 ==>
      && (first.0 - r.value.c0 > 0 ==> 2 * tileWidth * (first.0 - r.value.c0 - 1) < ShortBy(first, last, tileWidth, tileHeight, px, border).0)
      && (first.1 - r.value.r0 > 0 ==> 2 * tileHeight * (first.1 - r.value.r0 - 1) < ShortBy(first, last, tileWidth, tileHeight, px, border).1)
  {
    var (c0, r0) := first;
    var (c1, r1) := last;
    var (sw, sh) := ShortBy(first, last, tileWidth, tileHeight, px, border);
    if sw > 0 && tileWidth == 0 then Err(ZeroDivisionError)
    else if sh > 0 && tileHeight == 0 then Err(ZeroDivisionError)
    else
      var dc := if sw > 0 then Widening(sw, tileWidth) else 0;
      var dr := if sh > 0 then Widening(sh, tileHeight) else 0;
      CorrectedSpanCovers(first, last, tileWidth, tileHeight, px, border, dc, dr);
      Ok(TileSpan(c0 - dc, r0 - dr, c1 + dc, r1 + dr))
  }

  /** The widening counts of the corrected `find_coords` make the span
      cover the oriented target, each by the least count that does. */
  lemma CorrectedSpanCovers(first: (int, int), last: (int, int), tileWidth: int, tileHeight: int,
                            px: (int, int), border: int, dc: int, dr: int)
    requires tileWidth > 0 && tileHeight > 0 ==>
      && dc == (if ShortBy(first, last, tileWidth, tileHeight, px, border).0 > 0
                then Widening(ShortBy(first, last, tileWidth, tileHeight, px, border).0, tileWidth) else 0)
      && dr == (if ShortBy(first, last, tileWidth, tileHeight, px, border).1 > 0
                then Widening(ShortBy(first, last, tileWidth, tileHeight, px, border).1, tileHeight) else 0)
    ensures tileWidth > 0 && tileHeight > 0 ==>
      Covers(TileSpan(first.0 - dc, first.1 - dr, last.0 + dc, last.1 + dr), tileWidth, tileHeight,
             PageTarget(SpanPx(first, last, tileWidth, tileHeight).0, SpanPx(first, last, tileWidth, tileHeight).1, px, border))
    ensures tileWidth > 0 && tileHeight > 0 ==>
      && (dc > 0 ==> 2 * tileWidth * (dc - 1) < ShortBy(first, last, tileWidth, tileHeight, px, border).0)
      && (dr > 0 ==> 2 * tileHeight * (dr - 1) < ShortBy(first, last, tileWidth, tileHeight, px, border).1)
  {
    if tileWidth > 0 && tileHeight > 0 {
      var (sw, sh) := ShortBy(first, last, tileWidth, tileHeight, px, border);
      var (width, height) := SpanPx(first, last, tileWidth, tileHeight);
      var target := PageTarget(width, height, px, border);
      assert sw == target.0 - width && sh == target.1 - height;
      WidenedCovers(tileWidth, last.0 - first.0, dc, sw);
      WidenedCovers(tileHeight, last.1 - first.1, dr, sh);
    }
  }

  /** Widening a run of `n` tiles by `d` on each side adds `2 * tile * d`
      pixels, which meets the shortfall when `d` does. */
  lemma WidenedCovers(tile: int, n: int, d: int, short: int)
    requires tile > 0
    requires short > 0 ==> 2 * tile * d >= short
    requires short <= 0 ==> d == 0
    ensures tile * (n + 2 * d) >= tile * n + short
  {
    assert tile * (n + 2 * d) == tile * n + 2 * tile * d;
  }

  /** The four legend corners, in the order the `corners` dict lists them. */
  datatype Corner = TopLeft | TopRight | BottomRight | BottomLeft

  const Corners: seq<Corner> := [TopLeft, TopRight, BottomRight, BottomLeft]

  function CornerName(c: Corner): string {
    match c
    case TopLeft => "topleft"
    case TopRight => "topright"
    case BottomRight => "bottomright"
    case BottomLeft => "bottomleft"
  }

  /** The rectangle `(x0, y0, x1, y1)` a legend of size `(lw, lh)` covers in
      that corner of a `(w, h)` image. */
  function CornerRect(c: Corner, lw: real, lh: real, w: real, h: real): (real, real, real, real) {
    match c
    case TopLeft => (0.0, 0.0, lw, lh)
    case TopRight => (w - lw, 0.0, w, lh)
    case BottomRight => (w - lw, h - lh, w, h)
    case BottomLeft => (0.0, h - lh, lw, h)
  }

  /** `is_in`: bounds included on all four sides. */
  predicate IsIn(p: (real, real), rect: (real, real, real, real)) {
    rect.0 <= p.0 <= rect.2 && rect.1 <= p.1 <= rect.3
  }

  /** The number of points of `line` inside `rect`. */
  function Hidden(line: seq<(real, real)>, rect: (real, real, real, real)): (n: nat)
    ensures n <= |line|
    decreases |line|
  {
    if |line| == 0 then 0 else (if IsIn(line[0], rect) then 1 else 0) + Hidden(line[1..], rect)
  }

  /** Counting is additive over any split of the line, each point counting
      once when inside. */
  lemma {:induction false} HiddenAppend(a: seq<(real, real)>, b: seq<(real, real)>, rect: (real, real, real, real))
    ensures Hidden(a + b, rect) == Hidden(a, rect) + Hidden(b, rect)
    decreases |a|
  {
    if |a| > 0 {
      assert (a + b)[0] == a[0];
      assert (a + b)[1..] == a[1..] + b;
      HiddenAppend(a[1..], b, rect);
    } else {
      assert a + b == b;
    }
  }

  /** No point of the line lies in the rectangle exactly when the count is 0. */
  lemma {:induction false} HiddenZero(line: seq<(real, real)>, rect: (real, real, real, real))
    ensures Hidden(line, rect) == 0 <==> forall i :: 0 <= i < |line| ==> !IsIn(line[i], rect)
    decreases |line|
  {
    if |line| > 0 {
      HiddenZero(line[1..], rect);
      assert forall i :: 1 <= i < |line| ==> line[i] == line[1..][i - 1];
    }
  }

  /** The `(n_hidden, corner)` pairs in dict order. */
  function CornerCounts(line: seq<(real, real)>, lw: real, lh: real, w: real, h: real): (r: seq<(int, string)>)
    ensures |r| == 4
    ensures forall i :: 0 <= i < 4 ==> r[i] == (Hidden(line, CornerRect(Corners[i], lw, lh, w, h)), CornerName(Corners[i]))
  {
    seq(4, i requires 0 <= i < 4 => (Hidden(line, CornerRect(Corners[i], lw, lh, w, h)), CornerName(Corners[i])))
  }

  function Count(line: seq<(real, real)>, c: Corner, lw: real, lh: real, w: real, h: real): nat {
    Hidden(line, CornerRect(c, lw, lh, w, h))
  }

  /** `find_legend_pos`: the name of a corner hiding the fewest points of the
      line; among equal counts the alphabetically first name wins, since
      `min` compares the `(count, name)` pairs. */
  function FindLegendPos(line: seq<(real, real)>, lw: real, lh: real, w: real, h: real): (r: string)
    ensures exists c ::
      && CornerName(c) == r
      && (forall d :: Count(line, c, lw, lh, w, h) <= Count(line, d, lw, lh, w, h))
      && (forall d :: d != c && Count(line, d, lw, lh, w, h) == Count(line, c, lw, lh, w, h) ==>
            StrLt(CornerName(c), CornerName(d)))
  {
    IntStrIsStrict();
    var counts := CornerCounts(line, lw, lh, w, h);
    var best := MinOf(counts, IntStrLt);
    BestCornerWitness(line, lw, lh, w, h);
    best.1
  }

  lemma BestCornerWitness(line: seq<(real, real)>, lw: real, lh: real, w: real, h: real)
    ensures StrictOrder(IntStrLt)
    ensures var best := MinOf(CornerCounts(line, lw, lh, w, h), IntStrLt);
      exists c ::
        && CornerName(c) == best.1
        && (forall d :: Count(line, c, lw, lh, w, h) <= Count(line, d, lw, lh, w, h))
        && (forall d :: d != c && Count(line, d, lw, lh, w, h) == Count(line, c, lw, lh, w, h) ==>
              StrLt(CornerName(c), CornerName(d)))
  {
    IntStrIsStrict();
    var counts := CornerCounts(line, lw, lh, w, h);
    var best := MinOf(counts, IntStrLt);
    var i :| 0 <= i < 4 && counts[i] == best;
    var c := Corners[i];
    forall d ensures Count(line, c, lw, lh, w, h) <= Count(line, d, lw, lh, w, h)
      && (d != c && Count(line, d, lw, lh, w, h) == Count(line, c, lw, lh, w, h) ==> StrLt(CornerName(c), CornerName(d)))
    {
      NotBeaten(line, lw, lh, w, h, counts, best, i, d);
    }
  }

  /** The corner of the least `(count, name)` pair is not beaten by corner
      `d`: it hides no more points, and on a tie its name comes first. */
  lemma NotBeaten(line: seq<(real, real)>, lw: real, lh: real, w: real, h: real,
                  counts: seq<(int, string)>, best: (int, string), i: int, d: Corner)
    requires counts == CornerCounts(line, lw, lh, w, h)
    requires 0 <= i < 4 && counts[i] == best
    requires forall j :: 0 <= j < 4 ==> !IntStrLt(counts[j], best)
    ensures var c := Corners[i];
      && Count(line, c, lw, lh, w, h) <= Count(line, d, lw, lh, w, h)
      && (d != c && Count(line, d, lw, lh, w, h) == Count(line, c, lw, lh, w, h) ==> StrLt(CornerName(c), CornerName(d)))
  {
    var c := Corners[i];
    var j := match d case TopLeft => 0 case TopRight => 1 case BottomRight => 2 case BottomLeft => 3;
    assert Corners[j] == d;
    assert !IntStrLt(counts[j], best);
    if d != c {
      CornerNamesDistinct(c, d);
      StrLtTotal(CornerName(c), CornerName(d));
    }
  }

  lemma CornerNamesDistinct(c: Corner, d: Corner)
    requires c != d
    ensures CornerName(c) != CornerName(d)
  {
    assert CornerName(c)[..4] == "topl" || CornerName(c)[..4] == "topr" || CornerName(c)[..7] == "bottomr" || CornerName(c)[..7] == "bottoml";
  }

  /** The tie-break order of the names: bottomleft, bottomright, topleft,
      topright. */
  lemma CornerNameOrder()
    ensures StrLt(CornerName(BottomLeft), CornerName(BottomRight))
    ensures StrLt(CornerName(BottomRight), CornerName(TopLeft))
    ensures StrLt(CornerName(TopLeft), CornerName(TopRight))
  {
  }

  /** The replacements `_encode_name` applies after the first one, as a map
      on characters: space and colon to `_`, apostrophe and slash to `-`. */
  function EncodeChar(c: char): char {
    if c == ' ' || c == ':' then '_' else if c == '\'' || c == '/' then '-' else c
  }

  function MapChars(x: string): (r: string)
    ensures |r| == |x|
    ensures forall i :: 0 <= i < |x| ==> r[i] == EncodeChar(x[i])
  {
    if |x| == 0 then [] else [EncodeChar(x[0])] + MapChars(x[1..])
  }

  lemma {:induction false} MapCharsAppend(a: string, b: string)
    ensures MapChars(a + b) == MapChars(a) + MapChars(b)
    decreases |a|
  {
    if |a| == 0 {
      assert a + b == b;
    } else {
      assert (a + b)[1..] == a[1..] + b;
      MapCharsAppend(a[1..], b);
    }
  }

  /** Text without the four replaced characters passes unchanged. */
  lemma MapCharsKeeps(x: string)
    requires ' ' !in x && ':' !in x && '\'' !in x && '/' !in x
    ensures MapChars(x) == x
  {
    assert forall i :: 0 <= i < |x| ==> MapChars(x)[i] == x[i];
  }

  /** `_encode_name`: `" : "` becomes `-`, then space and colon become `_`
      and apostrophe and slash `-`; the result is safe as a file name. */
  function EncodeName(name: string): (r: string)
    ensures ' ' !in r && ':' !in r && '\'' !in r && '/' !in r
    ensures r == MapChars(Replace(name, " : ", "-"))
  {
    var x := Replace(name, " : ", "-");
    CharReplacementsMap(x);
    CharReplacements(x)
  }

  /** The four single-character replacements after the first one. */
  function CharReplacements(x: string): string {
    Replace(Replace(Replace(Replace(x, " ", "_"), "'", "-"), "/", "-"), ":", "_")
  }

  /** The chained replacements act as `EncodeChar` on every character, and
      leave none of the four replaced characters. */
  lemma CharReplacementsMap(x: string)
    ensures CharReplacements(x) == MapChars(x)
    ensures var r := CharReplacements(x); ' ' !in r && ':' !in r && '\'' !in r && '/' !in r
  {
    var a := Replace(x, " ", "_");
    var b := Replace(a, "'", "-");
    var c := Replace(b, "/", "-");
    var d := Replace(c, ":", "_");
    ReplaceCharPointwise(x, ' ', '_');
    ReplaceCharPointwise(a, '\'', '-');
    ReplaceCharPointwise(b, '/', '-');
    ReplaceCharPointwise(c, ':', '_');
    EncodeStepwise(x, a, b, c, d);
  }

  /** Four pointwise substitutions in a row act as `EncodeChar`. */
  lemma EncodeStepwise(x: string, a: string, b: string, c: string, d: string)
    requires |a| == |x| && forall i :: 0 <= i < |x| ==> a[i] == (if x[i] == ' ' then '_' else x[i])
    requires |b| == |a| && forall i :: 0 <= i < |a| ==> b[i] == (if a[i] == '\'' then '-' else a[i])
    requires |c| == |b| && forall i :: 0 <= i < |b| ==> c[i] == (if b[i] == '/' then '-' else b[i])
    requires |d| == |c| && forall i :: 0 <= i < |c| ==> d[i] == (if c[i] == ':' then '_' else c[i])
    ensures d == MapChars(x)
    ensures ' ' !in d && ':' !in d && '\'' !in d && '/' !in d
  {
    forall i | 0 <= i < |x|
      ensures d[i] == EncodeChar(x[i])
    {
      assert a[i] == (if x[i] == ' ' then '_' else x[i]);
      assert b[i] == (if a[i] == '\'' then '-' else a[i]);
      assert c[i] == (if b[i] == '/' then '-' else b[i]);
    }
    assert d == MapChars(x);
    assert forall i :: 0 <= i < |d| ==> d[i] != ' ' && d[i] != ':' && d[i] != '\'' && d[i] != '/';
  }

  /** Before the first colon, no `" : "` can start. */
  lemma {:induction false} ReplaceStageSeparator(s: string, t: string)
    requires ':' !in s
    ensures Replace(s + " : " + t, " : ", "-") == s + "-" + Replace(t, " : ", "-")
    decreases |s|
  {
    var x := s + " : " + t;
    var rt := Replace(t, " : ", "-");
    if |s| == 0 {
      assert x[..3] == " : " && x[3..] == t;
      ReplaceHit(x, " : ", "-");
    } else {
      SeparatorNotAtHead(s, t);
      ReplaceSkip(x, " : ", "-");
      ReplaceStageSeparator(s[1..], t);
      ConsDash(s, rt);
    }
  }

  lemma ConsDash(s: string, r: string)
    requires 0 < |s|
    ensures [s[0]] + (s[1..] + "-" + r) == s + "-" + r
  {
    assert s == [s[0]] + s[1..];
  }

  /** A non-empty colon-free head puts its first character, not the
      separator, at the front. */
  lemma SeparatorNotAtHead(s: string, t: string)
    requires 0 < |s| && ':' !in s
    ensures var x := s + " : " + t;
      && 3 <= |x| && x[..3] != " : " && x[0] == s[0] && x[1..] == s[1..] + " : " + t
  {
    var x := s + " : " + t;
    assert x[1] != ':' by {
      if |s| >= 2 {
        assert x[1] == s[1];
      } else {
        assert x[1] == ' ';
      }
    }
    assert x[..3] != " : " by {
      assert " : "[1] == ':';
    }
    assert x[1..] == s[1..] + " : " + t;
  }

  /** Mapping characters around a dash maps each side and keeps the dash. */
  lemma MapCharsAroundDash(a: string, b: string)
    ensures MapChars(a + "-" + b) == MapChars(a) + "-" + MapChars(b)
  {
    MapCharsAppend(a + "-", b);
    MapCharsAppend(a, "-");
    assert MapChars("-") == "-";
  }

  /** A name `"<s> : <t>"` whose first part has no colon encodes as the
      mapped first part, a dash, and the encoded rest. */
  lemma EncodeNameSplitsStage(s: string, t: string)
    requires ':' !in s
    ensures EncodeName(s + " : " + t) == MapChars(s) + "-" + EncodeName(t)
  {
    var rt := Replace(t, " : ", "-");
    ReplaceStageSeparator(s, t);
    MapCharsAroundDash(s, rt);
    assert EncodeName(s + " : " + t) == MapChars(s + "-" + rt);
  }

  /** The `name` property: an explicit name verbatim, otherwise
      `"Étape NN : <main place>"` with the id counted from 1; without a
      main place the attribute lookup on `None` fails. */
  function Name(explicit: Option<string>, id: nat, main: Option<City>): (r: Result<string>)
    ensures explicit.Some? ==> r == Ok(explicit.value)
    ensures explicit.None? ==> (r.Ok? <==> main.Some?)
    ensures explicit.None? && main.Some? ==> r.value == "Étape " + Pad2(id + 1) + " : " + main.value.name
    ensures r.Err? ==> r.error == AttributeError
  {
    if explicit.Some? then Ok(explicit.value)
    else if main.None? then Err(AttributeError)
    else Ok(StageLabel(id) + " : " + main.value.name)
  }

  /** `"Étape NN"` with `NN` the two-digit stage number `id + 1`. */
  function StageLabel(id: nat): (r: string)
    ensures ':' !in r
    ensures MapChars(r) == "Étape_" + Pad2(id + 1)
  {
    StageWordMaps(Pad2(id + 1));
    "Étape " + Pad2(id + 1)
  }

  /** The stage word followed by a space and digits maps to the word, an
      underscore and the same digits. */
  lemma StageWordMaps(digits: string)
    requires AllDigits(digits)
    ensures ':' !in "Étape " + digits
    ensures MapChars("Étape " + digits) == "Étape_" + digits
  {
    DigitsKept(digits);
    StageWordColonFree();
    MapCharsKeeps("Étape");
    MapCharsAroundSpace("Étape", digits);
  }

  lemma StageWordColonFree()
    ensures ':' !in "Étape " && ' ' !in "Étape" && '\'' !in "Étape" && '/' !in "Étape" && ':' !in "Étape"
  {
    assert forall i :: 0 <= i < |"Étape "| ==> "Étape "[i] != ':';
    assert forall i :: 0 <= i < |"Étape"| ==> "Étape"[i] !in " :'/";
  }

  /** Digits pass the character map unchanged and hold no colon. */
  lemma DigitsKept(digits: string)
    requires AllDigits(digits)
    ensures MapChars(digits) == digits && ':' !in digits
  {
    assert forall i :: 0 <= i < |digits| ==> IsDigit(digits[i]);
    MapCharsKeeps(digits);
  }

  /** Mapping characters around a space maps each side and turns the space
      into an underscore. */
  lemma MapCharsAroundSpace(a: string, b: string)
    ensures MapChars(a + " " + b) == MapChars(a) + "_" + MapChars(b)
  {
    MapCharsAppend(a + " ", b);
    MapCharsAppend(a, " ");
    assert MapChars(" ") == "_";
  }

  /** A generated name encodes as `"Étape_NN-"` and the encoded place name,
      and the stage number reads back as `id + 1`. */
  lemma GeneratedNameEncoding(id: nat, main: City)
    ensures Name(None, id, Some(main)).Ok?
    ensures EncodeName(Name(None, id, Some(main)).value) == "Étape_" + Pad2(id + 1) + "-" + EncodeName(main.name)
  {
    EncodeNameSplitsStage(StageLabel(id), main.name);
  }

  /** The first line of `descr`. */
  function MainDescr(from: City, to: City): (r: string)
    ensures StartsWith(r, "Traversée de ") <==> from == to
    ensures from == to ==> r[|"Traversée de "|..] == CityLabel(from)
    ensures from != to ==> StartsWith(r, "De " + CityLabel(from) + " à ")
    ensures from != to ==> r[|"De " + CityLabel(from) + " à "|..] == CityLabel(to)
  {
    if from == to then
      PrefixOfConcat("Traversée de ", CityLabel(from));
      "Traversée de " + CityLabel(from)
    else
      var r := "De " + CityLabel(from) + " à " + CityLabel(to);
      assert r[0] == 'D';
      PrefixOfConcat("De " + CityLabel(from) + " à ", CityLabel(to));
      r
  }

  /** `"<name> (<dept>)"`, how a place appears in the description. */
  function CityLabel(c: City): string {
    c.name + " (" + c.dept + ")"
  }

  /** The `descr` property: the explicit description and a newline first
      when there is one, then the place line and the three statistics lines
      joined by newlines. The statistics are formatted floats and arrive as
      text. Without places, the attribute lookup on `None` fails. */
  function Descr(extra: Option<string>, from: Option<City>, to: Option<City>, stats: (string, string, string))
    : (r: Result<string>)
    ensures r.Ok? <==> from.Some? && to.Some?
    ensures r.Err? ==> r.error == AttributeError
    ensures r.Ok? ==> var head := (if extra.Some? then extra.value + "\n" else "") + MainDescr(from.value, to.value);
      StartsWith(r.value, head + "\n" + stats.0 + "\n")
  {
    if from.None? || to.None? then Err(AttributeError)
    else
      var prefix := if extra.Some? then extra.value + "\n" else "";
      var main := MainDescr(from.value, to.value);
      JoinedLinesStart(prefix, main, stats.0, stats.1, stats.2);
      Ok(prefix + Join([main, stats.0, stats.1, stats.2], "\n"))
  }

  /** `generate_name`: a given name is returned with the given description;
      otherwise `"segment_NN"` and `"Points <start> to <end>"`, the number
      reading back as the id. */
  function GenerateName(name: Option<string>, descr: Option<string>, id: nat, start: int, end: int)
    : (r: (string, Option<string>))
    ensures name.Some? ==> r == (name.value, descr)
    ensures name.None? ==> StartsWith(r.0, "segment_") && AllDigits(r.0[8..]) && ParseNat(r.0[8..]) == id
    ensures name.None? ==> r.1 == Some("Points " + IntToString(start) + " to " + IntToString(end))
  {
    if name.Some? then (name.value, descr)
    else
      var digits := Pad2(id);
      PrefixOfConcat("segment_", digits);
      ("segment_" + digits, Some("Points " + IntToString(start) + " to " + IntToString(end)))
  }

  lemma JoinFour(a: string, b: string, c: string, d: string)
    ensures Join([a, b, c, d], "\n") == a + "\n" + b + "\n" + Join([c, d], "\n")
  {
    assert [a, b, c, d][1..] == [b, c, d];
    assert [b, c, d][1..] == [c, d];
  }

  /** Four lines joined after a prefix start with the prefix, the first
      line and the second, each ended by a newline. */
  lemma JoinedLinesStart(prefix: string, a: string, b: string, c: string, d: string)
    ensures StartsWith(prefix + Join([a, b, c, d], "\n"), prefix + a + "\n" + b + "\n")
  {
    var rest := Join([c, d], "\n");
    JoinFour(a, b, c, d);
    PrefixOfConcat(prefix + a + "\n" + b + "\n", rest);
    assert prefix + a + "\n" + b + "\n" + rest == prefix + (a + "\n" + b + "\n" + rest);
  }

  lemma PrefixOfConcat(a: string, b: string)
    ensures StartsWith(a + b, a) && (a + b)[|a|..] == b
  {
    assert (a + b)[..|a|] == a;
  }

  /** The list of `rank_by_significance` tuples; the first place of an
      unlisted type raises. */
  function SignificanceList(places: seq<Place>): (r: Result<seq<((int, int), string, string)>>)
    ensures r.Ok? <==> forall i :: 0 <= i < |places| ==> Significance(places[i]).Ok?
    ensures r.Ok? ==> |r.value| == |places|
    ensures r.Ok? ==> forall i :: 0 <= i < |places| ==> RankBySignificance(places[i]) == Ok(r.value[i])
    ensures r.Err? ==> r.error == ValueError
    decreases |places|
  {
    if |places| == 0 then Ok([])
    else
      var first :- RankBySignificance(places[0]);
      var rest :- SignificanceList(places[1..]);
      Ok([first] + rest)
  }

  /** `places[i]` ranks highest by `(significance, dept, name)`. */
  ghost predicate MostSignificant(places: seq<Place>, i: int)
    requires forall j :: 0 <= j < |places| ==> Significance(places[j]).Ok?
  {
    && 0 <= i < |places|
    && forall j :: 0 <= j < |places| ==>
      !PairStrStrLt(RankBySignificance(places[i]).value, RankBySignificance(places[j]).value)
  }

  /** The maximum of the significance tuples names a most significant place. */
  lemma MaxRankIsMostSignificant(places: seq<Place>, ranks: seq<((int, int), string, string)>)
    requires |ranks| == |places| > 0
    requires forall i :: 0 <= i < |places| ==> RankBySignificance(places[i]) == Ok(ranks[i])
    ensures StrictOrder(PairStrStrLt)
    ensures forall i :: 0 <= i < |places| ==> Significance(places[i]).Ok?
    ensures exists i ::
      && MostSignificant(places, i)
      && MaxOf(ranks, PairStrStrLt) == (Significance(places[i]).value, places[i].dept, places[i].name)
  {
    PairStrStrIsStrict();
    var main := MaxOf(ranks, PairStrStrLt);
    var i :| 0 <= i < |ranks| && ranks[i] == main;
    forall j | 0 <= j < |places|
      ensures !PairStrStrLt(RankBySignificance(places[i]).value, RankBySignificance(places[j]).value)
    {
      assert RankBySignificance(places[j]).value == ranks[j];
      assert !PairStrStrLt(main, ranks[j]);
    }
    assert MostSignificant(places, i);
  }

  /** The place standing in when the box holds none. */
  const Unknown := City("unknown", "00")

  /** `get_cities` on the places around the segment: the most significant
      place and the places nearest to the start and end points, each as
      `City(name, dept)` unpacked from the `(score, dept, name)` tuples in
      the right order. No place gives three unknowns; an unlisted place type
      raises ValueError, and an index past the path IndexError. */
  function GetCities(g: Geodesy, places: seq<Place>, path: seq<Point>, start: nat, end: nat)
    : (r: Result<(City, City, City)>)
    ensures |places| == 0 ==> r == Ok((Unknown, Unknown, Unknown))
    ensures |places| > 0 ==>
      (r.Ok? <==> start < |path| && end < |path| && forall i :: 0 <= i < |places| ==> Significance(places[i]).Ok?)
    ensures r.Err? && start < |path| && end < |path| ==> r.error == ValueError
    ensures r.Ok? && |places| > 0 ==> exists i ::
      && MostSignificant(places, i) && r.value.0 == City(places[i].name, places[i].dept)
    ensures r.Ok? && |places| > 0 ==> exists i ::
      && Nearest(g, places, path[start], i) && r.value.1 == City(places[i].name, places[i].dept)
    ensures r.Ok? && |places| > 0 ==> exists i ::
      && Nearest(g, places, path[end], i) && r.value.2 == City(places[i].name, places[i].dept)
  {
    if |places| == 0 then Ok((Unknown, Unknown, Unknown))
    else if start >= |path| || end >= |path| then Err(IndexError)
    else
      var ranks :- SignificanceList(places);
      MaxRankIsMostSignificant(places, ranks);
      MinRankIsNearest(g, places, path[start]);
      MinRankIsNearest(g, places, path[end]);
      var (_, mainDept, mainName) := MaxOf(ranks, PairStrStrLt);
      var (_, fromDept, fromName) := MinOf(DistanceRanks(g, places, path[start]), RealStrStrLt);
      var (_, toDept, toName) := MinOf(DistanceRanks(g, places, path[end]), RealStrStrLt);
      Ok((City(mainName, mainDept), City(fromName, fromDept), City(toName, toDept)))
  }

  /** With one place around, all three are that place with its name and
      department in their own fields, so the description reads as a
      traversal of it. */
  lemma GetCitiesSinglePlace(g: Geodesy, c: Place, path: seq<Point>, start: nat, end: nat)
    requires start < |path| && end < |path|
    requires Significance(c).Ok?
    ensures GetCities(g, [c], path, start, end) == Ok((City(c.name, c.dept), City(c.name, c.dept), City(c.name, c.dept)))
    ensures StartsWith(MainDescr(City(c.name, c.dept), City(c.name, c.dept)), "Traversée de ")
  {
    var r := GetCities(g, [c], path, start, end);
    assert r.Ok?;
    var i :| MostSignificant([c], i) && r.value.0 == City([c][i].name, [c][i].dept);
    var j :| Nearest(g, [c], path[start], j) && r.value.1 == City([c][j].name, [c][j].dept);
    var k :| Nearest(g, [c], path[end], k) && r.value.2 == City([c][k].name, [c][k].dept);
    assert i == 0 && j == 0 && k == 0;
  }

  /** The scale `cum_distance` applies to every step. */
  const Shrink: real := 1006.0 / 1148.7498812128724

  /** Every sample `start + k * step` with `k <= n` indexes the path. */
  ghost predicate SamplesIndexPath(path: seq<Point>, start: int, step: int, n: nat) {
    forall k: nat :: k <= n ==> InIndex(|path|, RangeAt(start, step, k))
  }

  /** The distance walked along the samples `start, start + step, …`, up to
      sample `k`, beginning with the (null) step from the first sample to
      itself. */
  ghost function Sampled(g: Geodesy, path: seq<Point>, start: int, step: int, k: nat): real
    requires SamplesIndexPath(path, start, step, k)
  {
    var here := At(path, RangeAt(start, step, k));
    if k == 0 then g.distance(here, here)
    else Sampled(g, path, start, step, k - 1) + g.distance(At(path, RangeAt(start, step, k - 1)), here)
  }

  /** `cum_distance`: the scaled distance accumulated along
      `range(start, end, step)`, one entry per sample. A zero step makes
      `range` raise ValueError, a sample outside the path IndexError.
      Under the distance axioms the profile starts at 0 and never falls. */
  method CumDistance(g: Geodesy, path: seq<Point>, start: int, end: int, step: int) returns (r: Result<seq<real>>)
    ensures step == 0 ==> r == Err(ValueError)
    ensures step != 0 ==>
      (r.Ok? <==> forall k: nat :: k < RangeLen(start, end, step) ==> InIndex(|path|, RangeAt(start, step, k)))
    ensures step != 0 && r.Err? ==> r.error == IndexError
    ensures r.Ok? ==> |r.value| == RangeLen(start, end, step)
    ensures r.Ok? ==> forall k :: 0 <= k < |r.value| ==>
      SamplesIndexPath(path, start, step, k) && r.value[k] == Shrink * Sampled(g, path, start, step, k)
    ensures r.Ok? && Valid(g) && |r.value| > 0 ==> r.value[0] == 0.0
    ensures r.Ok? && Valid(g) ==> forall k :: 0 < k < |r.value| ==> r.value[k - 1] <= r.value[k]
    ensures r.Ok? && Valid(g) ==> forall k :: 0 <= k < |r.value| ==> r.value[k] >= 0.0
  {
    if step == 0 {
      return Err(ValueError);
    }
    var n := RangeLen(start, end, step);
    var walked := WalkSamples(g, path, start, step, n);
    if walked.None? {
      return Err(IndexError);
    }
    var dists := walked.value;
    if Valid(g) {
      forall m | 0 <= m < |dists|
        ensures dists[m] >= 0.0 && (m == 0 ==> dists[m] == 0.0) && (m > 0 ==> dists[m - 1] <= dists[m])
      {
        SampledGrows(g, path, start, step, m);
      }
    }
    return Ok(dists);
  }

  /** `dists` holds the scaled running totals of the first `|dists|`
      samples, all of which index the path. */
  ghost predicate Walked(g: Geodesy, path: seq<Point>, start: int, step: int, dists: seq<real>) {
    && (forall m: nat :: m < |dists| ==> InIndex(|path|, RangeAt(start, step, m)))
    && forall m :: 0 <= m < |dists| ==>
      SamplesIndexPath(path, start, step, m) && dists[m] == Shrink * Sampled(g, path, start, step, m)
  }

  /** The loop of `cum_distance` over the first `n` samples: the running
      scaled total after each one, or None at the first sample outside the
      path. */
  method WalkSamples(g: Geodesy, path: seq<Point>, start: int, step: int, n: nat) returns (r: Option<seq<real>>)
    ensures r.Some? <==> forall k: nat :: k < n ==> InIndex(|path|, RangeAt(start, step, k))
    ensures r.Some? ==> |r.value| == n && Walked(g, path, start, step, r.value)
  {
    var cum := 0.0;
    var dists: seq<real> := [];
    var k: nat := 0;
    while k < n
      invariant k <= n && |dists| == k
      invariant Walked(g, path, start, step, dists)
      invariant cum == if k == 0 then 0.0 else dists[k - 1]
    {
      var j := RangeAt(start, step, k);
      if !InIndex(|path|, j) {
        return None;
      }
      var i := if k == 0 then j else RangeAt(start, step, k - 1);
      var d := g.distance(At(path, i), At(path, j));
      WalkedSnoc(g, path, start, step, dists, d);
      cum := cum + Shrink * d;
      dists := dists + [cum];
      k := k + 1;
    }
    return Some(dists);
  }

  /** One more sample inside the path extends the running totals by the
      distance from the previous sample. */
  lemma WalkedSnoc(g: Geodesy, path: seq<Point>, start: int, step: int, dists: seq<real>, d: real)
    requires Walked(g, path, start, step, dists)
    requires InIndex(|path|, RangeAt(start, step, |dists|))
    requires var k := |dists|; var j := RangeAt(start, step, k);
      d == g.distance(At(path, if k == 0 then j else RangeAt(start, step, k - 1)), At(path, j))
    ensures var cum := if |dists| == 0 then 0.0 else dists[|dists| - 1];
      Walked(g, path, start, step, dists + [cum + Shrink * d])
  {
    var k := |dists|;
    var cum := if k == 0 then 0.0 else dists[k - 1];
    var next := dists + [cum + Shrink * d];
    assert SamplesIndexPath(path, start, step, k);
    assert forall m :: 0 <= m < k ==> next[m] == dists[m];
  }

  /** Under the distance axioms the walked distance starts at 0, is never
      negative and never falls from one sample to the next. */
  lemma SampledGrows(g: Geodesy, path: seq<Point>, start: int, step: int, k: nat)
    requires Valid(g) && SamplesIndexPath(path, start, step, k)
    ensures Sampled(g, path, start, step, k) >= 0.0
    ensures k == 0 ==> Sampled(g, path, start, step, k) == 0.0
    ensures k > 0 ==> Sampled(g, path, start, step, k - 1) <= Sampled(g, path, start, step, k)
    decreases k
  {
    if k > 0 {
      SampledGrows(g, path, start, step, k - 1);
    }
  }

  /** `get_distance`: the last entry of the profile with the default step of
      10; an empty range leaves nothing to take and raises IndexError. */
  method GetDistance(g: Geodesy, path: seq<Point>, start: int, end: int) returns (r: Result<real>)
    ensures r.Ok? <==> start < end && forall k: nat :: k < RangeLen(start, end, 10) ==> InIndex(|path|, RangeAt(start, 10, k))
    ensures r.Err? ==> r.error == IndexError
    ensures r.Ok? ==> var n := RangeLen(start, end, 10);
      n > 0 && SamplesIndexPath(path, start, 10, n - 1) && r.value == Shrink * Sampled(g, path, start, 10, n - 1)
    ensures r.Ok? && Valid(g) ==> r.value >= 0.0
  {
    var dists := CumDistance(g, path, start, end, 10);
    if dists.Err? {
      return Err(dists.error);
    }
    if |dists.value| == 0 {
      return Err(IndexError);
    }
    assert RangeLen(start, end, 10) > 0 ==> start < end by {
      assert RangeAt(start, 10, 0) == start;
    }
    return Ok(dists.value[|dists.value| - 1]);
  }

  /** What `get_imcoords_converter` closes over: the Mercator corners of
      the span's first and last tiles and the image size. */
  datatype Converter = Converter(x0: real, y0: real, x1: real, y1: real, w: real, h: real)

  /** `get_imcoords_converter`: the corners come from `reverse_coords` of
      the span's two corner tiles. */
  function MakeConverter(m: TileMatrix, span: TileSpan, w: real, h: real): (c: Converter)
    ensures (c.x0, c.y0) == ReverseCoords(m, span.c0, span.r0)
    ensures (c.x1, c.y1) == ReverseCoords(m, span.c1, span.r1)
    ensures TileSize(m) > 0.0 && span.c0 < span.c1 && span.r0 < span.r1 ==> c.x0 < c.x1 && c.y1 < c.y0
    ensures c.w == w && c.h == h
  {
    var (x0, y0) := ReverseCoords(m, span.c0, span.r0);
    var (x1, y1) := ReverseCoords(m, span.c1, span.r1);
    ReverseCoordsOrder(m, span.c0, span.c1, span.r0, span.r1);
    Converter(x0, y0, x1, y1, w, h)
  }

  lemma ReverseCoordsOrder(m: TileMatrix, c0: int, c1: int, r0: int, r1: int)
    ensures TileSize(m) > 0.0 && c0 < c1 && r0 < r1 ==>
      ReverseCoords(m, c0, r0).0 < ReverseCoords(m, c1, r1).0 && ReverseCoords(m, c1, r1).1 < ReverseCoords(m, c0, r0).1
  {
    var ts := TileSize(m);
    if ts > 0.0 && c0 < c1 && r0 < r1 {
      assert (c1 - c0) as real * ts > 0.0;
      assert (r1 - r0) as real * ts > 0.0;
      assert c1 as real * ts - c0 as real * ts == (c1 - c0) as real * ts;
      assert r1 as real * ts - r0 as real * ts == (r1 - r0) as real * ts;
    }
  }

  /** The converter divides by the spans `x1 - x0` and `y1 - y0`. */
  predicate Proper(c: Converter) {
    c.x1 != c.x0 && c.y1 != c.y0
  }

  /** The linear map from Mercator metres to image pixels. */
  function ToImage(c: Converter, xy: (real, real)): (real, real)
    requires Proper(c)
  {
    (c.w * (xy.0 - c.x0) / (c.x1 - c.x0), c.h * (xy.1 - c.y0) / (c.y1 - c.y0))
  }

  /** The returned `convert(p)`: project `p` with `as_mercator` (a parameter
      here) and map it to pixels; a degenerate span raises
      ZeroDivisionError. */
  function Convert(c: Converter, mercator: Point -> (real, real), p: Point): (r: Result<(real, real)>)
    ensures r.Ok? <==> Proper(c)
    ensures r.Err? ==> r.error == ZeroDivisionError
    ensures r.Ok? && mercator(p) == (c.x0, c.y0) ==> r.value == (0.0, 0.0)
    ensures r.Ok? && mercator(p) == (c.x1, c.y1) ==> r.value == (c.w, c.h)
    ensures r.Ok? ==> r.value.0 * (c.x1 - c.x0) == c.w * (mercator(p).0 - c.x0)
    ensures r.Ok? ==> r.value.1 * (c.y1 - c.y0) == c.h * (mercator(p).1 - c.y0)
  {
    if !Proper(c) then Err(ZeroDivisionError)
    else
      ToImageCorners(c);
      DivTimes(c.w * (mercator(p).0 - c.x0), c.x1 - c.x0);
      DivTimes(c.h * (mercator(p).1 - c.y0), c.y1 - c.y0);
      Ok(ToImage(c, mercator(p)))
  }

  lemma DivTimes(a: real, d: real)
    requires d != 0.0
    ensures a / d * d == a
  {
  }

  lemma ToImageCorners(c: Converter)
    requires Proper(c)
    ensures ToImage(c, (c.x0, c.y0)) == (0.0, 0.0)
    ensures ToImage(c, (c.x1, c.y1)) == (c.w, c.h)
  {
    ScaleEnds(c.w, c.x0, c.x1);
    ScaleEnds(c.h, c.y0, c.y1);
    assert ToImage(c, (c.x0, c.y0)).0 == c.w * (c.x0 - c.x0) / (c.x1 - c.x0);
    assert ToImage(c, (c.x0, c.y0)).1 == c.h * (c.y0 - c.y0) / (c.y1 - c.y0);
    assert ToImage(c, (c.x1, c.y1)).0 == c.w * (c.x1 - c.x0) / (c.x1 - c.x0);
    assert ToImage(c, (c.x1, c.y1)).1 == c.h * (c.y1 - c.y0) / (c.y1 - c.y0);
    assert ToImage(c, (c.x1, c.y1)).0 == c.w;
    assert ToImage(c, (c.x1, c.y1)).1 == c.h;
  }

  lemma ScaleEnds(w: real, a: real, b: real)
    requires a != b
    ensures w * (a - a) / (b - a) == 0.0 && w * (b - a) / (b - a) == w
  {
    assert a - a == 0.0;
    assert w * (b - a) / (b - a) == w * ((b - a) / (b - a));
  }

  lemma ScaleWithin(w: real, a: real, b: real)
    requires w >= 0.0 && b > 0.0 && 0.0 <= a <= b
    ensures 0.0 <= w * a / b <= w
  {
    assert a / b <= 1.0;
    assert w * a / b == w * (a / b);
    assert w * (a / b) <= w * 1.0;
  }

  /** A point whose projection lies within the span lands on the image,
      north at the top: `x` runs east across `[0, w]` and `y` south down
      `[0, h]`. */
  lemma ConvertSpanOntoImage(c: Converter, xy: (real, real))
    requires c.x0 < c.x1 && c.y1 < c.y0 && c.w >= 0.0 && c.h >= 0.0
    requires c.x0 <= xy.0 <= c.x1 && c.y1 <= xy.1 <= c.y0
    ensures 0.0 <= ToImage(c, xy).0 <= c.w
    ensures 0.0 <= ToImage(c, xy).1 <= c.h
  {
    ScaleWithin(c.w, xy.0 - c.x0, c.x1 - c.x0);
    ScaleWithin(c.h, c.y0 - xy.1, c.y0 - c.y1);
    assert c.h * (xy.1 - c.y0) / (c.y1 - c.y0) == c.h * (c.y0 - xy.1) / (c.y0 - c.y1);
  }

  /** The backward walk keeps a point while it is right of and below the
      image's top-left corner; the forward walk while it is left of and
      above the bottom-right one. */
  predicate AfterTopLeft(pt: (real, real)) {
    pt.0 > 0.0 && pt.1 > 0.0
  }

  predicate BeforeBottomRight(c: Converter, pt: (real, real)) {
    pt.0 < c.w && pt.1 < c.h
  }

  /** The pixel position of `path[j]`, with Python's negative indexing. */
  function PathPixel(c: Converter, mercator: Point -> (real, real), path: seq<Point>, j: int): (real, real)
    requires Proper(c) && InIndex(|path|, j)
  {
    ToImage(c, mercator(At(path, j)))
  }

  /** `line` with `i_start` is what the two walks of `get_track_line`
      draw from `start`: the first `i_start` pixels are the maximal run of
      points up to `start` past the top-left corner, the rest the maximal
      run from `start` before the bottom-right corner, stopping short of the
      last point. */
  predicate LineWalk(c: Converter, mercator: Point -> (real, real), path: seq<Point>, start: nat,
                     line: seq<(real, real)>, iStart: nat)
  {
    && start < |path| && Proper(c)
    && iStart <= start + 1 && iStart <= |line|
    && (forall m :: 0 <= m < iStart ==>
          line[m] == PathPixel(c, mercator, path, start + 1 - iStart + m) && AfterTopLeft(line[m]))
    && (iStart <= start ==> !AfterTopLeft(PathPixel(c, mercator, path, start - iStart)))
    && start + (|line| - iStart) < |path|
    && (forall m :: iStart <= m < |line| ==>
          line[m] == PathPixel(c, mercator, path, start + m - iStart) && BeforeBottomRight(c, line[m]))
    && (start + (|line| - iStart) < |path| - 1 ==>
          !BeforeBottomRight(c, PathPixel(c, mercator, path, start + (|line| - iStart))))
  }

  /** The two walks of `get_track_line`: from `start` backward while points
      stay past the top-left corner, then from `start` forward while they
      stay before the bottom-right one, never drawing the last point of the
      path. The result is the line and `i_start`, the length of the
      backward part; `path[start]` is in both parts when it passes both
      tests. The first access to `path[start]` raises IndexError past the
      path, the first conversion ZeroDivisionError on a degenerate span. */
  method TrackLine(c: Converter, mercator: Point -> (real, real), path: seq<Point>, start: nat)
    returns (r: Result<(seq<(real, real)>, nat)>)
    ensures r.Ok? <==> start < |path| && Proper(c)
    ensures r.Err? ==> r.error == (if start >= |path| then IndexError else ZeroDivisionError)
    ensures r.Ok? ==> LineWalk(c, mercator, path, start, r.value.0, r.value.1)
  {
    if start >= |path| {
      return Err(IndexError);
    }
    if !Proper(c) {
      return Err(ZeroDivisionError);
    }
    var back := WalkBack(c, mercator, path, start);
    var fwd := WalkForward(c, mercator, path, start);
    var iStart := |back|;
    var line := back + fwd;
    assert forall m :: iStart <= m < |line| ==> line[m] == fwd[m - iStart];
    return Ok((line, iStart));
  }

  /** The backward walk of `get_track_line`: the points before and at
      `start` that pass the top-left test, up to the first that fails. */
  method WalkBack(c: Converter, mercator: Point -> (real, real), path: seq<Point>, start: nat)
    returns (back: seq<(real, real)>)
    requires start < |path| && Proper(c)
    ensures |back| <= start + 1
    ensures forall m :: 0 <= m < |back| ==>
      back[m] == PathPixel(c, mercator, path, start + 1 - |back| + m) && AfterTopLeft(back[m])
    ensures |back| <= start ==> !AfterTopLeft(PathPixel(c, mercator, path, start - |back|))
  {
    var k: int := start;
    var pt := PathPixel(c, mercator, path, k);
    back := [];
    while k >= 0 && AfterTopLeft(pt)
      invariant -1 <= k <= start && |back| == start - k
      invariant pt == PathPixel(c, mercator, path, k)
      invariant forall m :: 0 <= m < |back| ==>
        back[m] == PathPixel(c, mercator, path, k + 1 + m) && AfterTopLeft(back[m])
      decreases k + 1
    {
      back := [pt] + back;
      k := k - 1;
      pt := PathPixel(c, mercator, path, k);
    }
  }

  /** The forward walk of `get_track_line`: the points from `start` on that
      pass the bottom-right test, stopping at the first that fails and
      never taking the last point of the path. */
  method WalkForward(c: Converter, mercator: Point -> (real, real), path: seq<Point>, start: nat)
    returns (fwd: seq<(real, real)>)
    requires start < |path| && Proper(c)
    ensures start + |fwd| < |path|
    ensures forall m :: 0 <= m < |fwd| ==>
      fwd[m] == PathPixel(c, mercator, path, start + m) && BeforeBottomRight(c, fwd[m])
    ensures start + |fwd| < |path| - 1 ==> !BeforeBottomRight(c, PathPixel(c, mercator, path, start + |fwd|))
  {
    var j: nat := start;
    var pt := PathPixel(c, mercator, path, j);
    fwd := [];
    while BeforeBottomRight(c, pt) && j < |path| - 1
      invariant start <= j < |path| && |fwd| == j - start
      invariant pt == PathPixel(c, mercator, path, j)
      invariant forall m :: 0 <= m < |fwd| ==>
        fwd[m] == PathPixel(c, mercator, path, start + m) && BeforeBottomRight(c, fwd[m])
      decreases |path| - j
    {
      fwd := fwd + [pt];
      j := j + 1;
      pt := PathPixel(c, mercator, path, j);
    }
  }

  /** The tick test of `get_track_line`: the floor of the cumulative
      distance changes its multiple of `step` km between samples `i - 1`
      and `i`. */
  predicate TickAt(dists: seq<real>, step: int, i: int)
    requires step != 0
  {
    1 <= i < |dists| && FloorDiv(Floor(dists[i - 1]), step) != FloorDiv(Floor(dists[i]), step)
  }

  /** The indices `i` in `[1, n)` where a tick falls, in increasing order. */
  function TicksBefore(dists: seq<real>, step: int, n: nat): (r: seq<nat>)
    requires step != 0 && n <= |dists|
    ensures forall k :: 0 <= k < |r| ==> 1 <= r[k] < n
    ensures forall k, l :: 0 <= k < l < |r| ==> r[k] < r[l]
  {
    if n <= 1 then []
    else
      var r := TicksBefore(dists, step, n - 1);
      if TickAt(dists, step, n - 1) then r + [n - 1] else r
  }

  /** The indices `TicksBefore` lists are exactly the ticks below `n`. */
  lemma {:induction false} TicksBeforeExact(dists: seq<real>, step: int, n: nat)
    requires step != 0 && n <= |dists|
    ensures var r := TicksBefore(dists, step, n);
      forall i :: 0 <= i < n ==> (i in r <==> TickAt(dists, step, i))
    decreases n
  {
    if n > 1 {
      TicksBeforeExact(dists, step, n - 1);
    }
  }

  /** The list `ticks` of `get_track_line`: 0, then ten times every index
      where a tick falls (the profile is sampled every ten points). A zero
      step raises ZeroDivisionError as soon as one comparison runs. */
  function TickIndices(dists: seq<real>, step: int): (r: Result<seq<nat>>)
    ensures r.Err? <==> step == 0 && |dists| >= 2
    ensures r.Err? ==> r.error == ZeroDivisionError
    ensures r.Ok? ==> |r.value| > 0 && r.value[0] == 0
    ensures r.Ok? ==> forall k, l :: 0 <= k < l < |r.value| ==> r.value[k] < r.value[l]
    ensures r.Ok? && step != 0 ==> forall i :: 1 <= i < |dists| ==> (10 * i in r.value <==> TickAt(dists, step, i))
    ensures r.Ok? && step != 0 ==> forall k :: 1 <= k < |r.value| ==>
      r.value[k] % 10 == 0 && TickAt(dists, step, r.value[k] / 10)
    ensures r.Ok? && step != 0 ==> |r.value| == 1 + |TicksBefore(dists, step, |dists|)|
    ensures r.Ok? && step == 0 ==> r.value == [0]
  {
    if step == 0 then
      if |dists| >= 2 then Err(ZeroDivisionError) else Ok([0])
    else
      var idx := TicksBefore(dists, step, |dists|);
      TicksBeforeExact(dists, step, |dists|);
      var ticks := [0] + Tenfold(idx);
      TenfoldSorted(idx, ticks);
      forall i | 1 <= i < |dists|
        ensures 10 * i in ticks <==> TickAt(dists, step, i)
      {
        TenfoldMember(idx, ticks, i);
      }
      TenfoldOnlyTicks(dists, step, idx, ticks);
      Ok(ticks)
  }

  /** Past the leading 0, every mark is ten times a listed tick index. */
  lemma TenfoldOnlyTicks(dists: seq<real>, step: int, idx: seq<nat>, ticks: seq<nat>)
    requires step != 0 && idx == TicksBefore(dists, step, |dists|)
    requires ticks == [0] + Tenfold(idx)
    ensures forall k :: 1 <= k < |ticks| ==> ticks[k] % 10 == 0 && TickAt(dists, step, ticks[k] / 10)
  {
    TicksBeforeExact(dists, step, |dists|);
    forall k | 1 <= k < |ticks|
      ensures ticks[k] % 10 == 0 && TickAt(dists, step, ticks[k] / 10)
    {
      assert ticks[k] == 10 * idx[k - 1];
      assert ticks[k] / 10 == idx[k - 1];
      assert idx[k - 1] in idx;
    }
  }

  /** Every index times ten, as `i * smooth` with `smooth = 10`. */
  function Tenfold(idx: seq<nat>): (r: seq<nat>)
    ensures |r| == |idx| && forall k :: 0 <= k < |idx| ==> r[k] == 10 * idx[k]
  {
    if |idx| == 0 then [] else [10 * idx[0]] + Tenfold(idx[1..])
  }

  lemma TenfoldSorted(idx: seq<nat>, ticks: seq<nat>)
    requires forall k, l :: 0 <= k < l < |idx| ==> idx[k] < idx[l]
    requires forall k :: 0 <= k < |idx| ==> idx[k] >= 1
    requires ticks == [0] + Tenfold(idx)
    ensures forall k, l :: 0 <= k < l < |ticks| ==> ticks[k] < ticks[l]
  {
    forall k, l | 0 <= k < l < |ticks|
      ensures ticks[k] < ticks[l]
    {
      TickOfIndex(idx, ticks, l);
      if k > 0 {
        TickOfIndex(idx, ticks, k);
        assert idx[k - 1] < idx[l - 1];
      } else {
        assert idx[l - 1] >= 1;
      }
    }
  }

  /** Past the leading 0, tick `k` is ten times index `k - 1`. */
  lemma TickOfIndex(idx: seq<nat>, ticks: seq<nat>, k: int)
    requires ticks == [0] + Tenfold(idx) && 1 <= k < |ticks|
    ensures ticks[k] == 10 * idx[k - 1]
  {
    assert ticks[k] == Tenfold(idx)[k - 1];
  }

  lemma TenfoldMember(idx: seq<nat>, ticks: seq<nat>, i: nat)
    requires ticks == [0] + Tenfold(idx) && i >= 1
    ensures 10 * i in ticks <==> i in idx
  {
    if i in idx {
      var k :| 0 <= k < |idx| && idx[k] == i;
      assert ticks[k + 1] == 10 * i;
    }
    if 10 * i in ticks {
      var k :| 0 <= k < |ticks| && ticks[k] == 10 * i;
      assert k > 0;
      assert ticks[k] == 10 * idx[k - 1];
      assert idx[k - 1] == i;
    }
  }

  /** `[line[tick + i_start] for tick in ticks]`; a tick past the drawn line
      raises IndexError. */
  function TickPoints(line: seq<(real, real)>, iStart: nat, ticks: seq<nat>): (r: Result<seq<(real, real)>>)
    ensures r.Ok? <==> forall k :: 0 <= k < |ticks| ==> ticks[k] + iStart < |line|
    ensures r.Err? ==> r.error == IndexError
    ensures r.Ok? ==> |r.value| == |ticks| && forall k :: 0 <= k < |ticks| ==> r.value[k] == line[ticks[k] + iStart]
    decreases |ticks|
  {
    if |ticks| == 0 then Ok([])
    else if ticks[0] + iStart >= |line| then Err(IndexError)
    else
      var rest :- TickPoints(line, iStart, ticks[1..]);
      Ok([line[ticks[0] + iStart]] + rest)
  }

  /** `get_track_line`: the drawn line and the points marking every `step`
      km along the profile `dists`, the first mark on `path[start]`. The
      walks raise first (IndexError past the path, ZeroDivisionError on a
      degenerate span), then the tick test (ZeroDivisionError on a zero
      step), then the lookup of a tick past the drawn line (IndexError). */
  method GetTrackLine(c: Converter, mercator: Point -> (real, real), path: seq<Point>, start: nat, dists: seq<real>, step: int)
    returns (r: Result<(seq<(real, real)>, seq<(real, real)>)>)
    ensures start >= |path| ==> r == Err(IndexError)
    ensures start < |path| && !Proper(c) ==> r == Err(ZeroDivisionError)
    ensures start < |path| && Proper(c) && TickIndices(dists, step).Err? ==> r == Err(ZeroDivisionError)
    ensures r.Ok? ==> start < |path| && Proper(c) && TickIndices(dists, step).Ok?
    ensures r.Ok? ==> exists iStart: nat ::
      && LineWalk(c, mercator, path, start, r.value.0, iStart)
      && |r.value.1| == |TickIndices(dists, step).value|
      && forall k :: 0 <= k < |r.value.1| ==>
           iStart + TickIndices(dists, step).value[k] < |r.value.0|
           && r.value.1[k] == r.value.0[iStart + TickIndices(dists, step).value[k]]
    ensures r.Err? && start < |path| && Proper(c) && TickIndices(dists, step).Ok? ==>
      r.error == IndexError && exists line, iStart: nat ::
        && LineWalk(c, mercator, path, start, line, iStart)
        && exists k :: 0 <= k < |TickIndices(dists, step).value| && iStart + TickIndices(dists, step).value[k] >= |line|
    ensures r.Ok? ==> |r.value.1| > 0 && r.value.1[0] == PathPixel(c, mercator, path, start)
    ensures r.Ok? && step != 0 ==> |r.value.1| == 1 + |TicksBefore(dists, step, |dists|)|
  {
    var tl := TrackLine(c, mercator, path, start);
    if tl.Err? {
      return Err(tl.error);
    }
    var (line, iStart) := tl.value;
    var ticks := TickIndices(dists, step);
    if ticks.Err? {
      return Err(ticks.error);
    }
    var points := TickPoints(line, iStart, ticks.value);
    if points.Err? {
      return Err(points.error);
    }
    assert points.value[0] == line[iStart];
    return Ok((line, points.value));
  }
}

=== FILE: strings.dfy ===
/** The string operations the program relies on: decimal formatting of
    integers (`str(n)`, `"{:02d}"`), Python's code-point string ordering,
    `str.replace`, slicing a prefix, and `"sep".join`. */
module Strings {

  predicate IsDigit(c: char) {
    '0' <= c <= '9'
  }

  predicate AllDigits(s: string) {
    forall i :: 0 <= i < |s| ==> IsDigit(s[i])
  }

  function DigitChar(d: nat): (c: char)
    requires d < 10
    ensures IsDigit(c)
  {
    "0123456789"[d]
  }

  function DigitValue(c: char): (d: nat)
    requires IsDigit(c)
    ensures d < 10
  {
    c as int - '0' as int
  }

  lemma DigitRoundTrip(d: nat)
    requires d < 10
    ensures DigitValue(DigitChar(d)) == d
  {
  }

  /** `str(n)` for a non-negative int: decimal digits, no leading zero. */
  function NatToString(n: nat): (s: string)
    ensures 1 <= |s|
    ensures AllDigits(s)
    ensures |s| > 1 ==> s[0] != '0'
    decreases n
  {
    if n < 10 then [DigitChar(n)] else NatToString(n / 10) + [DigitChar(n % 10)]
  }

  /** Reads a string of decimal digits back as a number. */
  function ParseNat(s: string): (n: nat)
    requires AllDigits(s)
    decreases |s|
  {
    if |s| == 0 then 0 else ParseNat(s[..|s| - 1]) * 10 + DigitValue(s[|s| - 1])
  }

  /** Decimal formatting loses nothing: reading `str(n)` back gives `n`. */
  lemma {:induction false} ParseNatToString(n: nat)
    ensures ParseNat(NatToString(n)) == n
    decreases n
  {
    var s := NatToString(n);
    if n < 10 {
      DigitRoundTrip(n);
    } else {
      var prefix := NatToString(n / 10);
      assert s[..|s| - 1] == prefix;
      ParseNatToString(n / 10);
      DigitRoundTrip(n % 10);
    }
  }

  lemma NatToStringInjective(m: nat, n: nat)
    requires NatToString(m) == NatToString(n)
    ensures m == n
  {
    ParseNatToString(m);
    ParseNatToString(n);
  }

  /** `str(n)` for any int: a minus sign before the digits of `|n|`. */
  function IntToString(n: int): (s: string)
    ensures 1 <= |s|
    ensures (n < 0) <==> s[0] == '-'
  {
    if n < 0 then "-" + NatToString(-n) else NatToString(n)
  }

  /** Text `int(...)` reads: an optional minus sign followed by digits. */
  predicate IntText(s: string) {
    && 1 <= |s|
    && (s[0] == '-' ==> AllDigits(s[1..]))
    && (s[0] != '-' ==> AllDigits(s))
  }

  /** Reads an optional minus sign followed by digits. */
  function ParseInt(s: string): (r: int)
    requires 1 <= |s|
    requires s[0] == '-' ==> AllDigits(s[1..])
    requires s[0] != '-' ==> AllDigits(s)
  {
    if s[0] == '-' then -(ParseNat(s[1..]) as int) else ParseNat(s)
  }

  lemma ParseIntToString(n: int)
    ensures IntText(IntToString(n))
    ensures ParseInt(IntToString(n)) == n
  {
    if n < 0 {
      ParseNegative(-n);
    } else {
      ParseNonNegative(n);
    }
  }

  lemma ParseNegative(m: nat)
    requires m > 0
    ensures ParseInt(IntToString(-(m as int))) == -(m as int)
  {
    var digits := NatToString(m);
    assert IntToString(-(m as int)) == "-" + digits;
    assert ("-" + digits)[1..] == digits;
    ParseNatToString(m);
  }

  lemma ParseNonNegative(m: nat)
    ensures ParseInt(IntToString(m)) == m
  {
    var digits := NatToString(m);
    assert IntToString(m) == digits;
    assert IsDigit(digits[0]);
    ParseNatToString(m);
  }

  /** `"{:02d}".format(n)` for a non-negative int: at least two digits,
      padded with a leading zero. */
  function Pad2(n: nat): (s: string)
    ensures 2 <= |s|
    ensures AllDigits(s)
    ensures ParseNat(s) == n
    ensures n < 100 ==> |s| == 2
  {
    ParseNatToString(n);
    if n < 10 then
      var s := "0" + NatToString(n);
      assert s[..|s| - 1] == "0";
      s
    else
      NatToString(n)
  }

  lemma Pad2Zero()
    ensures Pad2(0) == "00"
  {
    assert NatToString(0) == "0";
  }

  /** Python's `a < b` on str: lexicographic by code point, a proper prefix
      being smaller. */
  predicate StrLt(a: string, b: string)
    decreases |a|
  {
    if |a| == 0 then |b| > 0
    else if |b| == 0 then false
    else if a[0] == b[0] then StrLt(a[1..], b[1..])
    else a[0] < b[0]
  }

  lemma {:induction false} StrLtIrreflexive(a: string)
    ensures !StrLt(a, a)
    decreases |a|
  {
    if |a| > 0 {
      StrLtIrreflexive(a[1..]);
    }
  }

  lemma {:induction false} StrLtTransitive(a: string, b: string, c: string)
    requires StrLt(a, b) && StrLt(b, c)
    ensures StrLt(a, c)
    decreases |a|
  {
    if |a| > 0 && a[0] == b[0] && b[0] == c[0] {
      StrLtTransitive(a[1..], b[1..], c[1..]);
    }
  }

  lemma {:induction false} StrLtTotal(a: string, b: string)
    ensures a == b || StrLt(a, b) || StrLt(b, a)
    decreases |a|
  {
    if |a| > 0 && |b| > 0 && a[0] == b[0] {
      StrLtTotal(a[1..], b[1..]);
      if a[1..] == b[1..] {
        assert a == [a[0]] + a[1..];
        assert b == [b[0]] + b[1..];
      }
    }
  }

  predicate StartsWith(s: string, prefix: string) {
    |prefix| <= |s| && s[..|prefix|] == prefix
  }

  /** `s[:n]` for `n >= 0`: the first `n` characters, or all of `s`. */
  function Head(s: string, n: nat): (r: string)
    ensures |r| == if |s| <= n then |s| else n
    ensures StartsWith(s, r)
  {
    if |s| <= n then s else s[..n]
  }

  /** `s.replace(pat, rep)`: every non-overlapping occurrence of `pat`,
      scanning left to right, replaced by `rep`. */
  function Replace(s: string, pat: string, rep: string): (r: string)
    requires |pat| > 0
    ensures forall i :: 0 <= i < |r| ==> r[i] in s || r[i] in rep
    decreases |s|
  {
    if |s| < |pat| then s
    else if s[..|pat|] == pat then
      var rest := Replace(s[|pat|..], pat, rep);
      assert forall i :: 0 <= i < |rest| ==> rest[i] in s || rest[i] in rep by {
        forall i | 0 <= i < |rest| && rest[i] in s[|pat|..]
          ensures rest[i] in s
        {
          var k :| 0 <= k < |s[|pat|..]| && s[|pat|..][k] == rest[i];
          assert s[|pat| + k] == rest[i];
        }
      }
      rep + rest
    else
      var rest := Replace(s[1..], pat, rep);
      assert forall i :: 0 <= i < |rest| ==> rest[i] in s || rest[i] in rep by {
        forall i | 0 <= i < |rest| && rest[i] in s[1..]
          ensures rest[i] in s
        {
          var k :| 0 <= k < |s[1..]| && s[1..][k] == rest[i];
          assert s[1 + k] == rest[i];
        }
      }
      [s[0]] + rest
  }

  /** One unfolding of `Replace` where the pattern does not start. */
  lemma ReplaceSkip(s: string, pat: string, rep: string)
    requires 0 < |pat| <= |s| && s[..|pat|] != pat
    ensures Replace(s, pat, rep) == [s[0]] + Replace(s[1..], pat, rep)
  {
  }

  /** One unfolding of `Replace` where the pattern starts. */
  lemma ReplaceHit(s: string, pat: string, rep: string)
    requires 0 < |pat| <= |s| && s[..|pat|] == pat
    ensures Replace(s, pat, rep) == rep + Replace(s[|pat|..], pat, rep)
  {
  }

  /** Replacing a one-character pattern by text that does not contain it
      leaves no occurrence of that character. */
  lemma {:induction false} ReplaceRemovesChar(s: string, c: char, rep: string)
    requires c !in rep
    ensures c !in Replace(s, [c], rep)
    decreases |s|
  {
    if |s| >= 1 {
      ReplaceRemovesChar(s[1..], c, rep);
    }
  }

  /** Replacing one character by one character keeps the length and acts
      position by position. */
  lemma {:induction false} ReplaceCharPointwise(s: string, c: char, d: char)
    ensures |Replace(s, [c], [d])| == |s|
    ensures forall i :: 0 <= i < |s| ==>
      Replace(s, [c], [d])[i] == (if s[i] == c then d else s[i])
    decreases |s|
  {
    if |s| >= 1 {
      ReplaceCharPointwise(s[1..], c, d);
      assert s[..1] == [s[0]];
    }
  }

  /** `sep.join(parts)`. */
  function Join(parts: seq<string>, sep: string): string
    decreases |parts|
  {
    if |parts| == 0 then ""
    else if |parts| == 1 then parts[0]
    else parts[0] + sep + Join(parts[1..], sep)
  }
}

=== FILE: tiles.dfy ===
/** The tile grid of the WMTS map service (ign/api.py): a tile matrix has a
    top-left corner and square tiles of a fixed size in metres; columns grow
    eastward and rows grow southward from that corner, as in the tile matrix
    model of section 6.1 of the OGC Web Map Tile Service standard 1.0.0
    (OGC 07-057r7). The matrix for a zoom level comes from the service and
    is a parameter here, and points arrive already projected to Mercator
    metres. */
module Tiles {
  import opened Results
  import opened PyMath
  import opened Strings

  /** The fields of a tile matrix the program reads: the tile height in
      pixels, the resolution of the zoom level in metres per pixel, and the
      top-left corner in Mercator metres. */
  datatype TileMatrix = TileMatrix(tileHeight: real, res: real, x0: real, y0: real)

  /** `tile_attributes(level)`: the side of a tile in metres and the
      top-left corner. The side measured at the zoom level's resolution is
      the tile's pixel height, and conversely. */
  function TileAttributes(m: TileMatrix): (r: (real, (real, real)))
    ensures m.tileHeight > 0.0 && m.res > 0.0 ==> r.0 > 0.0
    ensures m.res != 0.0 ==> r.0 / m.res == m.tileHeight
    ensures m.tileHeight != 0.0 ==> r.0 / m.tileHeight == m.res
    ensures m.tileHeight == 0.0 || m.res == 0.0 ==> r.0 == 0.0
    ensures r.1 == (m.x0, m.y0)
  {
    (m.tileHeight * m.res, (m.x0, m.y0))
  }

  function TileSize(m: TileMatrix): real {
    TileAttributes(m).0
  }

  /** `get_coords(p, level)`: the column counts whole tiles east of the
      corner and the row whole tiles south of it, both rounded down; a zero
      tile size raises ZeroDivisionError. */
  function GetCoords(m: TileMatrix, x: real, y: real): (r: Result<(int, int)>)
    ensures r.Ok? <==> TileSize(m) != 0.0
    ensures r.Ok? && TileSize(m) > 0.0 ==>
      m.x0 + r.value.0 as real * TileSize(m) <= x < m.x0 + (r.value.0 + 1) as real * TileSize(m)
    ensures r.Ok? && TileSize(m) > 0.0 ==>
      m.y0 - (r.value.1 + 1) as real * TileSize(m) < y <= m.y0 - r.value.1 as real * TileSize(m)
  {
    var ts := TileSize(m);
    if ts == 0.0 then Err(ZeroDivisionError)
    else
      var col := Floor((x - m.x0) / ts);
      var row := Floor((m.y0 - y) / ts);
      if ts > 0.0 then
        FloorScaled(x - m.x0, ts);
        FloorScaled(m.y0 - y, ts);
        Ok((col, row))
      else
        Ok((col, row))
  }

  /** `floor(a / ts) * ts <= a < (floor(a / ts) + 1) * ts` for a positive `ts`. */
  lemma FloorScaled(a: real, ts: real)
    requires ts > 0.0
    ensures Floor(a / ts) as real * ts <= a < (Floor(a / ts) + 1) as real * ts
  {
    var q := a / ts;
    var f := Floor(q) as real;
    assert q * ts == a;
    assert f <= q < f + 1.0;
    assert f * ts <= q * ts;
    var gap := f + 1.0 - q;
    assert gap * ts > 0.0;
    assert (f + 1.0) * ts - q * ts == gap * ts;
    assert (f + 1.0) * ts > a;
    assert (Floor(q) + 1) as real * ts == (f + 1.0) * ts;
  }

  /** `reverse_coords(col, row, level)`: the top-left corner of a tile. */
  function ReverseCoords(m: TileMatrix, col: int, row: int): (r: (real, real))
    ensures TileSize(m) > 0.0 ==> (r.0 < m.x0 <==> col < 0) && (r.1 > m.y0 <==> row < 0)
  {
    var ts := TileSize(m);
    assert ts > 0.0 ==> (col as real * ts < 0.0 <==> col < 0);
    assert ts > 0.0 ==> (row as real * ts < 0.0 <==> row < 0);
    (m.x0 + col as real * ts, m.y0 - row as real * ts)
  }

  /** A point lies in the tile `get_coords` gives it: between that tile's
      top-left corner and the corner of the next tile to the south-east. */
  lemma PointInItsTile(m: TileMatrix, x: real, y: real)
    requires TileSize(m) > 0.0
    ensures GetCoords(m, x, y).Ok?
    ensures var (c, r) := GetCoords(m, x, y).value;
      var (tx, ty) := ReverseCoords(m, c, r);
      var (nx, ny) := ReverseCoords(m, c + 1, r + 1);
      tx <= x < nx && ny < y <= ty
  {
  }

  /** Going from a tile to its corner and back gives the same tile. */
  lemma ReverseCoordsRoundTrip(m: TileMatrix, col: int, row: int)
    requires TileSize(m) > 0.0
    ensures var (x, y) := ReverseCoords(m, col, row); GetCoords(m, x, y) == Ok((col, row))
  {
    var ts := TileSize(m);
    var (x, y) := ReverseCoords(m, col, row);
    assert (x - m.x0) / ts == col as real;
    assert (m.y0 - y) / ts == row as real;
  }

  /** Rounding a quotient down preserves the order of the dividends. */
  lemma FloorQuotientMonotone(a: real, b: real, ts: real)
    requires ts > 0.0 && a <= b
    ensures Floor(a / ts) <= Floor(b / ts)
  {
    assert a / ts <= b / ts;
  }

  /** Columns never decrease eastward and rows never decrease southward. */
  lemma GetCoordsMonotone(m: TileMatrix, x: real, y: real, x': real, y': real)
    requires TileSize(m) > 0.0
    requires x <= x' && y' <= y
    ensures GetCoords(m, x, y).value.0 <= GetCoords(m, x', y').value.0
    ensures GetCoords(m, x, y).value.1 <= GetCoords(m, x', y').value.1
  {
    var ts := TileSize(m);
    FloorQuotientMonotone(x - m.x0, x' - m.x0, ts);
    FloorQuotientMonotone(m.y0 - y, m.y0 - y', ts);
  }

  const QueryHead: string := "SERVICE=WMTS&REQUEST=GetTile&VERSION=1.0.0&&LAYER="
  const QueryTail: string := "&STYLE=normal&FORMAT=image/jpeg"

  /** `query(layer, level, col, row)`: the GetTile request parameters joined
      by `&`. The template writes the layer entry as `&LAYER={layer}`, so
      the query carries an empty pair before it. The tile matrix set name
      is a parameter. */
  function Query(layer: string, mset: string, level: int, col: int, row: int): (q: string)
    ensures StartsWith(q, QueryHead + layer + "&TILEMATRIXSET=" + mset + "&TILEMATRIX=" + IntToString(level))
    ensures |q| >= |QueryTail| && q[|q| - |QueryTail|..] == QueryTail
  {
    var head := QueryHead + layer + "&TILEMATRIXSET=" + mset + "&TILEMATRIX=" + IntToString(level);
    var cell := "&TILECOL=" + IntToString(col) + "&TILEROW=" + IntToString(row);
    var q := head + cell + QueryTail;
    FramedBy(head, cell, QueryTail);
    q
  }

  /** A concatenation starts with its first part and ends with its last. */
  lemma FramedBy(a: string, b: string, c: string)
    ensures StartsWith(a + b + c, a)
    ensures |a + b + c| >= |c| && (a + b + c)[|a + b + c| - |c|..] == c
  {
    assert (a + b + c)[..|a|] == a;
  }
}

=== FILE: track.dfy ===
/** Greedy segmentation of a path into page-sized pieces (track/track.py).
    The page extent `(w, h)` and margin `m`, in km, are what the zoom level's
    `rescale` returns for the format; they are inputs here. */
module Track {
  import opened Results
  import opened PyMath
  import opened GeoPoint
  import opened BoundingBox
  import opened PageFormat

  /** `(b_max, b_min)`: the larger and the smaller page side, less the margin. */
  function Limits(w: real, h: real, m: real): (r: (real, real))
    ensures r.0 >= r.1
    ensures (r.0 + m == w && r.1 + m == h) || (r.0 + m == h && r.1 + m == w)
    ensures r.0 + m >= w && r.0 + m >= h
  {
    (Max(w, h) - m, Min(w, h) - m)
  }

  /** The admission test for `path[k]` when the box holds `path[start..k]`:
      `(box & path[k]) < (b_max, b_min)`. */
  ghost predicate Admits(g: Geodesy, path: seq<Point>, start: nat, k: nat, w: real, h: real, m: real)
    requires start <= k < |path|
  {
    Lt(g, BoundingBox.Add(FromPoints(path[start..k]), path[k]), Limits(w, h, m))
  }

  /** With the distance axioms, the first point of a segment is admitted
      exactly when the smaller limit is positive: a one-point box measures
      `(0, 0)`. */
  lemma FirstPointAdmitted(g: Geodesy, path: seq<Point>, start: nat, w: real, h: real, m: real)
    requires Valid(g)
    requires start < |path|
    ensures Admits(g, path, start, start, w, h, m) <==> Limits(w, h, m).1 > 0.0
  {
    assert path[start..start] == [];
    assert FromPoints([]) == Empty;
    SinglePointHasZeroDims(g, path[start]);
  }

  /** What `segmentize` returns: fitted box, raw box, start, and the index
      where scanning stopped. */
  datatype Segmentation = Segmentation(box: Box, rawBox: Box, start: nat, curr: nat)

  /** `Track.segmentize`: admits points from `start` while the grown box
      stays below the limits, then fits the raw box to the page with
      `expand_to((w, h))`. When no point was admitted and a page side is
      positive, expanding the empty box raises TypeError. */
  method Segmentize(g: Geodesy, path: seq<Point>, start: nat, w: real, h: real, m: real)
    returns (r: Result<Segmentation>)
    requires start <= |path|
    ensures r.Ok? ==> r.value.start == start && start <= r.value.curr <= |path|
    ensures r.Ok? ==> r.value.rawBox == FromPoints(path[start..r.value.curr])
    ensures r.Ok? ==> forall k :: start <= k < r.value.curr ==> Admits(g, path, start, k, w, h, m)
    ensures r.Ok? && r.value.curr < |path| ==> !Admits(g, path, start, r.value.curr, w, h, m)
    ensures r.Ok? ==> ExpandTo(g, r.value.rawBox, (w, h)) == Ok(r.value.box)
    ensures start < |path| && Admits(g, path, start, start, w, h, m) ==> r.Ok?
    ensures r.Err? ==> r.error == TypeError && Max(w, h) > 0.0
  {
    var curr, box := GrowBox(g, path, start, w, h, m);
    assert box.Empty? <==> curr == start by {
      FromPointsIsEnvelope(path[start..curr]);
    }
    var fitted := ExpandTo(g, box, (w, h));
    if fitted.Err? {
      return Err(fitted.error);
    }
    return Ok(Segmentation(fitted.value, box, start, curr));
  }

  /** The loop of `segmentize`: the box of the points from `start` grows
      one point at a time while it stays below the limits. */
  method GrowBox(g: Geodesy, path: seq<Point>, start: nat, w: real, h: real, m: real)
    returns (curr: nat, box: Box)
    requires start <= |path|
    ensures start <= curr <= |path|
    ensures box == FromPoints(path[start..curr])
    ensures forall k :: start <= k < curr ==> Admits(g, path, start, k, w, h, m)
    ensures curr < |path| ==> !Admits(g, path, start, curr, w, h, m)
  {
    var limits := Limits(w, h, m);
    curr := start;
    box := Empty;
    while curr < |path| && Lt(g, BoundingBox.Add(box, path[curr]), limits)
      invariant start <= curr <= |path|
      invariant box == FromPoints(path[start..curr])
      invariant forall k :: start <= k < curr ==> Admits(g, path, start, k, w, h, m)
      decreases |path| - curr
    {
      assert path[start..curr + 1] == path[start..curr] + [path[curr]];
      FromPointsSnoc(path[start..curr], path[curr]);
      box := BoundingBox.Add(box, path[curr]);
      curr := curr + 1;
    }
  }

  /** One page of the track: its id, fitted and raw boxes, and the index
      range it covers. */
  datatype Segment = Segment(id: nat, box: Box, rawBox: Box, start: nat, end: nat)

  /** Segment `s` is the result of `segmentize` from `s.start` that stopped
      at `curr`, with the end clamped to the last index. */
  ghost predicate SegmentFrom(g: Geodesy, path: seq<Point>, s: Segment, curr: nat, w: real, h: real, m: real) {
    && s.start < curr <= |path|
    && s.end == (if curr < |path| then curr else |path| - 1)
    && s.rawBox == FromPoints(path[s.start..curr])
    && ExpandTo(g, s.rawBox, (w, h)) == Ok(s.box)
    && (forall k :: s.start <= k < curr ==> Admits(g, path, s.start, k, w, h, m))
    && (curr < |path| ==> !Admits(g, path, s.start, curr, w, h, m))
  }

  /** The segments emitted so far, with scanning now at `curr`: ids count up
      from 0, the first starts at 0, and each one starts where the previous
      one stopped. */
  ghost predicate Chained(g: Geodesy, path: seq<Point>, segs: seq<Segment>, curr: nat, w: real, h: real, m: real) {
    && (|segs| == 0 <==> curr == 0)
    && (forall k :: 0 <= k < |segs| ==> segs[k].id == k)
    && (|segs| > 0 ==> segs[0].start == 0)
    && (forall k :: 0 <= k < |segs| - 1 ==> SegmentFrom(g, path, segs[k], segs[k + 1].start, w, h, m))
    && (|segs| > 0 ==> SegmentFrom(g, path, segs[|segs| - 1], curr, w, h, m))
  }

  /** `Track.from_path`: segments the whole path. If `segmentize` makes no
      progress the source calls it again with the same arguments forever,
      which the model reports as `Diverges`. */
  method FromPath(g: Geodesy, path: seq<Point>, w: real, h: real, m: real) returns (o: Run<seq<Segment>>)
    requires Valid(g)
    ensures Limits(w, h, m).1 > 0.0 ==> o.Done?
    ensures |path| > 0 && Limits(w, h, m).1 <= 0.0 ==> !o.Done?
    ensures o.Done? ==> Chained(g, path, o.value, |path|, w, h, m)
    ensures o.Raised? ==> o.error == TypeError
  {
    var curr := 0;
    var segs: seq<Segment> := [];
    while curr < |path|
      invariant curr <= |path|
      invariant Chained(g, path, segs, curr, w, h, m)
      invariant Limits(w, h, m).1 <= 0.0 ==> curr == 0
      decreases |path| - curr
    {
      FirstPointAdmitted(g, path, curr, w, h, m);
      var r := Segmentize(g, path, curr, w, h, m);
      if r.Err? {
        return Raised(r.error);
      }
      var s := r.value;
      if s.curr == curr {
        return Diverges;
      }
      var end := if s.curr < |path| then s.curr else |path| - 1;
      var seg := Segment(|segs|, s.box, s.rawBox, curr, end);
      assert SegmentFrom(g, path, seg, s.curr, w, h, m);
      ChainedSnoc(g, path, segs, curr, seg, s.curr, w, h, m);
      segs := segs + [seg];
      curr := s.curr;
    }
    return Done(segs);
  }

  /** Appending the segment that starts where scanning stopped extends the
      chain to where that segment stopped. */
  lemma ChainedSnoc(g: Geodesy, path: seq<Point>, segs: seq<Segment>, curr: nat, seg: Segment, next: nat,
                    w: real, h: real, m: real)
    requires Chained(g, path, segs, curr, w, h, m)
    requires seg.id == |segs| && seg.start == curr
    requires SegmentFrom(g, path, seg, next, w, h, m)
    ensures Chained(g, path, segs + [seg], next, w, h, m)
  {
    var segs' := segs + [seg];
    forall k | 0 <= k < |segs'| ensures segs'[k].id == k {
      if k < |segs| { assert segs'[k] == segs[k]; }
    }
    forall k | 0 <= k < |segs'| - 1 ensures SegmentFrom(g, path, segs'[k], segs'[k + 1].start, w, h, m) {
      if k < |segs| - 1 {
        assert segs'[k] == segs[k] && segs'[k + 1] == segs[k + 1];
      } else {
        assert segs'[k] == segs[|segs| - 1] && segs'[k + 1] == seg;
      }
    }
    assert segs'[|segs'| - 1] == seg;
  }

  /** A finished segmentation covers the path in order: consecutive
      segments share their boundary index, the first starts at 0 and the
      last ends on the last index. */
  lemma {:induction false} ChainedCoversPath(g: Geodesy, path: seq<Point>, segs: seq<Segment>, w: real, h: real, m: real)
    requires |path| > 0
    requires Chained(g, path, segs, |path|, w, h, m)
    ensures |segs| > 0
    ensures segs[0].start == 0 && segs[|segs| - 1].end == |path| - 1
    ensures forall k :: 0 <= k < |segs| - 1 ==> segs[k].end == segs[k + 1].start
    ensures forall k :: 0 <= k < |segs| - 1 ==> segs[k].start < segs[k].end
    ensures forall k :: 0 <= k < |segs| ==> segs[k].start <= segs[k].end < |path|
  {
    forall k | 0 <= k < |segs| - 1
      ensures segs[k].end == segs[k + 1].start
      ensures segs[k].start < segs[k].end
    {
      assert SegmentFrom(g, path, segs[k], segs[k + 1].start, w, h, m);
      if k + 1 < |segs| - 1 {
        assert SegmentFrom(g, path, segs[k + 1], segs[k + 2].start, w, h, m);
      } else {
        assert SegmentFrom(g, path, segs[k + 1], |path|, w, h, m);
      }
    }
    forall k | 0 <= k < |segs|
      ensures segs[k].start <= segs[k].end < |path|
    {
      if k < |segs| - 1 {
        assert SegmentFrom(g, path, segs[k + 1], if k + 1 < |segs| - 1 then segs[k + 2].start else |path|, w, h, m);
      }
    }
  }

  /** The DPI used by `Track.load`: an explicit one replaces the format's,
      otherwise an unset DPI becomes 72. */
  function LoadFormat(f: Format, dpi: Option<real>): (r: Format)
    ensures r.dpi.Some?
    ensures dpi.Some? ==> r.dpi == dpi
    ensures dpi.None? && f.dpi.Some? ==> r == f
    ensures dpi.None? && f.dpi.None? ==> r.dpi == Some(72.0)
    ensures r.w == f.w && r.h == f.h && r.name == f.name
  {
    if dpi.Some? then f.(dpi := dpi)
    else if f.dpi.None? then f.(dpi := Some(72.0))
    else f
  }

  /** After `load` has set the DPI the pixel size is defined, and loading
      again without a DPI changes nothing. */
  lemma LoadFormatSettles(f: Format, dpi: Option<real>)
    ensures Px(LoadFormat(f, dpi)).Ok?
    ensures LoadFormat(LoadFormat(f, dpi), None) == LoadFormat(f, dpi)
  {
  }
}

=== FILE: units.dfy ===
/** Metric unit conversion (geo/utils.py `convert`). */
module GeoUnits {
  import opened Results

  /** Length of each unit in metres. */
  const Units: map<string, real> := map[
    "mm" := 0.001, "cm" := 0.01, "dm" := 0.1, "m" := 1.0,
    "dam" := 10.0, "hm" := 100.0, "km" := 1000.0
  ]

  lemma UnitsPositive()
    ensures forall u :: u in Units ==> Units[u] > 0.0
  {
  }

  function Scaled(args: seq<real>, factor: real): (r: seq<real>)
    ensures |r| == |args|
  {
    seq(|args|, i requires 0 <= i < |args| => args[i] * factor)
  }

  /** `convert(*args, from_unit=, to_unit=)`: each argument multiplied by the
      ratio of the two units' lengths. The units are looked up once per
      argument inside the comprehension, so a unit outside the table raises
      KeyError only when there is an argument; with none the result is `()`. */
  function Convert(args: seq<real>, from: string, to: string): (r: Result<seq<real>>)
    ensures r.Ok? <==> |args| == 0 || (from in Units && to in Units)
    ensures r.Err? ==> r.error == KeyError
    ensures r.Ok? ==> |r.value| == |args|
    ensures r.Ok? ==> forall i :: 0 <= i < |args| ==>
      from in Units && to in Units && r.value[i] * Units[to] == args[i] * Units[from]
  {
    if |args| == 0 then Ok([])
    else if from !in Units || to !in Units then Err(KeyError)
    else
      UnitsPositive();
      var r := Scaled(args, Units[from] / Units[to]);
      ScaledByRatio(args, Units[from], Units[to]);
      Ok(r)
  }

  /** Scaling by `a / b` turns a length counted in `a` into one counted in `b`. */
  lemma ScaledByRatio(args: seq<real>, a: real, b: real)
    requires b > 0.0
    ensures forall i :: 0 <= i < |args| ==> Scaled(args, a / b)[i] * b == args[i] * a
  {
    forall i | 0 <= i < |args|
      ensures Scaled(args, a / b)[i] * b == args[i] * a
    {
      calc {
        Scaled(args, a / b)[i] * b;
        args[i] * (a / b) * b;
        args[i] * a;
      }
    }
  }

  /** Converting to the unit one starts from changes nothing. */
  lemma ConvertSameUnit(args: seq<real>, u: string)
    requires u in Units
    ensures Convert(args, u, u) == Ok(args)
  {
    UnitsPositive();
    assert Units[u] / Units[u] == 1.0;
    var r := Scaled(args, Units[u] / Units[u]);
    assert forall i :: 0 <= i < |args| ==> r[i] == args[i];
    assert r == args;
  }

  /** Converting there and back gives the arguments back. */
  lemma ConvertRoundTrip(args: seq<real>, a: string, b: string)
    requires a in Units && b in Units
    ensures Convert(args, a, b).Ok?
    ensures Convert(Convert(args, a, b).value, b, a) == Ok(args)
  {
    UnitsPositive();
    RatioInverse(Units[a], Units[b]);
    ScaledInverse(args, Units[a] / Units[b], Units[b] / Units[a]);
  }

  lemma RatioInverse(x: real, y: real)
    requires x > 0.0 && y > 0.0
    ensures (x / y) * (y / x) == 1.0
  {
  }

  /** Scaling by `f` and then by its inverse `g` gives the arguments back. */
  lemma ScaledInverse(args: seq<real>, f: real, g: real)
    requires f * g == 1.0
    ensures Scaled(Scaled(args, f), g) == args
  {
    var back := Scaled(Scaled(args, f), g);
    forall i | 0 <= i < |args|
      ensures back[i] == args[i]
    {
      assert back[i] == (args[i] * f) * g == args[i] * (f * g);
    }
  }

  /** Centimetres to kilometres is the factor 1e-5. */
  lemma CentimetreToKilometre(x: real)
    ensures Convert([x], "cm", "km") == Ok([x * 0.00001])
  {
    assert Units["cm"] / Units["km"] == 0.00001;
    assert Scaled([x], 0.00001) == [x * 0.00001];
  }
}
